=== FILE: README.md ===
# SwapKit core in Dafny

This project models the core of the SwapKit TypeScript SDK:

- **The `SwapKit` client.** This covers:
  - the chain-keyed wallet registry and the name-keyed plugin registry;
  - the approval dispatcher behind `approveAssetValue` and `isAssetValueApproved`;
  - the swap dispatcher.
- **The Maya plugin.** This covers:
  - sender validation and transaction-parameter preparation;
  - the inbound-address lookup;
  - the per-chain deposit with its error classification;
  - `swap`.
- **The aggregator's swap parameters.** This covers `getSwapInParams` and `getSwapOutParams`.
- **The API client helpers.** This covers:
  - the cash-address prefix strip in `paramsToString`;
  - the URL built by `fetchWrapper`;
  - the token de-duplication and form body of `getCachedPrices`.
- **The numeric helpers.** This covers the THORName cost and the BIP-32 derivation-path rendering.
- **The base EVM toolbox.** This covers:
  - the fee tiers of `estimateGasPrices`;
  - `getFeeForTransaction` and `estimateMaxSendableAmount`;
  - the `isEIP1559Transaction`, `isStateChangingCall` and `isApproved` checks;
  - `getTokenAddress`.
- **The EVM browser-wallet helpers.** This covers:
  - `providerRequest`;
  - the network-switch wrapping of `prepareNetworkSwitch`;
  - `getWeb3WalletMethods`;
  - the helpers' own `estimateMaxSendableAmount`.
- **The Trezor EVM signer.** This covers address caching, request validation, the base transaction, signing and sending.
- **The KeepKey UTXO wallet methods.** This covers:
  - the script type and the mapping of PSBT outputs and inputs to the device's format;
  - the null/empty filter;
  - `transfer`.
- **The block-explorer link helpers and the empty wallet structure.** These are modelled as the client's helper tests describe them.

## How it is modelled

Each source file is one module:

- `client.dfy` models `Client`;
- `maya.dfy` models `Maya`;
- `swap_params.dfy` models `SwapParams`;
- `api_helpers.dfy` models `ApiHelpers`;
- `others.dfy` models `Others`;
- `evm_toolbox.dfy` models `EvmToolbox`;
- `evm_helpers.dfy` models `EvmHelpers`;
- `trezor.dfy` models `TrezorEvm`;
- `keepkey_utxo.dfy` models `KeepKeyUtxo`;
- `explorer.dfy` models `Explorer`.

Several modules are shared:

- `Wrappers` holds `Option`;
- `Errors` holds the error type and `Result`;
- `Js` holds dynamic JavaScript values, their truthiness and `find`;
- `Strings` covers `startsWith`, `includes`, the first-match `replace`, lower-casing and decimal rendering;
- `Types` holds the chain enumeration and fee tiers;
- `Assets` holds `AssetValue`;
- `Wallets` holds the wallet capability record.

Asynchronous calls are modelled as pure functions, and a rejected promise is an `Err`. Everything the code obtains from outside is a function-typed field or parameter. This includes:

- a wallet's `getBalance`, `transfer`, `approve` and `isApproved`;
- a plugin's `swap` and `getSpender`;
- the node's inbound addresses;
- address checksumming, cash-address conversion and asset parsing;
- the hardware device;
- the provider;
- transaction serialization;
- the clock.

A plugin closes over the live wallet registry. Here, the registry is passed to each plugin call instead.

Three behaviours of the code may surprise a reader:

- `getSwapKitPlugin` falls back to the first registered plugin when the requested name is unknown. So a swap naming an unregistered plugin goes to the first plugin. It fails with `core_plugin_not_found` only when no plugin is registered at all (`Client.GetSwapKitPlugin`, `Client.SwapSelectsPlugin`).
- In Maya's `deposit`, the sender-address check comes before the wallet-existence check. A chain without a wallet therefore fails as an invalid sender, and `core_wallet_connection_not_found` is never raised by the deposit's own check (`Maya.DepositNeverReportsMissingWallet`).
- Maya's `deposit` awaits the wallet call inside its `try` only on THORChain, Maya and Ethereum. On every other chain it returns the transfer's promise unawaited, so a failed transfer reaches the caller as the wallet's own error, not as a classified deposit error (`Maya.DepositDefaultBranchPassesThrough`).

## Model

| member | source | states |
|---|---|---|
| Types.ParseChain | packages/swapkit/swapkit-core/src/client/__tests__/helpers.test.ts:21-30 | a chain string reads back as the chain whose value it is, and only then; every other string, such as `unsupported`, names no chain |
| Types.AllChainsComplete | packages/swapkit/swapkit-core/src/client/__tests__/helpers.test.ts:7-9 | the enumeration of chains the tests iterate over contains every chain |
| Js.FindIndex | packages/swapkit/thorchain/src/maya.ts:196 | the element `find` selects is the first one passing the test, and none is selected exactly when no element passes it; the inbound lookup, the ABI fragment lookup and the balance lookup all use it |
| Assets.GasAsset | packages/swapkit/core/src/client/index.ts:208 | the default balance entry is the chain's own gas asset, not synthetic, with a zero amount |
| Client.Register | packages/swapkit/core/src/client/index.ts:95-99 | registering a name stores its methods; a new name is appended to the enumeration order, a repeated name keeps its place and is overwritten; the registry stays duplicate-free and lists exactly the registered names |
| Client.BuildRegistry | packages/swapkit/core/src/client/index.ts:95-99 | after the plugin loop, exactly the names returned by the factories are registered and the first factory's name is first in enumeration order |
| Client.BuildRegistryLastWins | packages/swapkit/core/src/client/index.ts:95-99 | when two factories return the same name, the later one's methods are kept |
| Client.SwapKit | packages/swapkit/core/src/client/index.ts:92-99 | a fresh client has no wallets and a well-formed plugin registry |
| Client.GetSwapKitPlugin | packages/swapkit/core/src/client/index.ts:116-126 | a registered name selects its plugin; an omitted or unknown name selects the first registered plugin; `core_plugin_not_found` exactly when no plugin is registered |
| Client.AddChain | packages/swapkit/core/src/client/index.ts:128-130 | the wallet is stored under its own chain; every other chain keeps its wallet and the plugins are untouched |
| Client.GetWallet | packages/swapkit/core/src/client/index.ts:185-187 | absent exactly for a chain never connected, otherwise the stored wallet |
| Client.GetAddress | packages/swapkit/core/src/client/index.ts:189-190 | `""` for an unconnected chain, never an error; otherwise the wallet's address |
| Client.GetBalance | packages/swapkit/core/src/client/index.ts:192-193 | the empty list for an unconnected chain, otherwise the wallet's cached balance |
| Client.ValidateAddress | packages/swapkit/core/src/client/index.ts:203-205 | an answer exists exactly when the chain's wallet has a validator, and it is that validator's verdict |
| Client.AddChainThenGet | packages/swapkit/core/src/client/index.ts:128-130 | after connecting a wallet, the getters return exactly that wallet, its address and its balance |
| Client.AddChainLastWriterWins | packages/swapkit/core/src/client/index.ts:128-130 | a second connection of the same chain replaces the first entirely, with no merging of fields |
| Client.AddChainCommutes | packages/swapkit/core/src/client/index.ts:128-130 | connections of two different chains do not interfere: either order yields the same client |
| Client.GetWalletWithBalance | packages/swapkit/core/src/client/index.ts:207-221 | a missing wallet or a failed fetch is rethrown as `core_wallet_connection_not_found` carrying the original cause; otherwise the registry's wallet gets the fetched balance, or the zero gas asset when the fetch was empty, and nothing else changes |
| Client.WalletWithBalanceNeverEmpty | packages/swapkit/core/src/client/index.ts:207-221 | after a successful refresh the chain's balance is never empty and the address is unchanged |
| Client.ResolveSpender | packages/swapkit/core/src/client/index.ts:166-171 | a registered plugin with `getSpender` supplies the spender; any other string is taken literally as the spender address |
| Client.ApproveAsset | packages/swapkit/core/src/client/index.ts:136-179 | native EVM assets, assets of chains off the allow-list and synthetic assets short-circuit to the trivially-approved answer; otherwise a missing wallet or wallet action fails as `core_wallet_connection_not_found`, and a missing token or sender address fails as `core_approve_asset_address_or_from_not_found` |
| Client.ApproveAssetValue | packages/swapkit/core/src/client/index.ts:223-229 | approving yields a submitted-approval outcome, never a boolean: `approved` when no allowance is needed, a missing wallet or `approve` action otherwise fails, and a success is the hash the wallet's `approve` returned for the asset's amount and address, the registry address and the resolved spender |
| Client.IsAssetValueApproved | packages/swapkit/core/src/client/index.ts:231-237 | checking yields a boolean outcome, never a transaction: `true` when no allowance is needed, a missing wallet or `isApproved` action otherwise fails, and a success is the wallet's `isApproved` answer for the same parameters |
| Client.ApproveShortCircuitIgnoresState | packages/swapkit/core/src/client/index.ts:145-153 | the short-circuit answer does not depend on any wallet or plugin: every client gives the same answer |
| Client.ApproveForwardsToWallet | packages/swapkit/core/src/client/index.ts:166-178 | once the checks pass, the wallet action receives the base amount, the token address, the registry address and the resolved spender, and its result is returned unmodified |
| Client.ApproveModesAgree | packages/swapkit/core/src/client/index.ts:136-179 | approving and checking share one algorithm: both fail alike before reaching the wallet, or both hand the wallet identical parameters |
| Client.Swap | packages/swapkit/core/src/client/index.ts:239-245 | parameters without a `route` fail with `core_swap_invalid_params` before any plugin lookup; with no plugin the swap fails with `core_plugin_not_found`; otherwise the parameters go unchanged to some registered plugin's `swap` |
| Client.SwapSelectsPlugin | packages/swapkit/core/src/client/index.ts:116-126 | a swap naming a registered plugin goes to it; an unnamed or unknown one goes to the first registered plugin |
| Client.SwapFallsBackToFirstFactory | packages/swapkit/core/src/client/index.ts:95-126 | with the factory list, the fallback plugin is the one registered under the first factory's name |
| SwapParams.GetSwapOutParams | packages/swapkit/swapkit-core/src/aggregator/getSwapParams.ts:22-36 | an unparsable `fromAsset` fails with `core_swap_asset_not_recognized` and only then; the amount carries the raw input and the asset's decimals; the memo is the chosen memo (a truthy streaming memo first when streaming, else `memo`) with its first `{recipientAddress}` replaced by the recipient, and is absent exactly when the chosen memo is |
| SwapParams.FirstMissing | packages/swapkit/swapkit-core/src/aggregator/getSwapParams.ts:75-78 | no field is reported missing exactly when a vault, a router, a transaction memo and a token are all present |
| SwapParams.GetSwapInParams | packages/swapkit/swapkit-core/src/aggregator/getSwapParams.ts:38-94 | a generic aggregator without a router fails first, then the vault, router, memo and token checks in order; on success the eight (generic) or seven parameters are the checksummed router, vault and token, the filled-in memo and the amount, followed by the router, data and deadline or by the minimum output and deadline |
| SwapParams.TransactionMemoPreference | packages/swapkit/swapkit-core/src/aggregator/getSwapParams.ts:72-73 | a truthy streaming memo wins when streaming, then a truthy `tcMemo`, then `memo` |
| SwapParams.SwapInMemoHasRecipient | packages/swapkit/swapkit-core/src/aggregator/getSwapParams.ts:84 | a recipient without `$` patterns appears in the memo parameter whenever the placeholder appeared; a memo without the placeholder is passed through unchanged |
| SwapParams.SwapOutMemoHasRecipient | packages/swapkit/swapkit-core/src/aggregator/getSwapParams.ts:30-34 | the same for the swap-out memo: a `$`-free recipient appears whenever the placeholder did, and a memo without it is unchanged |
| Strings.ReplaceFirstAbsent | packages/swapkit/swapkit-core/src/aggregator/getSwapParams.ts:34 | a string `replace` whose pattern does not occur leaves the string unchanged |
| Strings.IndexOf | packages/swapkit/swapkit-core/src/aggregator/getSwapParams.ts:34 | the position `replace` works at is the leftmost occurrence of the pattern, and there is none exactly when the pattern does not occur |
| Strings.ReplaceFirstAt | packages/swapkit/swapkit-core/src/aggregator/getSwapParams.ts:34 | a string `replace` splices the replacement, with its `$$`, `$&`, `` $` `` and `$'` patterns expanded, in at exactly the leftmost occurrence and keeps everything around it; a replacement without `$` is spliced in literally |
| Strings.SubstitutionLiteral | packages/swapkit/swapkit-core/src/aggregator/getSwapParams.ts:84 | a replacement text without `$` is inserted exactly as written |
| Strings.ReplacementPatternsExpand | packages/swapkit/swapkit-core/src/aggregator/getSwapParams.ts:84 | a replacement holding `$&`, `` $` ``, `$'` or `$$` puts back the matched text, the text around the match, or a single `$` |
| Strings.ReplaceFirstInserts | packages/swapkit/swapkit-core/src/aggregator/getSwapParams.ts:84 | after `replace`, a replacement without `$` occurs in the result whenever the pattern occurred in the input |
| Strings.ToLower | packages/swapkit/swapkit-core/src/aggregator/getSwapParams.ts:58 | lower-casing keeps the length and maps each character on its own, changing only upper-case letters |
| Strings.NatToStringDigits | packages/swapkit/helpers/src/helpers/others.ts:23 | the decimal rendering of a number is a non-empty digit string that reads back as the same number |
| Maya.ValidateAddressType | packages/swapkit/thorchain/src/maya.ts:18-34 | a missing or empty address is invalid; on Bitcoin an address is valid exactly when it is not Taproot (`bc1p`); on every other chain any address is valid |
| Maya.PrepareTxParams | packages/swapkit/thorchain/src/maya.ts:38-46 | every field is kept except that a falsy memo becomes `""` and `from` becomes the registry address of the asset's chain |
| Maya.PreparedSenderIsRegistryAddress | packages/swapkit/thorchain/src/maya.ts:44 | the prepared sender ignores any caller-supplied `from` |
| Maya.GetInboundDataByChain | packages/swapkit/thorchain/src/maya.ts:188-204 | THORChain and Maya get the fixed empty entry without a lookup; otherwise a fetch failure propagates, no entry for the chain fails with `core_inbound_data_not_found`, and the first entry for the chain is returned unless it is halted (`core_chain_halted`) |
| Maya.GetApprovalTarget | packages/swapkit/thorchain/src/maya.ts:180-186 | the router of the chain's inbound entry, empty for THORChain and Maya, failing exactly when the lookup fails |
| Maya.DepositErrorKeyIsPrioritySearch | packages/swapkit/thorchain/src/maya.ts:123-138 | the error classifier is a first-match search over the phrase list in priority order on the lower-cased message |
| Maya.DepositErrorKeyPriority | packages/swapkit/thorchain/src/maya.ts:123-138 | the chosen key belongs to a phrase that occurs with no earlier phrase occurring, or is the generic deposit error when no phrase occurs |
| Maya.Deposit | packages/swapkit/thorchain/src/maya.ts:55-142 | a chain without a wallet, or whose address fails validation, fails as an invalid sender; on THORChain, Maya and Ethereum every other failure is a wrapped error whose key classifies the cause's message; on any other chain the result is the transfer's own |
| Maya.DepositDefaultBranchPassesThrough | packages/swapkit/thorchain/src/maya.ts:116-141 | on a chain outside the awaited branches, a rejected transfer reaches the caller unchanged and is never wrapped with a deposit error key |
| Maya.DepositNeverReportsMissingWallet | packages/swapkit/thorchain/src/maya.ts:63-72 | the wallet-existence check after sender validation never fires: the key can come back only as a non-awaited transfer's own error |
| Maya.DepositEthereumCall | packages/swapkit/thorchain/src/maya.ts:89-114 | on Ethereum the deposit calls `depositWithExpiry` on the given router or else the inbound router, with the recipient, the checksummed token, the decimal base amount, the prepared memo and the expiration, from the registry address and with the amount attached only for the gas asset; a failed lookup, checksum or call is classified like any awaited failure |
| Maya.DepositNativeBranch | packages/swapkit/thorchain/src/maya.ts:83-87 | on THORChain and Maya an empty recipient means the wallet's native `deposit`, any other recipient a `transfer`; the answer is returned, or classified when it is a failure |
| Maya.Swap | packages/swapkit/thorchain/src/maya.ts:144-147 | a route without a sell asset, or with one that does not parse, fails with `core_swap_asset_not_recognized` |
| Maya.SwapDepositsToInbound | packages/swapkit/thorchain/src/maya.ts:149-161 | a non-EVM sale, or a route without EVM details, is a deposit of the parsed asset to the chain's inbound address with the route memo (`""` when absent), the route's sender and the fee option |
| Maya.SwapNativeAssetUsesDeposit | packages/swapkit/thorchain/src/maya.ts:149-161 | selling a THORChain or Maya asset uses the wallet's native deposit with an empty recipient, never a transfer |
| Maya.SwapEvmCall | packages/swapkit/thorchain/src/maya.ts:149-177 | an EVM sale along a route with EVM details fails with the inbound lookup's error, then with `core_wallet_connection_not_found` without a wallet, and is otherwise the wallet's contract call with the route's contract, method and parameters, the route's source address as sender, the amount attached only for the gas asset, and the caller's fee option |
| ApiHelpers.StripCashPrefix | packages/swapkit/swapkit-api/src/helpers.ts:12 | removing the prefix never lengthens the address |
| ApiHelpers.StripCashPrefixAbsent | packages/swapkit/swapkit-api/src/helpers.ts:12 | an address containing neither `bchtest:` nor `bitcoincash:` is unchanged |
| ApiHelpers.StripCashPrefixLeftmost | packages/swapkit/swapkit-api/src/helpers.ts:12 | otherwise exactly the leftmost occurrence of either prefix is cut out and the rest is kept |
| ApiHelpers.StripCashPrefixExamples | packages/swapkit/swapkit-api/src/helpers.ts:12 | both cash-address forms lose their prefix |
| ApiHelpers.RewriteRecipient | packages/swapkit/swapkit-api/src/helpers.ts:10-13 | the parameters keep their keys and order; only a non-empty `recipientAddress` changes, by losing its cash-address prefix; this rewritten list is also what the caller holds afterwards (see `ApiHelpers.FetchUrl`) |
| ApiHelpers.FetchUrl | packages/swapkit/swapkit-api/src/helpers.ts:10-39 | without parameters the URL is requested as given; with them it is followed by `?` and the encoding of the parameters as rewritten in place, which are also the caller's parameters after the call |
| ApiHelpers.DedupeTokens | packages/swapkit/swapkit-api/src/helpers.ts:49-50 | the kept tokens are the first occurrences in input order, without duplicates, and every input token is kept |
| ApiHelpers.FirstOccurrencesOrdered | packages/swapkit/swapkit-api/src/helpers.ts:49-50 | the de-duplication preserves the relative order of the tokens it keeps |
| ApiHelpers.FirstOccurrencesContains | packages/swapkit/swapkit-api/src/helpers.ts:49-50 | the first occurrence of every token is kept |
| ApiHelpers.CachedPricesBody | packages/swapkit/swapkit-api/src/helpers.ts:47-56 | the body holds one `tokens` entry per distinct token in first-occurrence order, and then the `metadata`, `lookup` and `sparkline` flags in that order, each exactly when that option is truthy |
| Others.THORNameCost | packages/swapkit/helpers/src/helpers/others.ts:5-8 | a negative year count is rejected and only then; otherwise the cost is 10 plus one per year |
| Others.THORNameCostIncreasing | packages/swapkit/helpers/src/helpers/others.ts:3-8 | each further year costs more; zero years cost 10 and one year costs 11, the minimum registration fee |
| Others.DerivationPathToString | packages/swapkit/helpers/src/helpers/others.ts:18-24 | the rendering is a path rooted at `m/` |
| Others.DerivationPathRoundTrip | packages/swapkit/helpers/src/helpers/others.ts:18-24 | rendering loses nothing: the path parser recovers all levels, including whether an index was given |
| Others.DerivationPathShapes | packages/swapkit/helpers/src/helpers/others.ts:21-23 | with an index the path has three hardened levels, the change and the index; without one it ends at the change |
| Others.DerivationPathExample | packages/swapkit/helpers/src/helpers/others.ts:18-24 | `[44,60,0,0,0]` renders as `m/44'/60'/0'/0/0` and the short `[84,0,0,0]` as `m/84'/0'/0'/0` |
| EvmToolbox.ScaleOrdered | packages/toolboxes/toolbox-evm/src/toolbox/BaseEVMToolbox.ts:295-306 | average ≤ fast ≤ fastest for every base price |
| EvmToolbox.ScaleMonotone | packages/toolboxes/toolbox-evm/src/toolbox/BaseEVMToolbox.ts:295-306 | a higher base price never yields a lower tier price |
| EvmToolbox.EstimateGasPrices | packages/toolboxes/toolbox-evm/src/toolbox/BaseEVMToolbox.ts:287-330 | a failed query, or a missing fee field of the selected mode, fails with the "Failed to estimate gas price" message; otherwise the average tier is the provider's fee, the fast tier one and a half times it rounded down, and the fastest tier twice it |
| EvmToolbox.EstimatedTiersOrdered | packages/toolboxes/toolbox-evm/src/toolbox/BaseEVMToolbox.ts:287-330 | a faster tier never costs less per unit of gas |
| EvmToolbox.Eip1559Detection | packages/toolboxes/toolbox-evm/src/toolbox/BaseEVMToolbox.ts:55-58 | a request with neither a type nor EIP-1559 fee fields is legacy; a truthy max fee or type 2 makes it EIP-1559; zero-valued fee fields do not |
| EvmToolbox.IsStateChangingCall | packages/toolboxes/toolbox-evm/src/toolbox/BaseEVMToolbox.ts:73-83 | a missing fragment fails with the "No ABI fragment found" message, and only then |
| EvmToolbox.StateChangingMeansNoMutability | packages/toolboxes/toolbox-evm/src/toolbox/BaseEVMToolbox.ts:52-83 | because the two mutability lists are disjoint, a call counts as state-changing exactly when its fragment has no mutability, so a `payable` function does not |
| EvmToolbox.IsApproved | packages/toolboxes/toolbox-evm/src/toolbox/BaseEVMToolbox.ts:173-184 | a failed allowance query propagates; otherwise approved exactly when the allowance covers the amount, which defaults to `MaxInt256` |
| EvmToolbox.IsApprovedMonotone | packages/toolboxes/toolbox-evm/src/toolbox/BaseEVMToolbox.ts:173-184 | a larger allowance approves whatever a smaller one does; with no amount, only an allowance of at least `MaxInt256` approves |
| EvmToolbox.StripUpper0X | packages/toolboxes/toolbox-evm/src/toolbox/BaseEVMToolbox.ts:553 | an upper-case `0X` prefix is removed and nothing else is |
| EvmToolbox.GetTokenAddress | packages/toolboxes/toolbox-evm/src/toolbox/BaseEVMToolbox.ts:546-557 | the chain's own base asset gets its fixed address; any other asset is looked up from the part of its symbol after the ticker |
| EvmToolbox.TokenAddressPrefixes | packages/toolboxes/toolbox-evm/src/toolbox/BaseEVMToolbox.ts:552-553 | a `TICKER-0X…` symbol is looked up without the upper-case prefix, while a lower-case `0x` prefix is kept |
| EvmToolbox.GetFeeForTransaction | packages/toolboxes/toolbox-evm/src/toolbox/BaseEVMToolbox.ts:559-573 | a failed price or gas estimate propagates; otherwise the fee is the selected tier's per-gas price times the gas limit |
| EvmToolbox.FeeForTransactionOrdered | packages/toolboxes/toolbox-evm/src/toolbox/BaseEVMToolbox.ts:559-573 | faster tiers never cost less in total |
| EvmToolbox.EstimateMaxSendableAmount | packages/toolboxes/toolbox-evm/src/toolbox/BaseEVMToolbox.ts:575-624 | a missing asset fails; a non-gas asset's balance is returned as is; the amount never exceeds the balance |
| EvmToolbox.MaxSendableIsBalanceMinusFee | packages/toolboxes/toolbox-evm/src/toolbox/BaseEVMToolbox.ts:595-623 | for the gas asset the amount is the balance minus the fee of the selected tier (fastest by default), floored at zero |
| EvmHelpers.NormalizeParams | packages/toolboxes/toolbox-evm/src/helpers.ts:88 | falsy params become no parameters, an array is passed as is, and any other value is wrapped in a one-element list |
| EvmHelpers.ProviderRequest | packages/toolboxes/toolbox-evm/src/helpers.ts:85-90 | a provider without `send` fails with "Provider not found"; otherwise the request goes to `send` with the normalized parameters |
| EvmHelpers.FailedSwitchSkipsOriginal | packages/toolboxes/toolbox-evm/src/helpers.ts:71-83 | a wrapped method whose network switch fails never runs the original and always fails |
| EvmHelpers.SuccessfulSwitchDelegates | packages/toolboxes/toolbox-evm/src/helpers.ts:71-83 | a wrapped method whose switch succeeds behaves as the original |
| EvmHelpers.PrepareNetworkSwitch | packages/toolboxes/toolbox-evm/src/helpers.ts:49-69 | the toolbox keeps its method names; exactly the listed methods it has are wrapped, and the others are unchanged |
| EvmHelpers.PrepareMatchesReference | packages/toolboxes/toolbox-evm/src/helpers.ts:31-83 | on a provider whose switch succeeds, every method of the prepared toolbox behaves as the original |
| EvmHelpers.ToolboxFor | packages/toolboxes/toolbox-evm/src/helpers.ts:129-134 | Ethereum and Avalanche get their own toolboxes and every other chain the BSC one |
| EvmHelpers.GetWeb3WalletMethods | packages/toolboxes/toolbox-evm/src/helpers.ts:98-152 | a missing provider or API key is an error; a failed signer lookup propagates; a failed network addition off Ethereum is `Failed to add/switch <chain> network: <chain>`; otherwise the result is the chain's toolbox wrapped for its hex chain id, and every success is of that form |
| EvmHelpers.FindBalance | packages/toolboxes/toolbox-evm/src/helpers.ts:169-173 | the entry found is the first with the requested symbol, or with the chain's gas symbol when no asset is given; none exactly when no entry matches |
| EvmHelpers.EstimateMaxSendable | packages/toolboxes/toolbox-evm/src/helpers.ts:154-222 | a failed balance query propagates; no matching balance gives zero; a balance on another chain is returned as is; a falsy contract-call parameter is an error; a fee entry with neither `maxFeePerGas` nor `gasPrice` is `Could not fetch fee data`; otherwise the amount is the balance minus the gas estimate times `maxFeePerGas + (maxPriorityFeePerGas \|\| 1)`, or times `gasPrice`, with no floor |
| EvmHelpers.PriorityOrOne | packages/toolboxes/toolbox-evm/src/helpers.ts:217 | a missing or zero priority fee counts as 1, and any other value is kept |
| EvmHelpers.MaxSendableNotFloored | packages/toolboxes/toolbox-evm/src/helpers.ts:214-221 | unlike the base toolbox, a balance below the fee yields a negative amount |
| TrezorEvm.DevicePathAsWritten | packages/wallets/trezor/src/signer/evm.ts:34 | the path sent to the device starts with a doubled `m/m/` |
| TrezorEvm.DevicePath | packages/wallets/trezor/src/signer/evm.ts:34 | the corrected path parses back to the signer's derivation path |
| TrezorEvm.DevicePathAsWrittenIsMalformed | packages/wallets/trezor/src/signer/evm.ts:29-108 | the path as written is not a derivation path at all, while the corrected one is |
| TrezorEvm.DevicePathExample | packages/wallets/trezor/src/signer/evm.ts:34 | `[44,60,0,0,0]` becomes `m/m/44'/60'/0'/0/0` as written, against the intended `m/44'/60'/0'/0/0` |
| TrezorEvm.GetAddress | packages/wallets/trezor/src/signer/evm.ts:29-43 | a cached address is returned without asking the device; with an empty cache the call succeeds exactly when the device does, returning and caching the device's address, and a device failure is thrown with the device's message |
| TrezorEvm.GetAddressCaches | packages/wallets/trezor/src/signer/evm.ts:29-43 | once a non-empty address is cached, any device gives the same answer |
| TrezorEvm.Validate | packages/wallets/trezor/src/signer/evm.ts:72-80 | a missing `to` and then a missing gas limit are rejected first; EIP-1559 mode holds exactly when both EIP-1559 fee keys are present; with `to` and a gas limit given, an EIP-1559 request is accepted exactly when both fees are truthy and otherwise fails with `Missing maxFeePerGas`, and a legacy request is accepted exactly when a truthy `gasPrice` is present and otherwise fails with `Missing gasPrice` |
| TrezorEvm.Eip1559ModeAgreesWithToolbox | packages/wallets/trezor/src/signer/evm.ts:75-78 | a request the signer accepts in EIP-1559 mode is also EIP-1559 for the toolbox |
| TrezorEvm.BigIntOfString | packages/wallets/trezor/src/signer/evm.ts:88-89 | a decimal digit string reads as its value and a `0x` literal as its hexadecimal value |
| TrezorEvm.BigIntOf | packages/wallets/trezor/src/signer/evm.ts:88-89 | absent values read as 0 and bigints as themselves; a number reads as itself exactly when it is below 10^21 in magnitude, since a larger one renders as exponent-form text that `BigInt` rejects |
| TrezorEvm.BigIntOfDecimalRoundTrip | packages/wallets/trezor/src/signer/evm.ts:88-89 | the decimal rendering of any integer, negative ones included, reads back as that integer |
| TrezorEvm.BigIntOfNumberAsString | packages/wallets/trezor/src/signer/evm.ts:88-89 | a number below 10^21 in magnitude and its decimal string are the same amount; from 10^21 on the digit string still parses while the number throws |
| TrezorEvm.BigIntOfHexExample | packages/wallets/trezor/src/signer/evm.ts:88 | the value `0x0de0b6b3a7640000` is one ether, 10^18 wei |
| TrezorEvm.BuildBaseTx | packages/wallets/trezor/src/signer/evm.ts:84-103 | the base transaction carries the chain id, the parsed amounts in hex, `0x` as empty data, a sender that defaults to the signer's address (the device's answer when none is cached), a nonce that defaults to the pending count of that address, and exactly the fee values of the selected mode; it succeeds exactly when every amount parses, the signer's address (cached or the device's answer) is obtained whenever the sender or the nonce is omitted, and the pending count whenever the nonce is omitted; an unparsable value is the error; the signer state afterwards has the device's address cached whenever a `getAddress` call was reached, even when a later step failed |
| TrezorEvm.SignTransaction | packages/wallets/trezor/src/signer/evm.ts:63-127 | validation failures propagate with the signer unchanged; otherwise the signer state is the one building the base transaction left, whatever fails after it; a success is a non-empty serialization of a valid base transaction |
| TrezorEvm.SignedTypeMatchesFees | packages/wallets/trezor/src/signer/evm.ts:116-122 | the serialized transaction has type 2 exactly in EIP-1559 mode |
| TrezorEvm.SendTransaction | packages/wallets/trezor/src/signer/evm.ts:129-193 | a missing provider is rejected before validation, then the validation failures propagate, both with the signer unchanged; otherwise the signer state is the one building the base transaction left; a success comes from a valid base transaction |
| TrezorEvm.SendBroadcastsSignedTransaction | packages/wallets/trezor/src/signer/evm.ts:172-192 | sending broadcasts exactly the transaction signing produces and returns the provider's answer; an empty serialization, which signing refuses, is broadcast anyway |
| TrezorEvm.LookupSurvivesLaterFailure | packages/wallets/trezor/src/signer/evm.ts:29-110 | an address the device gave while building a request stays cached when signing or sending later fails, so the next call reads it without the device |
| KeepKeyUtxo.ScriptType | packages/wallets/keepkey/src/chains/utxo.ts:35-67 | the script type is `p2wpkh` exactly for Bitcoin and Litecoin and `p2pkh` exactly for Dogecoin and Bitcoin Cash |
| KeepKeyUtxo.UtxoWalletMethods | packages/wallets/keepkey/src/chains/utxo.ts:64-69 | a missing API key is rejected first; then the device's address request decides: its rejection propagates, and otherwise the wallet holds the device's address, the chain's script type and the given path |
| KeepKeyUtxo.MapOutput | packages/wallets/keepkey/src/chains/utxo.ts:72-96 | a flagged change output, or one paying the wallet itself, becomes a change output with the wallet's path and script type; otherwise a spend output exists exactly when there is an address (converted on Bitcoin Cash), and it keeps the amount |
| KeepKeyUtxo.MapOutputsKeepsAddressed | packages/wallets/keepkey/src/chains/utxo.ts:72-97 | when every output has an address, none is dropped |
| KeepKeyUtxo.KeepNonEmptyExactly | packages/wallets/keepkey/src/chains/utxo.ts:99-103 | the filter keeps only non-empty objects and keeps every one of them |
| KeepKeyUtxo.RemoveNullAndEmptyObjects | packages/wallets/keepkey/src/chains/utxo.ts:99-103 | one pass computes the filter: a value is kept exactly when it is a non-null object with at least one key |
| KeepKeyUtxo.FilterKeepsDeviceOutputs | packages/wallets/keepkey/src/chains/utxo.ts:97-107 | the mapped outputs all survive the filter before signing, in order |
| KeepKeyUtxo.MapInputs | packages/wallets/keepkey/src/chains/utxo.ts:136-144 | one device input per raw input, in order, with the wallet's path and script type, the amount as a decimal string of the value, the index as `vout`, the hash as `txid`, and a missing hex as `""` |
| KeepKeyUtxo.FeeRate | packages/wallets/keepkey/src/chains/utxo.ts:131 | a truthy caller fee rate wins; otherwise the toolbox's rate for the requested tier, `fast` by default |
| KeepKeyUtxo.Transfer | packages/wallets/keepkey/src/chains/utxo.ts:115-148 | a missing sender and then a missing recipient are rejected before anything is built |
| KeepKeyUtxo.TransferSignsBuiltTransaction | packages/wallets/keepkey/src/chains/utxo.ts:126-147 | the device signs exactly what was built: the mapped inputs and outputs, version 1, lock time 0 and the memo (`""` by default), and the broadcast result is returned |
| Explorer.NormalizedTxHash | packages/swapkit/swapkit-core/src/client/__tests__/helpers.test.ts:31-35 | an EVM hash always carries `0x`, added only when missing; other chains' hashes are unchanged |
| Explorer.GetExplorerTxUrl | packages/swapkit/swapkit-core/src/client/__tests__/helpers.test.ts:7-68 | an unknown chain string fails with "Unsupported chain: <chain>", and only then; otherwise the link is the chain's explorer, its path and the normalized hash |
| Explorer.GetExplorerAddressUrl | packages/swapkit/swapkit-core/src/client/__tests__/helpers.test.ts:7-68 | the same for addresses, with no normalization |
| Explorer.StandardExplorerLinks | packages/swapkit/swapkit-core/src/client/__tests__/helpers.test.ts:7-19 | for every chain except Litecoin, Dogecoin and Cosmos, links are `<explorer>/tx/<hash>` and `<explorer>/address/<address>` |
| Explorer.EvmTxLinkIgnoresPrefix | packages/swapkit/swapkit-core/src/client/__tests__/helpers.test.ts:31-35 | an EVM hash gives the same link with or without `0x` |
| Explorer.TxLinkDeterminesHash | packages/swapkit/swapkit-core/src/client/__tests__/helpers.test.ts:7-68 | equal transaction links for a chain mean equal normalized hashes |
| Explorer.TxLinkOfChain | packages/swapkit/swapkit-core/src/client/__tests__/helpers.test.ts:7-68 | a chain's own string value always yields its explorer, path and normalized hash |
| Explorer.AddressLinkOfChain | packages/swapkit/swapkit-core/src/client/__tests__/helpers.test.ts:7-68 | a chain's own string value always yields its explorer, path and address |
| Explorer.EthereumLinkExample | packages/swapkit/swapkit-core/src/client/__tests__/helpers.test.ts:31-35 | the Ethereum hash `12345` links to `https://etherscan.io/tx/0x12345` |
| Explorer.LitecoinTxLinkExample | packages/swapkit/swapkit-core/src/client/__tests__/helpers.test.ts:37-41 | Litecoin transactions link directly under `https://ltc.bitaps.com` |
| Explorer.LitecoinAddressLinkExample | packages/swapkit/swapkit-core/src/client/__tests__/helpers.test.ts:42-46 | Litecoin addresses link directly under `https://ltc.bitaps.com` |
| Explorer.CosmosTxLinkExample | packages/swapkit/swapkit-core/src/client/__tests__/helpers.test.ts:48-52 | Cosmos transactions link under `/transactions/` |
| Explorer.CosmosAddressLinkExample | packages/swapkit/swapkit-core/src/client/__tests__/helpers.test.ts:53-57 | Cosmos addresses link under `/account/` |
| Explorer.DogecoinTxLinkExample | packages/swapkit/swapkit-core/src/client/__tests__/helpers.test.ts:59-63 | Dogecoin transactions link under `/transaction/` |
| Explorer.DogecoinAddressLinkExample | packages/swapkit/swapkit-core/src/client/__tests__/helpers.test.ts:64-68 | Dogecoin addresses link under `/address/` |
| Explorer.UnsupportedChainExample | packages/swapkit/swapkit-core/src/client/__tests__/helpers.test.ts:21-30 | both helpers reject `unsupported` with "Unsupported chain: unsupported" |
| Explorer.EmptyWalletStructure | packages/swapkit/swapkit-core/src/client/__tests__/helpers.test.ts:71-82 | every chain has a slot and every slot is empty |

## Left out

- Asynchrony, I/O and the network are not modelled. Promises are results, and every SDK, provider, device and API call is a function-typed parameter. Concurrent interleavings are not modelled because every operation is one atomic step.
- The wallet connectors and their `connect` methods are left out: they live outside the modelled files. `addChain` is modelled as the operation they call.
- `getMAYANameCost` is left out because it is floating-point arithmetic with `Math.round`.
- Address checksumming, cash-address conversion, hex encoding, `URLSearchParams` encoding, JSON stringification, `AssetValue` parsing and transaction serialization are parameters, so their own behaviour is not modelled.
- The explorer helpers' implementation and the chain-to-explorer URL table are not part of this model. The link builders are modelled from their tests, and the table is a parameter pinned down by `Explorer.KnownExplorers` for the URLs the tests name.
- SwapKitError's message is taken to be its key, since the error class is not part of this model.
- The unreachable `estimateGasLimit` branch of the helpers' `estimateMaxSendableAmount` is left out. The preceding parameter check guarantees the contract-call branch.
- `EvmHelpers.EstimateMaxSendable` takes the four contract-call values as a list of exactly four, one per named field of the source.
- `signMessage`, `signTypedData` and `connect` of the Trezor signer are left out. They are a device call with no logic, a method that always throws, and a setter.
- The `fetchTxHex` field and the spread `rest` fields of the KeepKey `transfer` are passed to `buildTx` uninterpreted.
- `Strings.ToLower`: lower-cases ASCII letters only, not the full Unicode case mapping of `toLowerCase`.
- `Others.DerivationPathToString`: derivation levels are natural numbers, so non-integer and negative JavaScript numbers are not modelled.
- `TrezorEvm.BigIntOfString`: `BigInt` also accepts surrounding whitespace, a leading `+` and the `0o` and `0b` prefixes; the model reports those strings as errors. An array amount, whose string form may be numeric, is also an error here.
- `TrezorEvm.BigIntOf`: a number of magnitude 10^21 or more is rejected with a fixed message, not the engine's `Cannot convert 1e+21 to a BigInt` text for that number; numbers are integers here, so the rounding of doubles above 2^53 is not modelled either.
- `TrezorEvm.GetAddress`: asks the device with the corrected path `m/44'/…` (`TrezorEvm.DevicePath`), not the doubled `m/m/44'/…` the source sends (see Findings).
- `TrezorEvm.SignTransaction`: signs with the corrected device path, not the doubled one the source sends (see Findings).
- `TrezorEvm.SendTransaction`: signs with the corrected device path, not the doubled one the source sends (see Findings).
- `Others.THORNameCost`: the year count is an integer; JavaScript also accepts fractional years (1.5 years cost 11.5) and `NaN`, which are not modelled.
- `Maya.Deposit`: the Ethereum branch's expiration uses the clock as a parameter, and `parseInt` of the fractional seconds is modelled as integer division.
- `Maya.Swap`: only the asset-recognition errors are stated on the function. The deposit branch is stated by `Maya.SwapDepositsToInbound` and `Maya.SwapNativeAssetUsesDeposit`, and the EVM contract-call branch by `Maya.SwapEvmCall`.
- The `Chain` enumeration of the types package is not part of this model. The chain list and the chain values in `Types` are assumed from the chains the modelled code and its tests name.
- Comparisons with `===` on tokens are value equality. This matches strings and numbers but not object identity.

## Findings

| source | as written | input that shows it | evidently intended | confidence | as-written member | corrected member |
|---|---|---|---|---|---|---|
| packages/wallets/trezor/src/signer/evm.ts:34 (also 49, 108, 175) | the device path is `m/` followed by `derivationPathToString(...)`, which already begins with `m/` | derivation path `[44, 60, 0, 0, 0]` gives `m/m/44'/60'/0'/0/0` | `m/44'/60'/0'/0/0`, the rendering itself | medium, not executed | TrezorEvm.DevicePathAsWrittenIsMalformed | TrezorEvm.DevicePath |

=== FILE: api_helpers.dfy ===
/** Query and body construction of the aggregator API client: the recipient-prefix
    stripping of `paramsToString`, the URL of `fetchWrapper`, and the de-duplicated
    form body of `getCachedPrices`. Query-string encoding (`URLSearchParams`) and
    `JSON.stringify` are supplied by the caller. */
module ApiHelpers {
  import opened Wrappers
  import opened Js
  import opened Strings

  const BchTestPrefix := "bchtest:"
  const BitcoinCashPrefix := "bitcoincash:"

  /** Request parameters as the object's entries, in insertion order. */
  type Params = seq<(string, string)>

  predicate CashPrefixAt(s: string, i: int) {
    OccursAt(s, BchTestPrefix, i) || OccursAt(s, BitcoinCashPrefix, i)
  }

  /** `s.replace(/(bchtest:|bitcoincash:)/, '')`: removes the leftmost occurrence of
      either prefix (at one position at most one of the two can start). */
  function StripCashPrefix(s: string): (r: string)
    ensures |r| <= |s|
    decreases |s|
  {
    if StartsWith(s, BchTestPrefix) then s[|BchTestPrefix|..]
    else if StartsWith(s, BitcoinCashPrefix) then s[|BitcoinCashPrefix|..]
    else if |s| == 0 then s
    else [s[0]] + StripCashPrefix(s[1..])
  }

  lemma CashPrefixShift(s: string, j: int)
    requires |s| > 0 && 0 <= j
    ensures CashPrefixAt(s[1..], j) <==> CashPrefixAt(s, j + 1)
  {
    OccursAtShift(s, BchTestPrefix, j);
    OccursAtShift(s, BitcoinCashPrefix, j);
  }

  /** With no prefix anywhere, the string is unchanged. */
  lemma {:induction false} StripCashPrefixAbsent(s: string)
    requires forall j :: 0 <= j <= |s| ==> !CashPrefixAt(s, j)
    ensures StripCashPrefix(s) == s
    decreases |s|
  {
    if |s| > 0 {
      assert !StartsWith(s, BchTestPrefix) && !StartsWith(s, BitcoinCashPrefix) by {
        assert !CashPrefixAt(s, 0);
        assert BchTestPrefix <= s ==> OccursAt(s, BchTestPrefix, 0);
      }
      var t := s[1..];
      forall j | 0 <= j <= |t| ensures !CashPrefixAt(t, j) {
        CashPrefixShift(s, j);
      }
      StripCashPrefixAbsent(t);
      assert s == [s[0]] + t;
    }
  }

  lemma NoCashPrefixBefore(s: string, k: int)
    requires |s| > 0 && 0 <= k && !CashPrefixAt(s, 0)
    requires forall m :: 0 <= m < k ==> !CashPrefixAt(s[1..], m)
    ensures forall m :: 0 <= m < k + 1 ==> !CashPrefixAt(s, m)
  {
    forall m | 0 < m < k + 1 ensures !CashPrefixAt(s, m) {
      CashPrefixShift(s, m - 1);
    }
  }

  /** A prefix at the front is cut off. */
  lemma StripCashPrefixAtFront(s: string, p: string)
    requires p == BchTestPrefix || (p == BitcoinCashPrefix && !StartsWith(s, BchTestPrefix))
    requires StartsWith(s, p)
    ensures OccursAt(s, p, 0)
    ensures StripCashPrefix(s) == s[..0] + s[|p|..]
  {
    assert s[0..|p|] == s[..|p|];
  }

  lemma OccursAtFrontIsStartsWith(s: string, p: string)
    ensures OccursAt(s, p, 0) <==> StartsWith(s, p)
  {
    if |p| <= |s| { assert s[0..|p|] == s[..|p|]; }
  }

  /** Without a prefix at the front, the first character is kept. */
  lemma StripCashPrefixStep(s: string)
    requires |s| > 0 && !StartsWith(s, BchTestPrefix) && !StartsWith(s, BitcoinCashPrefix)
    ensures !CashPrefixAt(s, 0)
    ensures StripCashPrefix(s) == [s[0]] + StripCashPrefix(s[1..])
  {
    OccursAtFrontIsStartsWith(s, BchTestPrefix);
    OccursAtFrontIsStartsWith(s, BitcoinCashPrefix);
  }

  /** Putting a character in front of a string with a span cut out is cutting the span,
      one place later, out of the longer string. */
  lemma ConsSplice(c: char, t: string, k: nat, n: nat, u: string)
    requires k + n <= |t| && u == t[..k] + t[k + n..]
    ensures [c] + u == ([c] + t)[..k + 1] + ([c] + t)[k + 1 + n..]
  {
    assert ([c] + t)[..k + 1] == [c] + t[..k];
    assert ([c] + t)[k + 1 + n..] == t[k + n..];
  }

  /** Cutting a span out of `s[1..]` lifts to `s` when `s` has no prefix at the front. */
  lemma StripShift(s: string, k: nat, n: nat)
    requires |s| > 0 && !StartsWith(s, BchTestPrefix) && !StartsWith(s, BitcoinCashPrefix)
    requires k + 1 + n <= |s|
    requires StripCashPrefix(s[1..]) == s[1..][..k] + s[1..][k + n..]
    ensures StripCashPrefix(s) == s[..k + 1] + s[k + 1 + n..]
  {
    StripCashPrefixStep(s);
    ConsSplice(s[0], s[1..], k, n, StripCashPrefix(s[1..]));
    assert [s[0]] + s[1..] == s;
  }

  /** Lifts the leftmost occurrence in `s[1..]` to `s` when `s` has no prefix at the front. */
  lemma LeftmostShift(s: string, k: int, q: string)
    requires |s| > 0 && !StartsWith(s, BchTestPrefix) && !StartsWith(s, BitcoinCashPrefix)
    requires 0 <= k && OccursAt(s[1..], q, k)
    requires forall m :: 0 <= m < k ==> !CashPrefixAt(s[1..], m)
    ensures OccursAt(s, q, k + 1)
    ensures forall m :: 0 <= m < k + 1 ==> !CashPrefixAt(s, m)
  {
    StripCashPrefixStep(s);
    OccursAtShift(s, q, k);
    NoCashPrefixBefore(s, k);
  }

  /** Otherwise exactly the leftmost occurrence is cut out. */
  lemma {:induction false} StripCashPrefixLeftmost(s: string, j: int) returns (i: int, p: string)
    requires 0 <= j <= |s| && CashPrefixAt(s, j)
    ensures p == BchTestPrefix || p == BitcoinCashPrefix
    ensures 0 <= i <= j && OccursAt(s, p, i)
    ensures forall k :: 0 <= k < i ==> !CashPrefixAt(s, k)
    ensures StripCashPrefix(s) == s[..i] + s[i + |p|..]
    decreases |s|
  {
    if StartsWith(s, BchTestPrefix) {
      i, p := 0, BchTestPrefix;
      StripCashPrefixAtFront(s, p);
    } else if StartsWith(s, BitcoinCashPrefix) {
      i, p := 0, BitcoinCashPrefix;
      StripCashPrefixAtFront(s, p);
    } else {
      CashPrefixShift(s, j - 1);
      var k, q := StripCashPrefixLeftmost(s[1..], j - 1);
      LeftmostShift(s, k, q);
      StripShift(s, k, |q|);
      i, p := k + 1, q;
    }
  }

  /** The two cash-address forms lose their prefix. */
  lemma StripCashPrefixExamples(addr: string)
    ensures StripCashPrefix(BitcoinCashPrefix + addr) == addr
    ensures StripCashPrefix(BchTestPrefix + addr) == addr
  {
    assert StartsWith(BitcoinCashPrefix + addr, BitcoinCashPrefix);
    assert !StartsWith(BitcoinCashPrefix + addr, BchTestPrefix) by {
      assert (BitcoinCashPrefix + addr)[1] == 'i';
    }
    assert StartsWith(BchTestPrefix + addr, BchTestPrefix);
  }

  /** The parameter rewrite of `paramsToString`: a non-empty `recipientAddress` loses its
      cash-address prefix; every other entry, and the order, stays. */
  function RewriteRecipient(params: Params): (r: Params)
    ensures |r| == |params|
    ensures forall i :: 0 <= i < |params| ==> r[i].0 == params[i].0
    ensures forall i :: 0 <= i < |params| && (params[i].0 != "recipientAddress" || params[i].1 == "") ==>
              r[i] == params[i]
    ensures forall i :: 0 <= i < |params| && params[i].0 == "recipientAddress" && params[i].1 != "" ==>
              r[i].1 == StripCashPrefix(params[i].1)
  {
    seq(|params|, i requires 0 <= i < |params| =>
      if params[i].0 == "recipientAddress" && params[i].1 != "" then (params[i].0, StripCashPrefix(params[i].1))
      else params[i])
  }

  /** `paramsToString`: the query string, together with the caller's parameter object as
      it is afterwards, since the rewrite assigns `params.recipientAddress` in place. */
  function ParamsToString(params: Params, encode: Params -> string): (r: (Params, string)) {
    var rewritten := RewriteRecipient(params);
    (rewritten, encode(rewritten))
  }

  /** The URL `fetchWrapper` requests, and the caller's parameters after the call: the
      query is appended only when parameters are given (an empty parameter object still
      yields `?`), and it encodes the parameters exactly as the caller is left holding
      them. */
  function FetchUrl(url: string, params: Option<Params>, encode: Params -> string): (r: (string, Option<Params>))
    ensures params.None? ==> r == (url, None)
    ensures params.Some? ==> r.1 == Some(RewriteRecipient(params.value))
    ensures params.Some? ==> StartsWith(r.0, url + "?") && r.0[|url| + 1..] == encode(r.1.value)
  {
    match params
    case None => (url, None)
    case Some(p) =>
      var (after, query) := ParamsToString(p, encode);
      (url + "?" + query, Some(after))
  }

  /** `i` is the first index at which `s[i]` occurs (`findIndex(t => t === s[i]) === i`). */
  predicate IsFirstIndex<T(==)>(s: seq<T>, i: int)
    requires 0 <= i < |s|
  {
    forall j :: 0 <= j < i ==> s[j] != s[i]
  }

  /** The tokens kept by the `findIndex` filter among the first `n`, as a reference. */
  function FirstOccurrences<T(==)>(s: seq<T>, n: nat): seq<T>
    requires n <= |s|
    decreases n
  {
    if n == 0 then [] else FirstOccurrences(s, n - 1) + (if IsFirstIndex(s, n - 1) then [s[n - 1]] else [])
  }

  predicate NoDuplicates<T(==)>(s: seq<T>) {
    forall i, j :: 0 <= i < j < |s| ==> s[i] != s[j]
  }

  /** The de-duplication of `getCachedPrices`: one pass that keeps a token the first time
      it is seen. Tokens are compared with `===`. */
  method DedupeTokens<T(==)>(tokens: seq<T>) returns (r: seq<T>)
    ensures r == FirstOccurrences(tokens, |tokens|)
    ensures NoDuplicates(r)
    ensures forall t :: t in r <==> t in tokens
  {
    r := [];
    var i := 0;
    while i < |tokens|
      invariant 0 <= i <= |tokens|
      invariant r == FirstOccurrences(tokens, i)
      invariant NoDuplicates(r)
      invariant forall t :: t in r <==> t in tokens[..i]
    {
      assert tokens[..i + 1] == tokens[..i] + [tokens[i]];
      if tokens[i] !in r {
        assert IsFirstIndex(tokens, i) by {
          forall j | 0 <= j < i ensures tokens[j] != tokens[i] {
            assert tokens[j] in tokens[..i];
          }
        }
        r := r + [tokens[i]];
      } else {
        assert !IsFirstIndex(tokens, i) by {
          var j :| 0 <= j < i && tokens[..i][j] == tokens[i];
        }
      }
      i := i + 1;
    }
    assert tokens[..i] == tokens;
  }

  /** The relative order of kept tokens is their order in the input. */
  lemma {:induction false} FirstOccurrencesOrdered<T>(s: seq<T>, n: nat, a: nat, b: nat)
    requires n <= |s| && a < b < n && IsFirstIndex(s, a) && IsFirstIndex(s, b)
    ensures exists x, y :: 0 <= x < y < |FirstOccurrences(s, n)| &&
                           FirstOccurrences(s, n)[x] == s[a] && FirstOccurrences(s, n)[y] == s[b]
    decreases n
  {
    var f := FirstOccurrences(s, n - 1);
    if b == n - 1 {
      FirstOccurrencesContains(s, n - 1, a);
      var x :| 0 <= x < |f| && f[x] == s[a];
      assert FirstOccurrences(s, n)[x] == s[a];
      assert FirstOccurrences(s, n)[|f|] == s[b];
    } else {
      FirstOccurrencesOrdered(s, n - 1, a, b);
      var x, y :| 0 <= x < y < |f| && f[x] == s[a] && f[y] == s[b];
      assert FirstOccurrences(s, n)[x] == s[a] && FirstOccurrences(s, n)[y] == s[b];
    }
  }

  lemma {:induction false} FirstOccurrencesContains<T>(s: seq<T>, n: nat, a: nat)
    requires n <= |s| && a < n && IsFirstIndex(s, a)
    ensures s[a] in FirstOccurrences(s, n)
    decreases n
  {
    if a < n - 1 {
      FirstOccurrencesContains(s, n - 1, a);
    }
  }

  /** The form body of `getCachedPrices`: one `tokens` entry per distinct token, then the
      `metadata`, `lookup` and `sparkline` flags, each only when truthy. */
  method CachedPricesBody<T(==)>(tokens: seq<T>, stringify: T -> string,
                                 metadata: JsValue, lookup: JsValue, sparkline: JsValue)
    returns (body: Params)
    ensures var kept := FirstOccurrences(tokens, |tokens|);
            && |body| == |kept| + (if Truthy(metadata) then 1 else 0) + (if Truthy(lookup) then 1 else 0)
                                + (if Truthy(sparkline) then 1 else 0)
            && (forall i :: 0 <= i < |kept| ==> body[i] == ("tokens", stringify(kept[i])))
            && (forall i :: |kept| <= i < |body| ==> body[i].0 != "tokens" && body[i].1 == "true")
    ensures body[|FirstOccurrences(tokens, |tokens|)|..] ==
              (if Truthy(metadata) then [("metadata", "true")] else [])
              + (if Truthy(lookup) then [("lookup", "true")] else [])
              + (if Truthy(sparkline) then [("sparkline", "true")] else [])
    ensures ("metadata", "true") in body <==> Truthy(metadata)
    ensures ("lookup", "true") in body <==> Truthy(lookup)
    ensures ("sparkline", "true") in body <==> Truthy(sparkline)
  {
    var kept := DedupeTokens(tokens);
    body := [];
    var i := 0;
    while i < |kept|
      invariant 0 <= i <= |kept|
      invariant |body| == i
      invariant forall k :: 0 <= k < i ==> body[k] == ("tokens", stringify(kept[k]))
    {
      body := body + [("tokens", stringify(kept[i]))];
      i := i + 1;
    }
    var flags := (if Truthy(metadata) then [("metadata", "true")] else [])
               + (if Truthy(lookup) then [("lookup", "true")] else [])
               + (if Truthy(sparkline) then [("sparkline", "true")] else []);
    body := body + flags;
  }
}

=== FILE: assets.dfy ===
/** Asset amounts: a chain-qualified asset with its amount in base units. */
module Assets {
  import opened Types

  /** `address` is the token contract address, `""` when the asset has none;
      `baseValue` is the amount in the asset's smallest unit. */
  datatype AssetValue = AssetValue(
    chain: Chain,
    symbol: string,
    ticker: string,
    address: string,
    isGasAsset: bool,
    isSynthetic: bool,
    baseValue: nat)

  /** The ticker of each chain's native (gas) asset. */
  function GasTicker(c: Chain): string {
    match c
    case Arbitrum => "ETH"
    case Avalanche => "AVAX"
    case Binance => "BNB"
    case BinanceSmartChain => "BNB"
    case Bitcoin => "BTC"
    case BitcoinCash => "BCH"
    case Cosmos => "ATOM"
    case Dogecoin => "DOGE"
    case Ethereum => "ETH"
    case Kujira => "KUJI"
    case Litecoin => "LTC"
    case Maya => "CACAO"
    case Optimism => "ETH"
    case Polygon => "MATIC"
    case THORChain => "RUNE"
  }

  /** `AssetValue.fromChainOrSignature(chain)`: the chain's gas asset with a zero amount. */
  function GasAsset(c: Chain): (a: AssetValue)
    ensures a.chain == c && a.isGasAsset && !a.isSynthetic && a.baseValue == 0
  {
    AssetValue(c, GasTicker(c), GasTicker(c), "", true, false, 0)
  }
}

=== FILE: client.dfy ===
/** The `SwapKit` client: a chain-keyed wallet registry, a name-keyed plugin registry,
    the approval dispatcher and the swap dispatcher. The client is a value threaded
    through the operations that change it (`AddChain`, `GetWalletWithBalance`). */
module Client {
  import opened Wrappers
  import opened Errors
  import opened Js
  import opened Types
  import opened Assets
  import opened Wallets

  const WalletConnectionNotFound := "core_wallet_connection_not_found"
  const PluginNotFound := "core_plugin_not_found"
  const SwapInvalidParams := "core_swap_invalid_params"
  const AddressOrFromNotFound := "core_approve_asset_address_or_from_not_found"

  /** The explicit plugin selection of a swap. */
  datatype Provider = Provider(name: string, config: map<string, JsValue>)

  /** `SwapParams`: an optional `provider` and every other key of the argument object. */
  datatype SwapParams = SwapParams(provider: Option<Provider>, rest: map<string, JsValue>)

  /** `PluginMethods`. A plugin closes over the live wallet registry; here the registry
      is passed in at each call. */
  datatype PluginMethods = PluginMethods(
    swap: (WalletRegistry, SwapParams) -> Result<string>,
    getSpender: Option<(WalletRegistry, Chain) -> Result<string>>)

  /** The plugin registry: the names in insertion order (the order `Object.values`
      enumerates them) and the methods registered under each name. */
  datatype PluginRegistry = PluginRegistry(order: seq<string>, methods: map<string, PluginMethods>)

  predicate NoDuplicates(s: seq<string>) {
    forall i, j :: 0 <= i < j < |s| ==> s[i] != s[j]
  }

  /** Every name is listed exactly once, and exactly the registered names are listed. */
  ghost predicate ValidRegistry(reg: PluginRegistry) {
    NoDuplicates(reg.order) && (forall n :: n in reg.methods <==> n in reg.order)
  }

  datatype SwapKitClient = SwapKitClient(wallets: WalletRegistry, plugins: PluginRegistry)

  /** `availablePlugins[name] = methods`: a new name goes to the end of the order; a
      name already present keeps its place and its methods are replaced. */
  function Register(reg: PluginRegistry, name: string, m: PluginMethods): (r: PluginRegistry)
    requires ValidRegistry(reg)
    ensures ValidRegistry(r)
    ensures r.methods == reg.methods[name := m]
    ensures name in reg.methods ==> r.order == reg.order
    ensures name !in reg.methods ==> r.order == reg.order + [name]
  {
    if name in reg.methods then PluginRegistry(reg.order, reg.methods[name := m])
    else PluginRegistry(reg.order + [name], reg.methods[name := m])
  }

  /** The plugin loop of the `SwapKit` factory: registers each `(name, methods)` pair
      returned by the plugin factories, in order. */
  function BuildRegistry(plugins: seq<(string, PluginMethods)>): (r: PluginRegistry)
    ensures ValidRegistry(r)
    ensures forall n :: n in r.methods <==> exists i :: 0 <= i < |plugins| && plugins[i].0 == n
    ensures |plugins| > 0 ==> |r.order| > 0 && r.order[0] == plugins[0].0
    decreases |plugins|
  {
    if |plugins| == 0 then PluginRegistry([], map[])
    else
      var prefix := BuildRegistry(plugins[..|plugins| - 1]);
      var last := plugins[|plugins| - 1];
      assert forall i :: 0 <= i < |plugins| - 1 ==> plugins[..|plugins| - 1][i] == plugins[i];
      Register(prefix, last.0, last.1)
  }

  /** The later registration of a name wins: the methods stored under a name are those of
      its last occurrence in the factory list. */
  lemma {:induction false} BuildRegistryLastWins(plugins: seq<(string, PluginMethods)>, i: int)
    requires 0 <= i < |plugins|
    requires forall j :: i < j < |plugins| ==> plugins[j].0 != plugins[i].0
    ensures plugins[i].0 in BuildRegistry(plugins).methods
    ensures BuildRegistry(plugins).methods[plugins[i].0] == plugins[i].1
    decreases |plugins|
  {
    if i < |plugins| - 1 {
      var init := plugins[..|plugins| - 1];
      assert init[i] == plugins[i];
      BuildRegistryLastWins(init, i);
    }
  }

  /** The client right after the `SwapKit` factory runs: no wallet connected yet. */
  function SwapKit(plugins: seq<(string, PluginMethods)>): (c: SwapKitClient)
    ensures c.wallets == map[]
    ensures ValidRegistry(c.plugins)
  {
    SwapKitClient(map[], BuildRegistry(plugins))
  }

  /** `getSwapKitPlugin(name)`: the named plugin when registered; otherwise, when the name
      is omitted or unknown, the first registered plugin; `core_plugin_not_found` only when
      no plugin is registered at all. */
  function GetSwapKitPlugin(reg: PluginRegistry, name: Option<string>): (r: Result<PluginMethods>)
    requires ValidRegistry(reg)
    ensures name.Some? && name.value in reg.methods ==> r == Ok(reg.methods[name.value])
    ensures (name.None? || name.value !in reg.methods) && |reg.order| > 0 ==>
              r == Ok(reg.methods[reg.order[0]])
    ensures r.Err? <==> |reg.order| == 0
    ensures r.Err? ==> r == Err(Key(PluginNotFound))
  {
    if name.Some? && name.value in reg.methods then Ok(reg.methods[name.value])
    else if |reg.order| > 0 then Ok(reg.methods[reg.order[0]])
    else Err(Key(PluginNotFound))
  }

  /** `addChain(wallet)`: stores the wallet under its own chain, replacing any earlier
      entry wholesale; every other chain keeps its entry and the plugins are untouched. */
  function AddChain(c: SwapKitClient, w: ChainWallet): (r: SwapKitClient)
    ensures w.chain in r.wallets && r.wallets[w.chain] == w
    ensures r.wallets.Keys == c.wallets.Keys + {w.chain}
    ensures forall ch :: ch != w.chain && ch in c.wallets ==> r.wallets[ch] == c.wallets[ch]
    ensures r.plugins == c.plugins
  {
    c.(wallets := c.wallets[w.chain := w])
  }

  /** `getWallet(chain)`: the stored wallet, absent for a chain never connected. */
  function GetWallet(c: SwapKitClient, chain: Chain): (r: Option<ChainWallet>)
    ensures r.None? <==> chain !in c.wallets
    ensures r.Some? ==> r.value == c.wallets[chain]
  {
    if chain in c.wallets then Some(c.wallets[chain]) else None
  }

  /** `getAddress(chain)`: the wallet's address, `""` when there is no wallet. */
  function GetAddress(c: SwapKitClient, chain: Chain): (r: string)
    ensures chain !in c.wallets ==> r == ""
    ensures chain in c.wallets ==> r == c.wallets[chain].address
  {
    match GetWallet(c, chain)
    case Some(w) => w.address
    case None => ""
  }

  /** `getBalance(chain)`: the cached balance, `[]` when there is no wallet. */
  function GetBalance(c: SwapKitClient, chain: Chain): (r: seq<AssetValue>)
    ensures chain !in c.wallets ==> r == []
    ensures chain in c.wallets ==> r == c.wallets[chain].balance
  {
    match GetWallet(c, chain)
    case Some(w) => w.balance
    case None => []
  }

  /** `validateAddress({address, chain})`: the wallet's own validator, absent when there
      is no wallet or the wallet has no validator. */
  function ValidateAddress(c: SwapKitClient, chain: Chain, address: string): (r: Option<bool>)
    ensures r.Some? <==> chain in c.wallets && c.wallets[chain].validateAddress.Some?
    ensures r.Some? ==> r.value == c.wallets[chain].validateAddress.value(address)
  {
    match GetWallet(c, chain)
    case Some(w) =>
      (match w.validateAddress
       case Some(v) => Some(v(address))
       case None => None)
    case None => None
  }

  lemma AddChainThenGet(c: SwapKitClient, w: ChainWallet)
    ensures GetWallet(AddChain(c, w), w.chain) == Some(w)
    ensures GetAddress(AddChain(c, w), w.chain) == w.address
    ensures GetBalance(AddChain(c, w), w.chain) == w.balance
  {
  }

  /** A second `addChain` for the same chain replaces the first entirely. */
  lemma AddChainLastWriterWins(c: SwapKitClient, w1: ChainWallet, w2: ChainWallet)
    requires w1.chain == w2.chain
    ensures AddChain(AddChain(c, w1), w2) == AddChain(c, w2)
  {
  }

  /** Connecting two different chains in either order gives the same registry. */
  lemma AddChainCommutes(c: SwapKitClient, w1: ChainWallet, w2: ChainWallet)
    requires w1.chain != w2.chain
    ensures AddChain(AddChain(c, w1), w2) == AddChain(AddChain(c, w2), w1)
  {
  }

  /** `getWalletWithBalance(chain)`: fetches the balance and stores it in the wallet (an
      empty fetch is replaced by the chain's zero gas asset); the wallet object is the one
      held by the registry, so the registry sees the new balance. Every failure, including
      the missing wallet, is rethrown as `core_wallet_connection_not_found` wrapping the
      original error. */
  function GetWalletWithBalance(c: SwapKitClient, chain: Chain, potentialScamFilter: Option<bool>)
    : (r: Result<(SwapKitClient, ChainWallet)>)
    ensures chain !in c.wallets ==>
              r == Err(SwapKitError(WalletConnectionNotFound, Some(Key(WalletConnectionNotFound))))
    ensures chain in c.wallets ==>
              var w := c.wallets[chain];
              match w.getBalance(w.address, potentialScamFilter)
              case Err(e) => r == Err(SwapKitError(WalletConnectionNotFound, Some(e)))
              case Ok(fetched) =>
                && r.Ok?
                && r.value.1 == w.(balance := if |fetched| > 0 then fetched else [GasAsset(chain)])
                && r.value.0 == c.(wallets := c.wallets[chain := r.value.1])
  {
    match GetWallet(c, chain)
    case None => Err(SwapKitError(WalletConnectionNotFound, Some(Key(WalletConnectionNotFound))))
    case Some(w) =>
      match w.getBalance(w.address, potentialScamFilter)
      case Err(e) => Err(SwapKitError(WalletConnectionNotFound, Some(e)))
      case Ok(fetched) =>
        var updated := w.(balance := if |fetched| > 0 then fetched else [GasAsset(chain)]);
        Ok((c.(wallets := c.wallets[chain := updated]), updated))
  }

  /** After a successful `getWalletWithBalance`, `getBalance` is never empty: it is the
      fetched balance, or the single zero gas-asset entry when the fetch was empty. */
  lemma WalletWithBalanceNeverEmpty(c: SwapKitClient, chain: Chain, f: Option<bool>)
    requires GetWalletWithBalance(c, chain, f).Ok?
    ensures var c' := GetWalletWithBalance(c, chain, f).value.0;
            && |GetBalance(c', chain)| > 0
            && (GetBalance(c', chain) == [GasAsset(chain)] ||
                GetBalance(c', chain) == c.wallets[chain].getBalance(c.wallets[chain].address, f).value)
            && GetAddress(c', chain) == GetAddress(c, chain)
  {
  }

  datatype ApproveMode = Approve | CheckOnly

  /** What `approve` resolves to: a boolean in check-only mode, an approval transaction
      identifier (or the `"approved"` sentinel) in approve mode. */
  datatype ApproveOutcome = Checked(approved: bool) | Submitted(txHash: string)

  /** The fixed allow-list of chains whose tokens may need an ERC-20 allowance. */
  predicate ApprovalChain(c: Chain) {
    c == Ethereum || c == Avalanche || c == BinanceSmartChain
  }

  /** An allowance is consulted only for a non-gas, non-synthetic asset on an allow-listed
      chain. */
  predicate ApprovalNeeded(a: AssetValue) {
    ApprovalChain(a.chain) && !a.isGasAsset && !a.isSynthetic
  }

  /** The trivially-satisfied answer of each mode. */
  function AlreadyApproved(mode: ApproveMode): ApproveOutcome {
    match mode
    case CheckOnly => Checked(true)
    case Approve => Submitted("approved")
  }

  /** The wallet has the action the mode selects. */
  predicate HasAction(w: ChainWallet, mode: ApproveMode) {
    match mode
    case CheckOnly => w.isApproved.Some?
    case Approve => w.approve.Some?
  }

  /** Invokes the action the mode selects and passes its result through. */
  function Act(w: ChainWallet, mode: ApproveMode, p: ApproveParams): Result<ApproveOutcome>
    requires HasAction(w, mode)
  {
    match mode
    case CheckOnly =>
      (match w.isApproved.value(p)
       case Ok(b) => Ok(Checked(b))
       case Err(e) => Err(e))
    case Approve =>
      (match w.approve.value(p)
       case Ok(h) => Ok(Submitted(h))
       case Err(e) => Err(e))
  }

  /** The spender: `getSpender(chain)` of the plugin registered under `contractOrPlugin`
      when that plugin has one, otherwise `contractOrPlugin` itself as an address. */
  function ResolveSpender(c: SwapKitClient, chain: Chain, contractOrPlugin: string): (r: Result<string>)
    requires ValidRegistry(c.plugins)
    ensures contractOrPlugin in c.plugins.methods &&
            c.plugins.methods[contractOrPlugin].getSpender.Some? ==>
              r == c.plugins.methods[contractOrPlugin].getSpender.value(c.wallets, chain)
    ensures !(contractOrPlugin in c.plugins.methods &&
              c.plugins.methods[contractOrPlugin].getSpender.Some?) ==>
              r == Ok(contractOrPlugin)
  {
    if contractOrPlugin in c.plugins.methods then
      match GetSwapKitPlugin(c.plugins, Some(contractOrPlugin)).value.getSpender
      case Some(getSpender) => getSpender(c.wallets, chain)
      case None => Ok(contractOrPlugin)
    else Ok(contractOrPlugin)
  }

  /** `approve({assetValue, type, contractAddressOrPlugin})`. */
  function ApproveAsset(c: SwapKitClient, a: AssetValue, mode: ApproveMode, contractOrPlugin: string)
    : (r: Result<ApproveOutcome>)
    requires ValidRegistry(c.plugins)
    ensures !ApprovalNeeded(a) ==> r == Ok(AlreadyApproved(mode))
    ensures ApprovalNeeded(a) && (a.chain !in c.wallets || !HasAction(c.wallets[a.chain], mode)) ==>
              r == Err(Key(WalletConnectionNotFound))
    ensures ApprovalNeeded(a) && a.chain in c.wallets && HasAction(c.wallets[a.chain], mode) &&
            (a.address == "" || c.wallets[a.chain].address == "") ==>
              r == Err(Key(AddressOrFromNotFound))
  {
    if !ApprovalNeeded(a) then Ok(AlreadyApproved(mode))
    else
      match GetWallet(c, a.chain)
      case None => Err(Key(WalletConnectionNotFound))
      case Some(w) =>
        if !HasAction(w, mode) then Err(Key(WalletConnectionNotFound))
        else
          var from := GetAddress(c, a.chain);
          if a.address == "" || from == "" then Err(Key(AddressOrFromNotFound))
          else
            match ResolveSpender(c, a.chain, contractOrPlugin)
            case Err(e) => Err(e)
            case Ok(spender) => Act(w, mode, ApproveParams(a.baseValue, a.address, from, spender))
  }

  /** `approveAssetValue(assetValue, contractAddressOrPlugin)`. */
  function ApproveAssetValue(c: SwapKitClient, a: AssetValue, contractOrPlugin: string): (r: Result<ApproveOutcome>)
    requires ValidRegistry(c.plugins)
    ensures r.Ok? ==> r.value.Submitted?
    ensures !ApprovalNeeded(a) ==> r == Ok(Submitted("approved"))
    ensures ApprovalNeeded(a) && (a.chain !in c.wallets || c.wallets[a.chain].approve.None?) ==>
              r == Err(Key(WalletConnectionNotFound))
    ensures ApprovalNeeded(a) && r.Ok? ==>
              && a.chain in c.wallets && c.wallets[a.chain].approve.Some?
              && ResolveSpender(c, a.chain, contractOrPlugin).Ok?
              && c.wallets[a.chain].approve.value(ApproveParams(a.baseValue, a.address, c.wallets[a.chain].address,
                                                                ResolveSpender(c, a.chain, contractOrPlugin).value))
                 == Ok(r.value.txHash)
  {
    ApproveAsset(c, a, Approve, contractOrPlugin)
  }

  /** `isAssetValueApproved(assetValue, contractAddressOrPlugin)`. */
  function IsAssetValueApproved(c: SwapKitClient, a: AssetValue, contractOrPlugin: string): (r: Result<ApproveOutcome>)
    requires ValidRegistry(c.plugins)
    ensures r.Ok? ==> r.value.Checked?
    ensures !ApprovalNeeded(a) ==> r == Ok(Checked(true))
    ensures ApprovalNeeded(a) && (a.chain !in c.wallets || c.wallets[a.chain].isApproved.None?) ==>
              r == Err(Key(WalletConnectionNotFound))
    ensures ApprovalNeeded(a) && r.Ok? ==>
              && a.chain in c.wallets && c.wallets[a.chain].isApproved.Some?
              && ResolveSpender(c, a.chain, contractOrPlugin).Ok?
              && c.wallets[a.chain].isApproved.value(ApproveParams(a.baseValue, a.address, c.wallets[a.chain].address,
                                                                   ResolveSpender(c, a.chain, contractOrPlugin).value))
                 == Ok(r.value.approved)
  {
    ApproveAsset(c, a, CheckOnly, contractOrPlugin)
  }

  /** The short-circuit reads neither registry: any two clients give the same answer. */
  lemma ApproveShortCircuitIgnoresState(c1: SwapKitClient, c2: SwapKitClient, a: AssetValue,
                                        mode: ApproveMode, s1: string, s2: string)
    requires ValidRegistry(c1.plugins) && ValidRegistry(c2.plugins)
    requires !ApprovalNeeded(a)
    ensures ApproveAsset(c1, a, mode, s1) == ApproveAsset(c2, a, mode, s2) == Ok(AlreadyApproved(mode))
  {
  }

  /** When an allowance is needed and the checks pass, the wallet action receives the
      base amount, the token address, the registry address and the resolved spender, and
      its result is returned unchanged. */
  lemma ApproveForwardsToWallet(c: SwapKitClient, a: AssetValue, mode: ApproveMode, s: string)
    requires ValidRegistry(c.plugins)
    requires ApprovalNeeded(a) && a.chain in c.wallets
    requires HasAction(c.wallets[a.chain], mode)
    requires a.address != "" && c.wallets[a.chain].address != ""
    ensures var w := c.wallets[a.chain];
            match ResolveSpender(c, a.chain, s)
            case Err(e) => ApproveAsset(c, a, mode, s) == Err(e)
            case Ok(spender) =>
              ApproveAsset(c, a, mode, s) == Act(w, mode, ApproveParams(a.baseValue, a.address, w.address, spender))
  {
  }

  /** Checking and approving go through the same checks and the same spender resolution:
      for a wallet with both actions, either both fail with the same error before reaching
      the wallet, or both hand the wallet identical parameters. */
  lemma {:induction false} ApproveModesAgree(c: SwapKitClient, a: AssetValue, s: string)
    requires ValidRegistry(c.plugins)
    requires ApprovalNeeded(a) && a.chain in c.wallets
    requires c.wallets[a.chain].approve.Some? && c.wallets[a.chain].isApproved.Some?
    ensures var w := c.wallets[a.chain];
            || (ApproveAssetValue(c, a, s).Err? && ApproveAssetValue(c, a, s) == IsAssetValueApproved(c, a, s))
            || exists p: ApproveParams ::
                 && ApproveAssetValue(c, a, s) == Act(w, Approve, p)
                 && IsAssetValueApproved(c, a, s) == Act(w, CheckOnly, p)
  {
    var w := c.wallets[a.chain];
    if a.address != "" && w.address != "" {
      match ResolveSpender(c, a.chain, s)
      case Err(e) =>
      case Ok(spender) =>
        var p := ApproveParams(a.baseValue, a.address, w.address, spender);
        ApproveForwardsToWallet(c, a, Approve, s);
        ApproveForwardsToWallet(c, a, CheckOnly, s);
        assert ApproveAssetValue(c, a, s) == Act(w, Approve, p);
    }
  }

  /** The plugin name a swap asks for. */
  function RequestedPlugin(p: SwapParams): Option<string> {
    match p.provider
    case Some(pr) => Some(pr.name)
    case None => None
  }

  /** `swap({provider, ...rest})`: rejects params without a `route` key before any plugin
      lookup; otherwise forwards the params, unchanged, to the selected plugin's `swap`
      and returns its result. */
  function Swap(c: SwapKitClient, p: SwapParams): (r: Result<string>)
    requires ValidRegistry(c.plugins)
    ensures "route" !in p.rest ==> r == Err(Key(SwapInvalidParams))
    ensures "route" in p.rest && |c.plugins.order| == 0 ==> r == Err(Key(PluginNotFound))
    ensures "route" in p.rest && |c.plugins.order| > 0 ==>
              exists name :: name in c.plugins.methods && r == c.plugins.methods[name].swap(c.wallets, p)
  {
    if "route" !in p.rest then Err(Key(SwapInvalidParams))
    else
      match GetSwapKitPlugin(c.plugins, RequestedPlugin(p))
      case Err(e) => Err(e)
      case Ok(plugin) => plugin.swap(c.wallets, p)
  }

  /** A swap naming a registered plugin goes to that plugin; one naming no plugin, or an
      unregistered one, goes to the first registered plugin. */
  lemma SwapSelectsPlugin(c: SwapKitClient, p: SwapParams)
    requires ValidRegistry(c.plugins)
    requires "route" in p.rest && |c.plugins.order| > 0
    ensures var n := RequestedPlugin(p);
            n.Some? && n.value in c.plugins.methods ==>
              Swap(c, p) == c.plugins.methods[n.value].swap(c.wallets, p)
    ensures var n := RequestedPlugin(p);
            (n.None? || n.value !in c.plugins.methods) ==>
              Swap(c, p) == c.plugins.methods[c.plugins.order[0]].swap(c.wallets, p)
  {
  }

  /** With the plugins of the factory list, an unnamed or unknown plugin falls back to the
      first factory's plugin as last registered under that name. */
  lemma {:induction false} SwapFallsBackToFirstFactory(plugins: seq<(string, PluginMethods)>, name: Option<string>)
    requires |plugins| > 0
    requires name.None? || forall i :: 0 <= i < |plugins| ==> plugins[i].0 != name.value
    ensures var reg := BuildRegistry(plugins);
            GetSwapKitPlugin(reg, name) == Ok(reg.methods[plugins[0].0])
  {
    var reg := BuildRegistry(plugins);
    assert name.Some? ==> name.value !in reg.methods;
  }
}

=== FILE: errors.dfy ===
/** The two kinds of failure the source raises, and a failure-compatible result type. */
module Errors {
  import opened Wrappers

  /** `SwapKitError(key, cause)` is the tagged error of the helpers package, carrying a
      machine-readable key and the wrapped original error; `Thrown(message)` is a plain
      `new Error(message)` or a rejection coming from an SDK. */
  datatype Error =
    | SwapKitError(key: string, cause: Option<Error>)
    | Thrown(message: string)

  /** The `message` property of an error. A SwapKitError's message is taken to be its key. */
  function Message(e: Error): string {
    match e
    case SwapKitError(key, _) => key
    case Thrown(m) => m
  }

  /** The string an error renders to in a template literal (`${error}`, `error.toString()`). */
  function Rendered(e: Error): string {
    match e
    case SwapKitError(key, _) => "SwapKitError: " + key
    case Thrown(m) => "Error: " + m
  }

  /** A SwapKitError without a cause. */
  function Key(key: string): Error {
    SwapKitError(key, None)
  }

  /** A resolved value or a rejection. */
  datatype Result<+T> = Ok(value: T) | Err(error: Error) {

    predicate IsFailure() {
      Err?
    }

    function PropagateFailure<U>(): Result<U>
      requires Err?
    {
      Err(error)
    }

    function Extract(): T
      requires Ok?
    {
      value
    }
  }

  /** True when `r` is a rejection with a SwapKitError carrying `key`. */
  predicate FailsWithKey<T>(r: Result<T>, key: string) {
    r.Err? && r.error.SwapKitError? && r.error.key == key
  }

  /** True when `r` is a rejection with a plain error carrying `message`. */
  predicate FailsWithMessage<T>(r: Result<T>, message: string) {
    r.Err? && r.error.Thrown? && r.error.message == message
  }
}

=== FILE: evm_helpers.dfy ===
/** The browser-wallet helpers of the EVM toolbox: wrapping toolbox methods so that each
    call first switches the wallet's network, raw provider requests, assembling the
    wallet methods for a chain, and the bigint variant of the maximum sendable amount. */
module EvmHelpers {
  import opened Wrappers
  import opened Errors
  import opened Js
  import opened Types
  import opened Assets

  const ProviderNotFound := "Provider not found"
  const WalletNotInstalled := "Requested web3 wallet is not installed"
  const SwitchFailedPrefix := "Failed to switch network: "
  const MissingContractParams := "Missing required parameters for smart contract estimateMaxSendableAmount"
  const CouldNotFetchFeeData := "Could not fetch fee data"

  /** The names of the toolbox methods wrapped with a network switch, in order
      (`approvedAmount` is listed twice). */
  const MethodsToWrap: seq<string> := [
    "approve", "approvedAmount", "call", "sendTransaction", "transfer", "getBalance",
    "isApproved", "approvedAmount", "EIP1193SendTransaction", "getFeeData",
    "broadcastTransaction", "estimateCall", "estimateGasLimit", "estimateGasPrices",
    "createContractTxObject"]

  /** A wallet provider; `send` is absent on objects that are not JSON-RPC providers. */
  datatype Provider = Provider(send: Option<(string, seq<JsValue>) -> Result<JsValue>>)

  /** A toolbox method: the original, identified by a tag, or a wrapper that switches
      `provider` to `chainId` before delegating. */
  datatype Method =
    | Native(tag: nat)
    | Switched(inner: Method, provider: Option<Provider>, chainId: string)

  type Toolbox = map<string, Method>

  /** `params ? (Array.isArray(params) ? params : [params]) : []`. */
  function NormalizeParams(params: JsValue): (r: seq<JsValue>)
    ensures !Truthy(params) ==> r == []
    ensures params.Arr? ==> r == params.items
    ensures Truthy(params) && !params.Arr? ==> r == [params]
  {
    if !Truthy(params) then [] else if params.Arr? then params.items else [params]
  }

  /** `providerRequest({provider, params, method})`; `rpcMethod` is `method`. */
  function ProviderRequest(provider: Option<Provider>, rpcMethod: string, params: JsValue): (r: Result<JsValue>)
    ensures provider.None? || provider.value.send.None? ==> r == Err(Thrown(ProviderNotFound))
    ensures provider.Some? && provider.value.send.Some? ==> r == provider.value.send.value(rpcMethod, NormalizeParams(params))
  {
    if provider.None? || provider.value.send.None? then Err(Thrown(ProviderNotFound))
    else provider.value.send.value(rpcMethod, NormalizeParams(params))
  }

  /** `switchEVMWalletNetwork(provider, chainId)`. */
  function SwitchNetwork(provider: Option<Provider>, chainId: string): Result<JsValue> {
    ProviderRequest(provider, "wallet_switchEthereumChain", Arr([Obj(map["chainId" := Str(chainId)])]))
  }

  /** `addEVMWalletNetwork(provider, networkParams)`. */
  function AddNetwork(provider: Option<Provider>, networkParams: JsValue): Result<JsValue> {
    ProviderRequest(provider, "wallet_addEthereumChain", Arr([networkParams]))
  }

  /** Calling a toolbox method with `run` standing for the original implementations: a
      wrapper switches the network first and reports a failed switch as
      `Failed to switch network: <error>` without running anything. */
  function Invoke(m: Method, run: nat -> Result<JsValue>): (r: Result<JsValue>)
    decreases m
  {
    match m
    case Native(tag) => run(tag)
    case Switched(inner, provider, chainId) =>
      match SwitchNetwork(provider, chainId)
      case Err(e) => Err(Thrown(SwitchFailedPrefix + Rendered(e)))
      case Ok(_) => Invoke(inner, run)
  }

  /** A wrapped method whose switch fails never runs the original: its outcome does not
      depend on the implementations at all. */
  lemma FailedSwitchSkipsOriginal(inner: Method, provider: Option<Provider>, chainId: string,
                                  run1: nat -> Result<JsValue>, run2: nat -> Result<JsValue>)
    requires SwitchNetwork(provider, chainId).Err?
    ensures Invoke(Switched(inner, provider, chainId), run1) == Invoke(Switched(inner, provider, chainId), run2)
    ensures Invoke(Switched(inner, provider, chainId), run1).Err?
  {
  }

  /** A wrapped method whose switch succeeds behaves as the original. */
  lemma SuccessfulSwitchDelegates(inner: Method, provider: Option<Provider>, chainId: string,
                                  run: nat -> Result<JsValue>)
    requires SwitchNetwork(provider, chainId).Ok?
    ensures Invoke(Switched(inner, provider, chainId), run) == Invoke(inner, run)
  {
  }

  /** The wrapped result of `prepareNetworkSwitch`, as a reference. */
  function Wrapped(toolbox: Toolbox, provider: Option<Provider>, chainId: string): Toolbox {
    map k | k in toolbox :: if k in MethodsToWrap then Switched(toolbox[k], provider, chainId) else toolbox[k]
  }

  /** `prepareNetworkSwitch({toolbox, chainId, provider})`: the `reduce` over the method
      names, each listed method the toolbox has wrapped once around the ORIGINAL (so the
      name listed twice is not wrapped twice), then spread over the toolbox. */
  method PrepareNetworkSwitch(toolbox: Toolbox, provider: Option<Provider>, chainId: string)
    returns (r: Toolbox)
    ensures r.Keys == toolbox.Keys
    ensures forall k :: k in toolbox && k !in MethodsToWrap ==> r[k] == toolbox[k]
    ensures forall k :: k in toolbox && k in MethodsToWrap ==> r[k] == Switched(toolbox[k], provider, chainId)
  {
    var wrapped: Toolbox := map[];
    var i := 0;
    while i < |MethodsToWrap|
      invariant 0 <= i <= |MethodsToWrap|
      invariant wrapped.Keys == set k | k in toolbox && k in MethodsToWrap[..i]
      invariant forall k :: k in wrapped ==> wrapped[k] == Switched(toolbox[k], provider, chainId)
    {
      var name := MethodsToWrap[i];
      assert MethodsToWrap[..i + 1] == MethodsToWrap[..i] + [name];
      if name in toolbox {
        wrapped := wrapped[name := Switched(toolbox[name], provider, chainId)];
      }
      i := i + 1;
    }
    assert MethodsToWrap[..i] == MethodsToWrap;
    r := toolbox + wrapped;
  }

  /** Wrapping is the reference map, and calling a wrapped method on a provider whose
      switch succeeds gives what the original gives. */
  lemma PrepareMatchesReference(toolbox: Toolbox, provider: Option<Provider>, chainId: string,
                                k: string, run: nat -> Result<JsValue>)
    requires k in toolbox && SwitchNetwork(provider, chainId).Ok?
    ensures k in Wrapped(toolbox, provider, chainId)
    ensures Invoke(Wrapped(toolbox, provider, chainId)[k], run) == Invoke(toolbox[k], run)
  {
  }

  /** The toolboxes a browser wallet can be given. */
  datatype ToolboxKind = EthToolbox | AvaxToolbox | BscToolbox

  /** Ethereum and Avalanche get their own toolbox; every other chain the BSC one. */
  function ToolboxFor(chain: Chain): (k: ToolboxKind)
    ensures k == EthToolbox <==> chain == Ethereum
    ensures k == AvaxToolbox <==> chain == Avalanche
  {
    if chain == Ethereum then EthToolbox else if chain == Avalanche then AvaxToolbox else BscToolbox
  }

  /** What assembling the wallet methods obtains from the environment: the browser
      provider around the injected one, its signer, the toolbox constructors, each
      toolbox's network parameters and each chain's hex chain id. */
  datatype Web3Env = Web3Env(
    browserProvider: Provider,
    signer: Result<nat>,
    toolbox: ToolboxKind -> Toolbox,
    networkParams: ToolboxKind -> JsValue,
    hexChainId: Chain -> string)

  /** The API key the chain's toolbox needs is given: Ethplorer's on Ethereum, Covalent's
      elsewhere. */
  predicate HasApiKey(chain: Chain, covalentApiKey: Option<string>, ethplorerApiKey: Option<string>) {
    if chain == Ethereum then Filled(ethplorerApiKey) else Filled(covalentApiKey)
  }

  /** `getWeb3WalletMethods`: an installed provider and the chain's API key are required;
      the network is added first on every chain but Ethereum; the chosen toolbox is then
      wrapped with network switching. */
  method GetWeb3WalletMethods(injected: Option<JsValue>, chain: Chain, covalentApiKey: Option<string>,
                              ethplorerApiKey: Option<string>, env: Web3Env)
    returns (r: Result<Toolbox>)
    ensures injected.None? ==> r == Err(Thrown(WalletNotInstalled))
    ensures injected.Some? && !HasApiKey(chain, covalentApiKey, ethplorerApiKey) ==>
              r == Err(Thrown("Missing API key for " + ChainName(chain) + " chain"))
    ensures r.Ok? ==> chain != Ethereum ==> AddNetwork(Some(env.browserProvider), env.networkParams(ToolboxFor(chain))).Ok?
    ensures r.Ok? ==> r.value == Wrapped(env.toolbox(ToolboxFor(chain)), Some(env.browserProvider), env.hexChainId(chain))
    ensures injected.Some? && HasApiKey(chain, covalentApiKey, ethplorerApiKey) && env.signer.Err? ==>
              r == Err(env.signer.error)
    ensures injected.Some? && HasApiKey(chain, covalentApiKey, ethplorerApiKey) && env.signer.Ok? &&
            chain != Ethereum && AddNetwork(Some(env.browserProvider), env.networkParams(ToolboxFor(chain))).Err? ==>
              r == Err(Thrown("Failed to add/switch " + ChainName(chain) + " network: " + ChainName(chain)))
    ensures injected.Some? && HasApiKey(chain, covalentApiKey, ethplorerApiKey) && env.signer.Ok? &&
            (chain == Ethereum || AddNetwork(Some(env.browserProvider), env.networkParams(ToolboxFor(chain))).Ok?) ==>
              r == Ok(Wrapped(env.toolbox(ToolboxFor(chain)), Some(env.browserProvider), env.hexChainId(chain)))
  {
    if injected.None? {
      return Err(Thrown(WalletNotInstalled));
    }
    if (chain != Ethereum && !Filled(covalentApiKey)) || (chain == Ethereum && !Filled(ethplorerApiKey)) {
      return Err(Thrown("Missing API key for " + ChainName(chain) + " chain"));
    }
    var provider := Some(env.browserProvider);
    if env.signer.Err? {
      return Err(env.signer.error);
    }
    var kind := ToolboxFor(chain);
    var toolbox := env.toolbox(kind);
    if chain != Ethereum && AddNetwork(provider, env.networkParams(kind)).Err? {
      var name := ChainName(chain);
      return Err(Thrown("Failed to add/switch " + name + " network: " + name));
    }
    var wrapped := PrepareNetworkSwitch(toolbox, provider, env.hexChainId(chain));
    return Ok(wrapped);
  }

  /** One tier of `estimateGasPrices()` in the bigint toolbox: a key is present or not. */
  datatype FeeFields = FeeFields(maxFeePerGas: Option<nat>, maxPriorityFeePerGas: Option<nat>, gasPrice: Option<nat>)

  /** The outcome of `estimateMaxSendableAmount`. */
  datatype MaxSendable =
    | Zero
    | BalanceAsIs(balance: AssetValue)
    | Computed(chain: Chain, amount: int)

  /** What the helper obtains from the toolbox: the balances of `from`, the gas estimate
      of the contract call and the fee tiers. */
  datatype MaxSendableEnv = MaxSendableEnv(
    balances: Result<seq<AssetValue>>,
    estimateCall: Result<nat>,
    gasPrices: Result<FeeOption -> FeeFields>)

  /** `{chain, symbol}` of the requested asset. */
  datatype AssetRef = AssetRef(chain: Chain, symbol: string)

  /** The `find` test: the requested symbol, or the chain's gas symbol when no asset is
      given. */
  predicate BalanceMatches(b: AssetValue, asset: Option<AssetRef>) {
    if asset.Some? then b.symbol == asset.value.symbol else b.symbol == GasAsset(b.chain).symbol
  }

  /** The balance entry `find` selects: the first one passing the test. */
  function FindBalance(balances: seq<AssetValue>, asset: Option<AssetRef>): (i: Option<nat>)
    ensures i.Some? ==> i.value < |balances|
    ensures i.Some? ==> var b := balances[i.value];
                        if asset.Some? then b.symbol == asset.value.symbol else b.symbol == GasAsset(b.chain).symbol
    ensures i.Some? ==> forall j :: 0 <= j < i.value ==> !BalanceMatches(balances[j], asset)
    ensures i.None? ==> forall j :: 0 <= j < |balances| ==>
                          if asset.Some? then balances[j].symbol != asset.value.symbol
                          else balances[j].symbol != GasAsset(balances[j].chain).symbol
  {
    FindIndex(balances, (b: AssetValue) => BalanceMatches(b, asset))
  }

  /** The balances were fetched and `find` selected an entry that is the requested asset
      itself (or the gas asset, when none is requested), so the fee is computed. */
  predicate SelectsOwnBalance(env: MaxSendableEnv, asset: Option<AssetRef>) {
    && env.balances.Ok?
    && FindBalance(env.balances.value, asset).Some?
    && var b := env.balances.value[FindBalance(env.balances.value, asset).value];
       (asset.Some? ==> b.chain == asset.value.chain && b.symbol == asset.value.symbol)
  }

  /** `estimateMaxSendableAmount` of the helpers. The contract-call parameters (`abi`,
      `funcName`, `funcParams`, `contractAddress`) must all be truthy, so the gas limit
      always comes from `estimateCall`; the fee uses a priority fee of 1 when it is absent
      or zero; the result is `balance - fee` with no floor at zero. */
  function EstimateMaxSendable(env: MaxSendableEnv, asset: Option<AssetRef>, feeOptionKey: Option<FeeOption>,
                               contractParams: seq<JsValue>): (r: Result<MaxSendable>)
    requires |contractParams| == 4
    ensures env.balances.Err? ==> r == Err(env.balances.error)
    ensures env.balances.Ok? && FindBalance(env.balances.value, asset).None? ==> r == Ok(Zero)
    ensures r.Ok? && r.value.BalanceAsIs? ==>
              asset.Some? && r.value.balance.chain != asset.value.chain && r.value.balance in env.balances.value
    ensures r.Ok? && r.value.Computed? ==>
              (forall k :: 0 <= k < 4 ==> Truthy(contractParams[k])) && env.estimateCall.Ok?
    ensures SelectsOwnBalance(env, asset) && (exists k :: 0 <= k < 4 && !Truthy(contractParams[k])) ==>
              r == Err(Thrown(MissingContractParams))
    ensures SelectsOwnBalance(env, asset) && (forall k :: 0 <= k < 4 ==> Truthy(contractParams[k])) ==>
              match (env.estimateCall, env.gasPrices)
              case (Err(e), _) => r == Err(e)
              case (Ok(_), Err(e)) => r == Err(e)
              case (Ok(gasLimit), Ok(prices)) =>
                var fees := prices(feeOptionKey.GetOr(Fastest));
                var b := env.balances.value[FindBalance(env.balances.value, asset).value];
                && (fees.maxFeePerGas.None? && fees.gasPrice.None? ==> r == Err(Thrown(CouldNotFetchFeeData)))
                && (fees.maxFeePerGas.Some? ==>
                      r == Ok(Computed(b.chain, b.baseValue - gasLimit * (fees.maxFeePerGas.value + PriorityOrOne(fees.maxPriorityFeePerGas)))))
                && (fees.maxFeePerGas.None? && fees.gasPrice.Some? ==>
                      r == Ok(Computed(b.chain, b.baseValue - gasLimit * fees.gasPrice.value)))
  {
    var balances :- env.balances;
    match FindBalance(balances, asset)
    case None => Ok(Zero)
    case Some(i) =>
      var b := balances[i];
      if asset.Some? && (b.chain != asset.value.chain || b.symbol != asset.value.symbol) then Ok(BalanceAsIs(b))
      else if exists k :: 0 <= k < 4 && !Truthy(contractParams[k]) then Err(Thrown(MissingContractParams))
      else
        var gasLimit :- env.estimateCall;
        var prices :- env.gasPrices;
        var fees := prices(feeOptionKey.GetOr(Fastest));
        if fees.maxFeePerGas.None? && fees.gasPrice.None? then Err(Thrown(CouldNotFetchFeeData))
        else
          var perGas :=
            if fees.maxFeePerGas.Some? then fees.maxFeePerGas.value + PriorityOrOne(fees.maxPriorityFeePerGas)
            else fees.gasPrice.value;
          Ok(Computed(b.chain, b.baseValue - gasLimit * perGas))
  }

  /** `maxPriorityFeePerGas || 1n`: a missing or zero priority fee counts as 1. */
  function PriorityOrOne(p: Option<nat>): (r: nat)
    ensures r >= 1
    ensures p.Some? && p.value > 0 ==> r == p.value
  {
    if p.Some? && p.value > 0 then p.value else 1
  }

  /** Unlike the base toolbox, the result can be negative: a balance smaller than the fee
      yields a negative amount. */
  lemma MaxSendableNotFloored(b: AssetValue, gasLimit: nat, maxFee: nat, params: seq<JsValue>)
    requires |params| == 4 && forall k :: 0 <= k < 4 ==> Truthy(params[k])
    requires b.symbol == GasAsset(b.chain).symbol && gasLimit > 0 && b.baseValue < gasLimit
    ensures var fees := FeeFields(Some(maxFee), None, None);
            var env := MaxSendableEnv(Ok([b]), Ok(gasLimit), Ok((f: FeeOption) => fees));
            var r := EstimateMaxSendable(env, None, None, params);
            r.Ok? && r.value.Computed? && r.value.amount < 0
  {
    var fees := FeeFields(Some(maxFee), None, None);
    var env := MaxSendableEnv(Ok([b]), Ok(gasLimit), Ok((f: FeeOption) => fees));
    assert FindBalance([b], None) == Some(0);
    assert gasLimit * (maxFee + 1) >= gasLimit;
  }
}

=== FILE: evm_toolbox.dfy ===
/** The fee arithmetic and small validators of the base EVM toolbox. Provider queries
    (fee data, gas estimation, allowance) arrive as `Result`s; EIP-55 checksumming is
    supplied by the caller. Amounts are unbounded naturals (ethers `BigNumber`). */
module EvmToolbox {
  import opened Wrappers
  import opened Errors
  import opened Js
  import opened Strings
  import opened Types

  /** `MaxInt256`, the default approval amount. */
  const MaxApproval: nat := 0x7fff_ffff_ffff_ffff_ffff_ffff_ffff_ffff_ffff_ffff_ffff_ffff_ffff_ffff_ffff_ffff

  const NoFeeData := "No fee data available"
  const FailedToEstimateGasPrice := "Failed to estimate gas price: "
  const AssetMustBeProvided := "Asset must be provided"

  /** The provider's `getFeeData()`: each field may be `null`. A present field is a
      `BigNumber` object and therefore truthy, even when it is zero. */
  datatype FeeData = FeeData(maxFeePerGas: Option<nat>, maxPriorityFeePerGas: Option<nat>, gasPrice: Option<nat>)

  /** The gas price of one tier, EIP-1559 or legacy. */
  datatype Tier =
    | Eip1559Tier(maxFeePerGas: nat, maxPriorityFeePerGas: nat)
    | LegacyTier(gasPrice: nat)

  /** The three tiers `estimateGasPrices` returns. */
  datatype GasPrices = GasPrices(average: Tier, fast: Tier, fastest: Tier) {
    function At(f: FeeOption): Tier {
      match f
      case Average => average
      case Fast => fast
      case Fastest => fastest
    }
  }

  /** A raw price scaled to a tier: unchanged, times 1.5 (rounded down), doubled. */
  function Scale(x: nat, f: FeeOption): nat {
    match f
    case Average => x
    case Fast => x * 15 / 10
    case Fastest => x * 2
  }

  lemma ScaleOrdered(x: nat)
    ensures Scale(x, Average) <= Scale(x, Fast) <= Scale(x, Fastest)
  {
  }

  lemma ScaleMonotone(x: nat, y: nat, f: FeeOption)
    requires x <= y
    ensures Scale(x, f) <= Scale(y, f)
  {
    if f == Fast {
      assert x * 15 <= y * 15;
    }
  }

  /** `estimateGasPrices(provider, isEIP1559Compatible)`. Missing fee data is an error,
      and every failure (including a failed query) is re-raised with the prefix
      `Failed to estimate gas price: ` and the rendered cause. */
  function EstimateGasPrices(feeData: Result<FeeData>, isEip1559Compatible: bool): (r: Result<GasPrices>)
    ensures feeData.Err? ==> r == Err(Thrown(FailedToEstimateGasPrice + Rendered(feeData.error)))
    ensures feeData.Ok? && isEip1559Compatible ==>
              var d := feeData.value;
              if d.maxFeePerGas.None? || d.maxPriorityFeePerGas.None? then
                r == Err(Thrown(FailedToEstimateGasPrice + Rendered(Thrown(NoFeeData))))
              else
                && r.Ok?
                && forall f :: r.value.At(f) == Eip1559Tier(Scale(d.maxFeePerGas.value, f), Scale(d.maxPriorityFeePerGas.value, f))
    ensures feeData.Ok? && !isEip1559Compatible ==>
              var d := feeData.value;
              if d.gasPrice.None? then
                r == Err(Thrown(FailedToEstimateGasPrice + Rendered(Thrown(NoFeeData))))
              else
                && r.Ok?
                && forall f :: r.value.At(f) == LegacyTier(Scale(d.gasPrice.value, f))
  {
    var attempt :=
      match feeData
      case Err(e) => Err(e)
      case Ok(d) =>
        if isEip1559Compatible then
          if d.maxFeePerGas.None? || d.maxPriorityFeePerGas.None? then Err(Thrown(NoFeeData))
          else
            var m := d.maxFeePerGas.value;
            var p := d.maxPriorityFeePerGas.value;
            Ok(GasPrices(Eip1559Tier(m, p), Eip1559Tier(m * 15 / 10, p * 15 / 10), Eip1559Tier(m * 2, p * 2)))
        else
          if d.gasPrice.None? then Err(Thrown(NoFeeData))
          else
            var g := d.gasPrice.value;
            Ok(GasPrices(LegacyTier(g), LegacyTier(g * 15 / 10), LegacyTier(g * 2)));
    match attempt
    case Ok(prices) => Ok(prices)
    case Err(e) => Err(Thrown(FailedToEstimateGasPrice + Rendered(e)))
  }

  /** The price a tier charges per unit of gas at most. */
  function TierPrice(t: Tier): nat {
    match t
    case Eip1559Tier(m, p) => m + p
    case LegacyTier(g) => g
  }

  /** A faster tier never costs less per unit of gas. */
  lemma EstimatedTiersOrdered(feeData: Result<FeeData>, isEip1559Compatible: bool)
    requires EstimateGasPrices(feeData, isEip1559Compatible).Ok?
    ensures var p := EstimateGasPrices(feeData, isEip1559Compatible).value;
            TierPrice(p.average) <= TierPrice(p.fast) <= TierPrice(p.fastest)
  {
    var d := feeData.value;
    var p := EstimateGasPrices(feeData, isEip1559Compatible).value;
    assert p.average == p.At(Average) && p.fast == p.At(Fast) && p.fastest == p.At(Fastest);
    if isEip1559Compatible {
      ScaleOrdered(d.maxFeePerGas.value);
      ScaleOrdered(d.maxPriorityFeePerGas.value);
    } else {
      ScaleOrdered(d.gasPrice.value);
    }
  }

  /** `isEIP1559Transaction(tx)`: `type === 2` or a truthy EIP-1559 fee field. */
  predicate IsEip1559Transaction(tx: map<string, JsValue>) {
    Get(tx, "type") == Num(2) || Truthy(Get(tx, "maxFeePerGas")) || Truthy(Get(tx, "maxPriorityFeePerGas"))
  }

  /** A transaction with neither a type nor fee fields of the EIP-1559 kind is legacy; a
      fee object (`BigNumber`, even zero) makes it EIP-1559. */
  lemma Eip1559Detection(tx: map<string, JsValue>, fee: nat)
    ensures "type" !in tx && "maxFeePerGas" !in tx && "maxPriorityFeePerGas" !in tx ==> !IsEip1559Transaction(tx)
    ensures IsEip1559Transaction(tx["maxFeePerGas" := BigNum(fee)])
    ensures IsEip1559Transaction(tx["type" := Num(2)])
    ensures !IsEip1559Transaction(map["type" := Num(0), "maxFeePerGas" := Num(0), "gasPrice" := Num(fee)])
  {
  }

  /** One entry of a JSON ABI. */
  datatype Fragment = Fragment(name: string, stateMutability: JsValue)

  const StateMutable: seq<string> := ["payable", "nonpayable"]
  const NonStateMutable: seq<string> := ["view", "pure"]

  predicate Includes(list: seq<string>, v: JsValue) {
    v.Str? && v.s in list
  }

  /** `isStateChangingCall(abi, functionName)` as written: a missing fragment is an error;
      otherwise a falsy `stateMutability`, or one that is in both mutability lists. */
  function IsStateChangingCall(abi: seq<Fragment>, name: string): (r: Result<bool>)
    ensures r.Err? <==> forall j :: 0 <= j < |abi| ==> abi[j].name != name
    ensures r.Err? ==> r.error == Thrown("No ABI fragment found for function " + name)
  {
    match FindIndex(abi, (f: Fragment) => f.name == name)
    case None => Err(Thrown("No ABI fragment found for function " + name))
    case Some(i) =>
      var m := abi[i].stateMutability;
      Ok(!Truthy(m) || (Includes(StateMutable, m) && Includes(NonStateMutable, m)))
  }

  /** The two mutability lists are disjoint, so the second disjunct never holds: a call
      counts as state-changing exactly when its fragment declares no mutability, and a
      `payable` or `nonpayable` function does NOT count. */
  lemma {:induction false} StateChangingMeansNoMutability(abi: seq<Fragment>, name: string, i: nat)
    requires i < |abi| && abi[i].name == name && forall j :: 0 <= j < i ==> abi[j].name != name
    ensures IsStateChangingCall(abi, name) == Ok(!Truthy(abi[i].stateMutability))
    ensures abi[i].stateMutability == Str("payable") ==> IsStateChangingCall(abi, name) == Ok(false)
  {
    var k := FindIndex(abi, (f: Fragment) => f.name == name);
    assert k == Some(i);
    var m := abi[i].stateMutability;
    assert !(Includes(StateMutable, m) && Includes(NonStateMutable, m)) by {
      if Includes(StateMutable, m) {
        assert m.s == "payable" || m.s == "nonpayable";
        assert m.s != "view" && m.s != "pure";
      }
    }
  }

  /** `isApproved`: the allowance covers the amount, which defaults to `MaxInt256`. */
  function IsApproved(allowance: Result<nat>, amount: Option<nat>): (r: Result<bool>)
    ensures allowance.Err? ==> r == Err(allowance.error)
    ensures allowance.Ok? ==> r.Ok? && (r.value <==> allowance.value >= amount.GetOr(MaxApproval))
  {
    var a :- allowance;
    Ok(a >= amount.GetOr(MaxApproval))
  }

  /** A larger allowance approves everything a smaller one does; with no amount only an
      allowance of at least `MaxInt256` counts. */
  lemma IsApprovedMonotone(a: nat, b: nat, amount: Option<nat>)
    requires a <= b
    ensures IsApproved(Ok(a), amount) == Ok(true) ==> IsApproved(Ok(b), amount) == Ok(true)
    ensures IsApproved(Ok(a), None) == Ok(true) <==> a >= MaxApproval
  {
  }

  /** `symbol.slice(ticker.length + 1)`: the part after `ticker-`, empty when too short. */
  function AfterTicker(symbol: string, ticker: string): string {
    if |ticker| + 1 <= |symbol| then symbol[|ticker| + 1..] else ""
  }

  /** `.replace(/^0X/, '')`: strips an upper-case `0X` prefix only. */
  function StripUpper0X(s: string): (r: string)
    ensures StartsWith(s, "0X") ==> s == "0X" + r
    ensures !StartsWith(s, "0X") ==> r == s
  {
    if StartsWith(s, "0X") then s[2..] else s
  }

  /** `getTokenAddress({chain, symbol, ticker}, baseAssetChain)`: the base asset's fixed
      address when all three name the base chain; otherwise the checksummed address after
      `ticker-`, or `null` when checksumming fails. */
  function GetTokenAddress(chain: Chain, symbol: string, ticker: string, baseChain: Chain,
                           baseAssetAddress: Chain -> string, checksum: string -> Option<string>)
    : (r: Option<string>)
    requires IsEvmChain(baseChain)
    ensures chain == baseChain && symbol == ChainName(baseChain) && ticker == ChainName(baseChain) ==>
              r == Some(baseAssetAddress(baseChain))
    ensures !(chain == baseChain && symbol == ChainName(baseChain) && ticker == ChainName(baseChain)) ==>
              r == checksum(StripUpper0X(AfterTicker(symbol, ticker)))
  {
    if chain == baseChain && symbol == ChainName(baseChain) && ticker == ChainName(baseChain) then
      Some(baseAssetAddress(baseChain))
    else
      checksum(StripUpper0X(AfterTicker(symbol, ticker)))
  }

  /** A token `TICKER-0X…` is looked up without the upper-case prefix, while a lower-case
      `0x` prefix is kept. */
  lemma TokenAddressPrefixes(chain: Chain, ticker: string, rest: string, baseChain: Chain,
                             baseAssetAddress: Chain -> string, checksum: string -> Option<string>)
    requires IsEvmChain(baseChain) && ticker != ChainName(baseChain)
    ensures GetTokenAddress(chain, ticker + "-0X" + rest, ticker, baseChain, baseAssetAddress, checksum) == checksum(rest)
    ensures GetTokenAddress(chain, ticker + "-0x" + rest, ticker, baseChain, baseAssetAddress, checksum) == checksum("0x" + rest)
  {
    assert AfterTicker(ticker + "-0X" + rest, ticker) == "0X" + rest;
    assert AfterTicker(ticker + "-0x" + rest, ticker) == "0x" + rest;
    assert !StartsWith("0x" + rest, "0X") by { assert ("0x" + rest)[1] == 'x'; }
  }

  /** `getFeeForTransaction`: the selected tier's price times the estimated gas limit. */
  function GetFeeForTransaction(feeData: Result<FeeData>, feeOption: FeeOption, gasLimit: Result<nat>,
                                isEip1559Compatible: bool): (r: Result<nat>)
    ensures EstimateGasPrices(feeData, isEip1559Compatible).Err? ==> r == Err(EstimateGasPrices(feeData, isEip1559Compatible).error)
    ensures EstimateGasPrices(feeData, isEip1559Compatible).Ok? && gasLimit.Err? ==> r == Err(gasLimit.error)
    ensures r.Ok? ==> r.value == TierPrice(EstimateGasPrices(feeData, isEip1559Compatible).value.At(feeOption)) * gasLimit.value
  {
    var prices :- EstimateGasPrices(feeData, isEip1559Compatible);
    var limit :- gasLimit;
    match prices.At(feeOption)
    case LegacyTier(g) => Ok(g * limit)
    case Eip1559Tier(m, p) => Ok((m + p) * limit)
  }

  /** The legacy fee is `gasPrice * gasLimit` and the EIP-1559 fee is
      `(maxFeePerGas + maxPriorityFeePerGas) * gasLimit`, each at the tier's scale; a
      faster tier never costs less. */
  lemma FeeForTransactionOrdered(feeData: Result<FeeData>, gasLimit: nat, isEip1559Compatible: bool)
    requires EstimateGasPrices(feeData, isEip1559Compatible).Ok?
    ensures var fee := (f: FeeOption) => GetFeeForTransaction(feeData, f, Ok(gasLimit), isEip1559Compatible);
            && fee(Average).Ok? && fee(Fast).Ok? && fee(Fastest).Ok?
            && fee(Average).value <= fee(Fast).value <= fee(Fastest).value
    ensures !isEip1559Compatible ==>
              GetFeeForTransaction(feeData, Average, Ok(gasLimit), false) == Ok(feeData.value.gasPrice.value * gasLimit)
  {
    EstimatedTiersOrdered(feeData, isEip1559Compatible);
    var p := EstimateGasPrices(feeData, isEip1559Compatible).value;
    assert p.average == p.At(Average) && p.fast == p.At(Fast) && p.fastest == p.At(Fastest);
    assert TierPrice(p.average) * gasLimit <= TierPrice(p.fast) * gasLimit by {
      MulMonotone(TierPrice(p.average), TierPrice(p.fast), gasLimit);
    }
    assert TierPrice(p.fast) * gasLimit <= TierPrice(p.fastest) * gasLimit by {
      MulMonotone(TierPrice(p.fast), TierPrice(p.fastest), gasLimit);
    }
  }

  lemma MulMonotone(a: nat, b: nat, c: nat)
    requires a <= b
    ensures a * c <= b * c
  {
  }

  /** The asset as the toolbox compares it with the chain's signature (gas) asset. */
  datatype Asset = Asset(chain: Chain, symbol: string, ticker: string, synth: bool)

  /** The inputs of `estimateMaxSendableAmount` that reach the computation. */
  datatype MaxSendableParams = MaxSendableParams(
    asset: Option<Asset>,
    balance: nat,
    feeOptionKey: Option<FeeOption>)

  /** `estimateMaxSendableAmount` of the base toolbox: a non-gas asset's balance is
      returned as it is; for the gas asset the fee of the chosen tier (Fastest by default)
      at the estimated gas limit is subtracted, and the result floored at zero. */
  function EstimateMaxSendableAmount(signatureAsset: Chain -> Asset, feeData: Result<FeeData>,
                                     gasLimit: Result<nat>, isEip1559Compatible: bool,
                                     p: MaxSendableParams): (r: Result<nat>)
    ensures p.asset.None? ==> r == Err(Thrown(AssetMustBeProvided))
    ensures p.asset.Some? && signatureAsset(p.asset.value.chain) != p.asset.value ==> r == Ok(p.balance)
    ensures r.Ok? ==> r.value <= p.balance
  {
    match p.asset
    case None => Err(Thrown(AssetMustBeProvided))
    case Some(a) =>
      if signatureAsset(a.chain) != a then Ok(p.balance)
      else
        var prices :- EstimateGasPrices(feeData, isEip1559Compatible);
        var limit :- gasLimit;
        var fee := match prices.At(p.feeOptionKey.GetOr(Fastest))
          case Eip1559Tier(m, prio) => limit * (m + prio)
          case LegacyTier(g) => limit * g;
        Ok(if p.balance > fee then p.balance - fee else 0)
  }

  /** For the gas asset the result is exactly `max(balance - fee, 0)` with the fee of
      `getFeeForTransaction` at the chosen tier. The `|| 1` fallback for the priority fee
      never applies: the tier always carries a `BigNumber`, which is truthy even at zero. */
  lemma MaxSendableIsBalanceMinusFee(signatureAsset: Chain -> Asset, feeData: Result<FeeData>,
                                     gasLimit: nat, isEip1559Compatible: bool, p: MaxSendableParams)
    requires p.asset.Some? && signatureAsset(p.asset.value.chain) == p.asset.value
    requires EstimateGasPrices(feeData, isEip1559Compatible).Ok?
    ensures var fee := GetFeeForTransaction(feeData, p.feeOptionKey.GetOr(Fastest), Ok(gasLimit), isEip1559Compatible).value;
            EstimateMaxSendableAmount(signatureAsset, feeData, Ok(gasLimit), isEip1559Compatible, p) ==
              Ok(if p.balance > fee then p.balance - fee else 0)
  {
    var f := p.feeOptionKey.GetOr(Fastest);
    var t := EstimateGasPrices(feeData, isEip1559Compatible).value.At(f);
    var fee := GetFeeForTransaction(feeData, f, Ok(gasLimit), isEip1559Compatible).value;
    assert fee == TierPrice(t) * gasLimit;
    match t
    case Eip1559Tier(m, prio) =>
      assert gasLimit * (m + prio) == (m + prio) * gasLimit;
    case LegacyTier(g) =>
      assert gasLimit * g == g * gasLimit;
  }
}

=== FILE: explorer.dfy ===
/** Block-explorer links and the empty wallet structure of the client helpers. The base
    URL of each chain's explorer is a table supplied by the caller; the chain arrives as
    its string value, so an unknown chain can be expressed and rejected. */
module Explorer {
  import opened Wrappers
  import opened Errors
  import opened Strings
  import opened Types

  const UnsupportedChainPrefix := "Unsupported chain: "

  /** The error both link builders raise for a chain string that names no chain. */
  function UnsupportedChain(chain: string): Error {
    Thrown(UnsupportedChainPrefix + chain)
  }

  /** The transaction hash as it appears in a link: EVM hashes carry a `0x` prefix. */
  function NormalizedTxHash(chain: Chain, txHash: string): (h: string)
    ensures IsEvmChain(chain) ==> StartsWith(h, "0x")
    ensures !IsEvmChain(chain) || StartsWith(txHash, "0x") ==> h == txHash
    ensures IsEvmChain(chain) && !StartsWith(txHash, "0x") ==> h == "0x" + txHash
  {
    if IsEvmChain(chain) && !StartsWith(txHash, "0x") then "0x" + txHash else txHash
  }

  /** The path segment between the base URL and the hash of a transaction link. */
  function TxPath(chain: Chain): string {
    match chain
    case Litecoin => "/"
    case Cosmos => "/transactions/"
    case Dogecoin => "/transaction/"
    case _ => "/tx/"
  }

  /** The path segment between the base URL and an address in an address link. */
  function AddressPath(chain: Chain): string {
    match chain
    case Litecoin => "/"
    case Cosmos => "/account/"
    case _ => "/address/"
  }

  /** `getExplorerTxUrl({chain, txHash})`. */
  function GetExplorerTxUrl(baseUrl: Chain -> string, chain: string, txHash: string): (r: Result<string>)
    ensures ParseChain(chain).None? <==> r == Err(UnsupportedChain(chain))
    ensures r.Ok? ==> var c := ParseChain(chain).value;
                      && StartsWith(r.value, baseUrl(c) + TxPath(c))
                      && r.value[|baseUrl(c) + TxPath(c)|..] == NormalizedTxHash(c, txHash)
  {
    match ParseChain(chain)
    case None => Err(UnsupportedChain(chain))
    case Some(c) => Ok(baseUrl(c) + TxPath(c) + NormalizedTxHash(c, txHash))
  }

  /** `getExplorerAddressUrl({chain, address})`. */
  function GetExplorerAddressUrl(baseUrl: Chain -> string, chain: string, address: string): (r: Result<string>)
    ensures ParseChain(chain).None? <==> r == Err(UnsupportedChain(chain))
    ensures r.Ok? ==> var c := ParseChain(chain).value;
                      && StartsWith(r.value, baseUrl(c) + AddressPath(c))
                      && r.value[|baseUrl(c) + AddressPath(c)|..] == address
  {
    match ParseChain(chain)
    case None => Err(UnsupportedChain(chain))
    case Some(c) => Ok(baseUrl(c) + AddressPath(c) + address)
  }

  /** For every chain but Litecoin, Dogecoin and Cosmos, links have the form
      `base/tx/<hash>` and `base/address/<address>`; a hash that already carries `0x`
      is used as given. */
  lemma StandardExplorerLinks(baseUrl: Chain -> string, c: Chain, txHash: string, address: string)
    requires c != Litecoin && c != Dogecoin && c != Cosmos
    requires !IsEvmChain(c) || StartsWith(txHash, "0x")
    ensures GetExplorerTxUrl(baseUrl, ChainName(c), txHash) == Ok(baseUrl(c) + "/tx/" + txHash)
    ensures GetExplorerAddressUrl(baseUrl, ChainName(c), address) == Ok(baseUrl(c) + "/address/" + address)
  {
  }

  /** Normalising the hash is idempotent: a link for `h` and for `0x` + `h` coincide on
      EVM chains. */
  lemma EvmTxLinkIgnoresPrefix(baseUrl: Chain -> string, c: Chain, txHash: string)
    requires IsEvmChain(c) && !StartsWith(txHash, "0x")
    ensures GetExplorerTxUrl(baseUrl, ChainName(c), txHash) == GetExplorerTxUrl(baseUrl, ChainName(c), "0x" + txHash)
  {
    assert StartsWith("0x" + txHash, "0x");
  }

  /** A transaction link determines its hash up to the `0x` normalisation: two hashes
      with the same link on the same chain normalise to the same string. */
  lemma TxLinkDeterminesHash(baseUrl: Chain -> string, c: Chain, h1: string, h2: string)
    requires GetExplorerTxUrl(baseUrl, ChainName(c), h1) == GetExplorerTxUrl(baseUrl, ChainName(c), h2)
    ensures NormalizedTxHash(c, h1) == NormalizedTxHash(c, h2)
  {
    var pre := baseUrl(c) + TxPath(c);
    assert (pre + NormalizedTxHash(c, h1))[|pre|..] == NormalizedTxHash(c, h1);
    assert (pre + NormalizedTxHash(c, h2))[|pre|..] == NormalizedTxHash(c, h2);
  }

  const EtherscanUrl := "https://etherscan.io"
  const LitecoinExplorerUrl := "https://ltc.bitaps.com"
  const CosmosExplorerUrl := "https://cosmos.bigdipper.live"
  const DogecoinExplorerUrl := "https://blockchair.com/dogecoin"

  /** The base URLs the client's tests rely on. */
  predicate KnownExplorers(baseUrl: Chain -> string) {
    && baseUrl(Ethereum) == EtherscanUrl
    && baseUrl(Litecoin) == LitecoinExplorerUrl
    && baseUrl(Cosmos) == CosmosExplorerUrl
    && baseUrl(Dogecoin) == DogecoinExplorerUrl
  }

  /** The transaction link of a chain given by its own string value. */
  lemma TxLinkOfChain(baseUrl: Chain -> string, c: Chain, txHash: string)
    ensures GetExplorerTxUrl(baseUrl, ChainName(c), txHash) == Ok(baseUrl(c) + (TxPath(c) + NormalizedTxHash(c, txHash)))
  {
    assert ParseChain(ChainName(c)) == Some(c);
    assert baseUrl(c) + TxPath(c) + NormalizedTxHash(c, txHash) == baseUrl(c) + (TxPath(c) + NormalizedTxHash(c, txHash));
  }

  /** The address link of a chain given by its own string value. */
  lemma AddressLinkOfChain(baseUrl: Chain -> string, c: Chain, address: string)
    ensures GetExplorerAddressUrl(baseUrl, ChainName(c), address) == Ok(baseUrl(c) + (AddressPath(c) + address))
  {
    assert ParseChain(ChainName(c)) == Some(c);
    assert baseUrl(c) + AddressPath(c) + address == baseUrl(c) + (AddressPath(c) + address);
  }

  /** An Ethereum hash without `0x` gets the prefix. */
  lemma EthereumLinkExample(baseUrl: Chain -> string)
    requires KnownExplorers(baseUrl)
    ensures GetExplorerTxUrl(baseUrl, "ETH", "12345") == Ok(EtherscanUrl + "/tx/0x12345")
  {
    TxLinkOfChain(baseUrl, Ethereum, "12345");
    assert ChainName(Ethereum) == "ETH";
    assert "/tx/" + "0x12345" == "/tx/0x12345";
    assert !StartsWith("12345", "0x") by { assert "12345"[0] == '1'; }
    assert NormalizedTxHash(Ethereum, "12345") == "0x12345";
  }

  /** Litecoin links append the hash or address directly to the base URL. */
  lemma LitecoinTxLinkExample(baseUrl: Chain -> string)
    requires KnownExplorers(baseUrl)
    ensures GetExplorerTxUrl(baseUrl, "LTC", "efghi") == Ok(LitecoinExplorerUrl + "/efghi")
  {
    TxLinkOfChain(baseUrl, Litecoin, "efghi");
    assert ChainName(Litecoin) == "LTC";
    assert "/" + "efghi" == "/efghi";
  }

  lemma LitecoinAddressLinkExample(baseUrl: Chain -> string)
    requires KnownExplorers(baseUrl)
    ensures GetExplorerAddressUrl(baseUrl, "LTC", "12345") == Ok(LitecoinExplorerUrl + "/12345")
  {
    AddressLinkOfChain(baseUrl, Litecoin, "12345");
    assert ChainName(Litecoin) == "LTC";
    assert "/" + "12345" == "/12345";
  }

  /** Cosmos links use `/transactions/` and `/account/`. */
  lemma CosmosTxLinkExample(baseUrl: Chain -> string)
    requires KnownExplorers(baseUrl)
    ensures GetExplorerTxUrl(baseUrl, "GAIA", "pqrst") == Ok(CosmosExplorerUrl + "/transactions/pqrst")
  {
    TxLinkOfChain(baseUrl, Cosmos, "pqrst");
    assert ChainName(Cosmos) == "GAIA";
    assert "/transactions/" + "pqrst" == "/transactions/pqrst";
  }

  lemma CosmosAddressLinkExample(baseUrl: Chain -> string)
    requires KnownExplorers(baseUrl)
    ensures GetExplorerAddressUrl(baseUrl, "GAIA", "zabcd") == Ok(CosmosExplorerUrl + "/account/zabcd")
  {
    AddressLinkOfChain(baseUrl, Cosmos, "zabcd");
    assert ChainName(Cosmos) == "GAIA";
    assert "/account/" + "zabcd" == "/account/zabcd";
  }

  /** Dogecoin links use `/transaction/` and `/address/`. */
  lemma DogecoinTxLinkExample(baseUrl: Chain -> string)
    requires KnownExplorers(baseUrl)
    ensures GetExplorerTxUrl(baseUrl, "DOGE", "uvwxy") == Ok(DogecoinExplorerUrl + "/transaction/uvwxy")
  {
    TxLinkOfChain(baseUrl, Dogecoin, "uvwxy");
    assert ChainName(Dogecoin) == "DOGE";
    assert "/transaction/" + "uvwxy" == "/transaction/uvwxy";
  }

  lemma DogecoinAddressLinkExample(baseUrl: Chain -> string)
    requires KnownExplorers(baseUrl)
    ensures GetExplorerAddressUrl(baseUrl, "DOGE", "efghi") == Ok(DogecoinExplorerUrl + "/address/efghi")
  {
    AddressLinkOfChain(baseUrl, Dogecoin, "efghi");
    assert ChainName(Dogecoin) == "DOGE";
    assert "/address/" + "efghi" == "/address/efghi";
  }

  /** An unknown chain string is rejected with its own name in the message. */
  lemma UnsupportedChainExample(baseUrl: Chain -> string)
    ensures GetExplorerTxUrl(baseUrl, "unsupported", "0x12345") == Err(Thrown("Unsupported chain: unsupported"))
    ensures GetExplorerAddressUrl(baseUrl, "unsupported", "asdfg") == Err(Thrown("Unsupported chain: unsupported"))
  {
    assert UnsupportedChainPrefix + "unsupported" == "Unsupported chain: unsupported";
  }

  /** `getEmptyWalletStructure`: every chain present, every slot empty. */
  function EmptyWalletStructure<W>(): (m: map<Chain, Option<W>>)
    ensures forall c: Chain :: c in m && m[c] == None
  {
    var m := map c: Chain | c in AllChains :: None;
    assert forall c: Chain :: c in m by {
      forall c: Chain ensures c in m {
        AllChainsComplete(c);
      }
    }
    m
  }
}

=== FILE: js.dfy ===
/** Dynamic JavaScript values, for the places where the source inspects keys or truthiness
    of untyped objects (`'route' in params`, `!tx.gasPrice`, `Array.isArray(params)`). */
module Js {
  import opened Wrappers

  /** `Num` is a JavaScript number or bigint (only integral values are modelled);
      `BigNum` is an ethers `BigNumber` instance, which is an object and therefore
      truthy even when it holds zero; `Fn` is a function value, identified by a tag. */
  datatype JsValue =
    | Undefined
    | Null
    | Bool(b: bool)
    | Num(n: int)
    | BigNum(big: int)
    | Str(s: string)
    | Arr(items: seq<JsValue>)
    | Obj(fields: map<string, JsValue>)
    | Fn(tag: nat)

  /** JavaScript truthiness: `undefined`, `null`, `false`, `0`/`0n` and `""` are falsy. */
  predicate Truthy(v: JsValue) {
    match v
    case Undefined => false
    case Null => false
    case Bool(b) => b
    case Num(n) => n != 0
    case Str(s) => s != ""
    case _ => true
  }

  /** Property read `o[k]`: `undefined` when the key is absent. */
  function Get(o: map<string, JsValue>, k: string): (v: JsValue)
    ensures k !in o ==> v == Undefined
    ensures k in o ==> v == o[k]
  {
    if k in o then o[k] else Undefined
  }

  /** The `a || b` operator. */
  function Or(a: JsValue, b: JsValue): (v: JsValue)
    ensures Truthy(a) ==> v == a
    ensures !Truthy(a) ==> v == b
  {
    if Truthy(a) then a else b
  }

  /** Truthiness of an optional string (`undefined` and `""` are falsy). */
  predicate Filled(o: Option<string>) {
    o.Some? && o.value != ""
  }

  /** The `a || b` operator on optional strings. */
  function OrStr(a: Option<string>, b: Option<string>): (v: Option<string>)
    ensures Filled(a) ==> v == a
    ensures !Filled(a) ==> v == b
  {
    if Filled(a) then a else b
  }

  /** `arr.find(p)` located by index: the first element satisfying `p`, if any. */
  function FindIndex<T>(s: seq<T>, p: T -> bool): (i: Option<nat>)
    ensures i.Some? ==> i.value < |s| && p(s[i.value]) && forall j :: 0 <= j < i.value ==> !p(s[j])
    ensures i.None? ==> forall j :: 0 <= j < |s| ==> !p(s[j])
    decreases |s|
  {
    if |s| == 0 then None
    else if p(s[0]) then Some(0)
    else
      match FindIndex(s[1..], p)
      case Some(k) =>
        assert forall j :: 1 <= j < k + 1 ==> s[j] == s[1..][j - 1];
        Some(k + 1)
      case None =>
        assert forall j :: 1 <= j < |s| ==> s[j] == s[1..][j - 1];
        None
  }
}

=== FILE: keepkey_utxo.dfy ===
/** The KeepKey UTXO wallet methods: toolbox selection with its segwit flag, the
    translation of PSBT outputs and UTXO inputs into the device's format, the empty-entry
    filter, and the checks of `transfer`. The device SDK, the UTXO toolbox (transaction
    building, fee rates, broadcasting) and cash-address conversion are supplied by the
    caller. */
module KeepKeyUtxo {
  import opened Wrappers
  import opened Errors
  import opened Js
  import opened Strings
  import opened Types

  const ApiKeyNotFound := "UTXO API key not found"
  const FromRequired := "From address must be provided"
  const RecipientRequired := "Recipient address must be provided"

  /** The segwit flag of each UTXO chain's toolbox. */
  function Segwit(chain: Chain): bool
    requires IsUtxoChain(chain)
  {
    chain == Bitcoin || chain == Litecoin
  }

  /** `segwit ? 'p2wpkh' : 'p2pkh'`. */
  function ScriptType(chain: Chain): (t: string)
    requires IsUtxoChain(chain)
    ensures t == "p2wpkh" <==> chain == Bitcoin || chain == Litecoin
    ensures t == "p2pkh" <==> chain == Dogecoin || chain == BitcoinCash
  {
    if Segwit(chain) then "p2wpkh" else "p2pkh"
  }

  /** A PSBT output; `address` may be missing. */
  datatype PsbtOutput = PsbtOutput(address: Option<string>, value: nat, change: bool)

  /** An output in the device's format. */
  datatype DeviceOutput =
    | ChangeOutput(addressNList: seq<nat>, amount: nat, scriptType: string)
    | SpendOutput(address: string, amount: nat)

  /** The wallet as set up by `utxoWalletMethods`. */
  datatype Wallet = Wallet(chain: Chain, walletAddress: string, addressNList: seq<nat>, scriptType: string)

  /** `utxoWalletMethods`: an API key is required; the script type follows the segwit
      flag and the address comes from the device, whose rejection propagates.
      `deviceAddress` stands for `sdk.address.utxoGetAddress` with the chain's address
      info for that script type. */
  function UtxoWalletMethods(chain: Chain, apiKey: Option<string>, addressNList: seq<nat>,
                             deviceAddress: string -> Result<string>): (r: Result<Wallet>)
    requires IsUtxoChain(chain)
    ensures !Filled(apiKey) ==> r == Err(Thrown(ApiKeyNotFound))
    ensures Filled(apiKey) ==> (r.Ok? <==> deviceAddress(ScriptType(chain)).Ok?)
    ensures Filled(apiKey) && deviceAddress(ScriptType(chain)).Err? ==> r == Err(deviceAddress(ScriptType(chain)).error)
    ensures r.Ok? ==> r.value.chain == chain && r.value.scriptType == ScriptType(chain)
                      && r.value.walletAddress == deviceAddress(ScriptType(chain)).value
                      && r.value.addressNList == addressNList
  {
    if !Filled(apiKey) then Err(Thrown(ApiKeyNotFound))
    else
      var address :- deviceAddress(ScriptType(chain));
      Ok(Wallet(chain, address, addressNList, ScriptType(chain)))
  }

  /** The address a spend output pays: on Bitcoin Cash a present address is converted to
      cash-address form without prefix. */
  function OutputAddress(w: Wallet, cashAddress: string -> string, o: PsbtOutput): Option<string> {
    if w.chain == BitcoinCash && Filled(o.address) then Some(cashAddress(o.address.value)) else o.address
  }

  /** The mapping of one output: a change output (flagged, or paying the wallet's own
      address) goes back to the wallet's path; any other output whose converted address is
      non-empty is a spend to that address; the rest are dropped. */
  function MapOutput(w: Wallet, cashAddress: string -> string, o: PsbtOutput): (r: Option<DeviceOutput>)
    ensures o.change || o.address == Some(w.walletAddress) ==>
              r == Some(ChangeOutput(w.addressNList, o.value, w.scriptType))
    ensures !(o.change || o.address == Some(w.walletAddress)) ==>
              (r.Some? <==> Filled(o.address) && (w.chain == BitcoinCash ==> cashAddress(o.address.value) != ""))
    ensures !(o.change || o.address == Some(w.walletAddress)) && r.Some? ==> r.value.SpendOutput?
    ensures r.Some? && r.value.SpendOutput? ==>
              && !o.change && r.value.amount == o.value
              && r.value.address == (if w.chain == BitcoinCash then cashAddress(o.address.value) else o.address.value)
  {
    var outputAddress := OutputAddress(w, cashAddress, o);
    if o.change || o.address == Some(w.walletAddress) then Some(ChangeOutput(w.addressNList, o.value, w.scriptType))
    else if Filled(outputAddress) then Some(SpendOutput(outputAddress.value, o.value))
    else None
  }

  /** `outputs.map(...).filter(Boolean)` as a reference definition. */
  function MapOutputs(w: Wallet, cashAddress: string -> string, outputs: seq<PsbtOutput>): (r: seq<DeviceOutput>)
    ensures |r| <= |outputs|
    decreases |outputs|
  {
    if |outputs| == 0 then []
    else
      var rest := MapOutputs(w, cashAddress, outputs[..|outputs| - 1]);
      match MapOutput(w, cashAddress, outputs[|outputs| - 1])
      case Some(d) => rest + [d]
      case None => rest
  }

  /** Every output of the wallet's own becomes a change output, so a PSBT whose outputs
      all carry an address loses none of them. */
  lemma {:induction false} MapOutputsKeepsAddressed(w: Wallet, cashAddress: string -> string, outputs: seq<PsbtOutput>)
    requires forall i :: 0 <= i < |outputs| ==> Filled(outputs[i].address)
    requires w.chain == BitcoinCash ==> forall a :: cashAddress(a) != ""
    ensures |MapOutputs(w, cashAddress, outputs)| == |outputs|
    decreases |outputs|
  {
    if |outputs| > 0 {
      MapOutputsKeepsAddressed(w, cashAddress, outputs[..|outputs| - 1]);
      assert MapOutput(w, cashAddress, outputs[|outputs| - 1]).Some?;
    }
  }

  /** An entry that `removeNullAndEmptyObjectsFromArray` keeps: a non-null object with at
      least one key (an array counts, with its indices as keys, and an ethers `BigNumber`
      always has its `_hex` and `_isBigNumber` keys). */
  predicate NonEmptyObject(v: JsValue) {
    (v.Obj? && |v.fields| > 0) || (v.Arr? && |v.items| > 0) || v.BigNum?
  }

  /** The filter as a reference definition. */
  function KeepNonEmpty(arr: seq<JsValue>): seq<JsValue>
    decreases |arr|
  {
    if |arr| == 0 then []
    else KeepNonEmpty(arr[..|arr| - 1]) + (if NonEmptyObject(arr[|arr| - 1]) then [arr[|arr| - 1]] else [])
  }

  /** What the filter keeps: only non-empty objects, every non-empty object, in order. */
  lemma {:induction false} KeepNonEmptyExactly(arr: seq<JsValue>)
    ensures forall v :: v in KeepNonEmpty(arr) ==> NonEmptyObject(v) && v in arr
    ensures forall v :: v in arr && NonEmptyObject(v) ==> v in KeepNonEmpty(arr)
    ensures |KeepNonEmpty(arr)| <= |arr|
    decreases |arr|
  {
    if |arr| > 0 {
      var init := arr[..|arr| - 1];
      KeepNonEmptyExactly(init);
      assert arr == init + [arr[|arr| - 1]];
    }
  }

  /** `removeNullAndEmptyObjectsFromArray`: one pass over the array. */
  method RemoveNullAndEmptyObjects(arr: seq<JsValue>) returns (r: seq<JsValue>)
    ensures r == KeepNonEmpty(arr)
    ensures forall v :: v in r <==> v in arr && NonEmptyObject(v)
  {
    r := [];
    var i := 0;
    while i < |arr|
      invariant 0 <= i <= |arr|
      invariant r == KeepNonEmpty(arr[..i])
    {
      assert arr[..i + 1][..i] == arr[..i];
      if NonEmptyObject(arr[i]) {
        r := r + [arr[i]];
      }
      i := i + 1;
    }
    assert arr[..i] == arr;
    KeepNonEmptyExactly(arr);
  }

  /** The object form of a device output. */
  function OutputObject(o: DeviceOutput): JsValue {
    match o
    case ChangeOutput(path, amount, scriptType) =>
      Obj(map["addressNList" := Arr(seq(|path|, i requires 0 <= i < |path| => Num(path[i]))),
              "isChange" := Bool(true), "addressType" := Str("change"),
              "amount" := Num(amount), "scriptType" := Str(scriptType)])
    case SpendOutput(address, amount) =>
      Obj(map["address" := Str(address), "amount" := Num(amount), "addressType" := Str("spend")])
  }

  /** An array of non-empty objects passes the filter unchanged. */
  lemma {:induction false} KeepNonEmptyAll(arr: seq<JsValue>)
    requires forall i :: 0 <= i < |arr| ==> NonEmptyObject(arr[i])
    ensures KeepNonEmpty(arr) == arr
    decreases |arr|
  {
    if |arr| > 0 {
      KeepNonEmptyAll(arr[..|arr| - 1]);
      assert arr[..|arr| - 1] + [arr[|arr| - 1]] == arr;
    }
  }

  /** The mapped outputs are all non-empty objects, so the filter before signing removes
      nothing. */
  lemma FilterKeepsDeviceOutputs(outs: seq<DeviceOutput>)
    ensures var objs := seq(|outs|, i requires 0 <= i < |outs| => OutputObject(outs[i]));
            KeepNonEmpty(objs) == objs
  {
    var objs := seq(|outs|, i requires 0 <= i < |outs| => OutputObject(outs[i]));
    forall i | 0 <= i < |objs| ensures NonEmptyObject(objs[i]) {
      assert "amount" in OutputObject(outs[i]).fields;
    }
    KeepNonEmptyAll(objs);
  }

  /** An unspent input as the toolbox returns it. */
  datatype RawInput = RawInput(value: nat, index: nat, hash: string, txHex: Option<string>)

  /** An input in the device's format. */
  datatype DeviceInput = DeviceInput(addressNList: seq<nat>, scriptType: string, amount: string, vout: nat,
                                     txid: string, hex: string)

  /** The input mapping of `transfer`, one to one and in order. */
  function MapInputs(w: Wallet, raw: seq<RawInput>): (r: seq<DeviceInput>)
    ensures |r| == |raw|
    ensures forall i :: 0 <= i < |raw| ==>
              && r[i].vout == raw[i].index
              && r[i].txid == raw[i].hash
              && r[i].hex == (if Filled(raw[i].txHex) then raw[i].txHex.value else "")
              && r[i].addressNList == w.addressNList
              && r[i].scriptType == w.scriptType
              && AllDigits(r[i].amount) && DigitsValue(r[i].amount) == raw[i].value
  {
    var r := seq(|raw|, i requires 0 <= i < |raw| =>
      DeviceInput(w.addressNList, w.scriptType, NatToString(raw[i].value), raw[i].index, raw[i].hash,
                  if Filled(raw[i].txHex) then raw[i].txHex.value else ""));
    assert forall i :: 0 <= i < |raw| ==> AllDigits(r[i].amount) && DigitsValue(r[i].amount) == raw[i].value by {
      forall i | 0 <= i < |raw| ensures AllDigits(r[i].amount) && DigitsValue(r[i].amount) == raw[i].value {
        NatToStringDigits(raw[i].value);
      }
    }
    r
  }

  /** What the toolbox passes to `buildTx` and what it returns. */
  datatype BuildRequest = BuildRequest(recipient: string, sender: string, memo: Option<string>,
                                       feeOptionKey: Option<FeeOption>, feeRate: nat, rest: map<string, JsValue>)

  datatype SignRequest = SignRequest(inputs: seq<DeviceInput>, outputs: seq<DeviceOutput>, version: nat,
                                     locktime: nat, opReturnData: string)

  datatype TransferEnv = TransferEnv(
    feeRates: Result<FeeOption -> nat>,
    buildTx: BuildRequest -> Result<(seq<PsbtOutput>, seq<RawInput>)>,
    cashAddress: string -> string,
    sign: SignRequest -> Result<string>,
    broadcast: string -> Result<string>)

  /** `UTXOTransferParams`, the fields `transfer` reads. */
  datatype TransferParams = TransferParams(from: Option<string>, recipient: Option<string>,
                                           feeOptionKey: Option<FeeOption>, feeRate: Option<nat>,
                                           memo: Option<string>, rest: map<string, JsValue>)

  /** The fee rate: the caller's when truthy, else the toolbox's rate for the requested
      tier, Fast by default. */
  function FeeRate(env: TransferEnv, p: TransferParams): (r: Result<nat>)
    ensures p.feeRate.Some? && p.feeRate.value > 0 ==> r == Ok(p.feeRate.value)
    ensures !(p.feeRate.Some? && p.feeRate.value > 0) && env.feeRates.Ok? ==>
              r == Ok(env.feeRates.value(p.feeOptionKey.GetOr(Fast)))
  {
    if p.feeRate.Some? && p.feeRate.value > 0 then Ok(p.feeRate.value)
    else
      var rates :- env.feeRates;
      Ok(rates(p.feeOptionKey.GetOr(Fast)))
  }

  /** `transfer`: both addresses are required; the transaction is built with the fee rate
      above, its inputs and outputs translated, signed with the memo as OP_RETURN data
      (default `""`), and broadcast. */
  function Transfer(w: Wallet, env: TransferEnv, p: TransferParams): (r: Result<string>)
    ensures !Filled(p.from) ==> r == Err(Thrown(FromRequired))
    ensures Filled(p.from) && !Filled(p.recipient) ==> r == Err(Thrown(RecipientRequired))
  {
    if !Filled(p.from) then Err(Thrown(FromRequired))
    else if !Filled(p.recipient) then Err(Thrown(RecipientRequired))
    else
      var feeRate :- FeeRate(env, p);
      var (outputs, rawInputs) :- env.buildTx(BuildRequest(p.recipient.value, p.from.value, p.memo, p.feeOptionKey, feeRate, p.rest));
      var request := SignRequest(MapInputs(w, rawInputs), MapOutputs(w, env.cashAddress, outputs), 1, 0, p.memo.GetOr(""));
      var txHex :- env.sign(request);
      env.broadcast(txHex)
  }

  /** A transfer signs exactly what was built: one device input per raw input and the
      mapped outputs, version 1, lock time 0. */
  lemma TransferSignsBuiltTransaction(w: Wallet, env: TransferEnv, p: TransferParams)
    requires Filled(p.from) && Filled(p.recipient) && FeeRate(env, p).Ok?
    requires env.buildTx(BuildRequest(p.recipient.value, p.from.value, p.memo, p.feeOptionKey, FeeRate(env, p).value, p.rest)).Ok?
    ensures var (outputs, rawInputs) := env.buildTx(BuildRequest(p.recipient.value, p.from.value, p.memo, p.feeOptionKey, FeeRate(env, p).value, p.rest)).value;
            var request := SignRequest(MapInputs(w, rawInputs), MapOutputs(w, env.cashAddress, outputs), 1, 0, p.memo.GetOr(""));
            Transfer(w, env, p) == (match env.sign(request) case Err(e) => Err(e) case Ok(hex) => env.broadcast(hex))
  {
  }
}

=== FILE: maya.dfy ===
/** The Maya plugin: sender-address validation, transaction-parameter preparation,
    inbound-address lookup, the deposit branching with its error classification, and the
    swap entry point. Network results (the inbound-address list, asset parsing, the asset's
    checksummed contract address, the clock) come in through `MayaEnv`. */
module Maya {
  import opened Wrappers
  import opened Errors
  import opened Js
  import opened Strings
  import opened Types
  import opened Assets
  import opened Wallets

  const InvalidSenderAddress := "core_transaction_invalid_sender_address"
  const WalletConnectionNotFound := "core_wallet_connection_not_found"
  const InboundDataNotFound := "core_inbound_data_not_found"
  const ChainHalted := "core_chain_halted"
  const AssetNotRecognized := "core_swap_asset_not_recognized"

  const InsufficientFundsError := "core_transaction_deposit_insufficient_funds_error"
  const GasError := "core_transaction_deposit_gas_error"
  const ServerError := "core_transaction_deposit_server_error"
  const UserRejected := "core_transaction_user_rejected"
  const DepositError := "core_transaction_deposit_error"

  /** One entry of the node's inbound-address list. */
  datatype InboundAddress = InboundAddress(
    chain: Chain,
    address: string,
    router: string,
    halted: bool,
    gasRate: string)

  /** The EVM execution details of a quote route. */
  datatype EvmTransactionDetails = EvmTransactionDetails(
    contractAddress: string,
    contractMethod: string,
    contractParams: seq<JsValue>)

  /** `QuoteRouteV2`, the fields the plugin reads. */
  datatype Route = Route(
    sellAsset: string,
    sellAmount: string,
    memo: Option<string>,
    sourceAddress: string,
    evmTransactionDetails: Option<EvmTransactionDetails>)

  /** What the plugin obtains from outside: the Maya node's inbound addresses, asset
      parsing (`AssetValue.fromString`), the checksummed token address of an asset, and
      the current time in milliseconds. */
  datatype MayaEnv = MayaEnv(
    inbound: Result<seq<InboundAddress>>,
    parseAsset: (string, string) -> Option<AssetValue>,
    checksumAsset: AssetValue -> Result<string>,
    nowMs: nat)

  /** `validateAddressType`: a missing or empty address is invalid; on Bitcoin a Taproot
      (`bc1p`) address is filtered out; every other address is valid. */
  function ValidateAddressType(chain: Chain, address: Option<string>): (ok: bool)
    ensures !Filled(address) ==> !ok
    ensures Filled(address) && chain == Bitcoin ==> (ok <==> !StartsWith(address.value, "bc1p"))
    ensures Filled(address) && chain != Bitcoin ==> ok
  {
    if !Filled(address) then false
    else if chain == Bitcoin then !StartsWith(address.value, "bc1p")
    else true
  }

  /** `prepareTxParams`: keeps every field, defaults a falsy `memo` to `""` and sets `from`
      to the registry address of the asset's chain. */
  function PrepareTxParams(wallets: WalletRegistry, p: TxParams): (r: TxParams)
    ensures r.assetValue == p.assetValue
    ensures r.fields.Keys == p.fields.Keys + {"memo", "from"}
    ensures r.fields["from"] == Str(RegistryAddress(wallets, p.assetValue.chain))
    ensures Truthy(Get(p.fields, "memo")) ==> r.fields["memo"] == p.fields["memo"]
    ensures !Truthy(Get(p.fields, "memo")) ==> r.fields["memo"] == Str("")
    ensures forall k :: k in p.fields && k != "memo" && k != "from" ==> r.fields[k] == p.fields[k]
  {
    var memo := Or(Get(p.fields, "memo"), Str(""));
    TxParams(p.assetValue, p.fields["memo" := memo]["from" := Str(RegistryAddress(wallets, p.assetValue.chain))])
  }

  /** The fixed entry used for Maya and THORChain, which need no lookup. */
  function NativeInbound(chain: Chain): InboundAddress {
    InboundAddress(chain, "", "", false, "0")
  }

  /** `getInboundDataByChain`: the fixed entry for Maya and THORChain; otherwise the first
      fetched entry for the chain, `core_inbound_data_not_found` when there is none and
      `core_chain_halted` when that entry is halted. */
  function GetInboundDataByChain(chain: Chain, fetched: Result<seq<InboundAddress>>): (r: Result<InboundAddress>)
    ensures chain == Maya || chain == THORChain ==> r == Ok(NativeInbound(chain))
    ensures chain != Maya && chain != THORChain && fetched.Err? ==> r == Err(fetched.error)
    ensures chain != Maya && chain != THORChain && fetched.Ok? ==>
              && ((forall j :: 0 <= j < |fetched.value| ==> fetched.value[j].chain != chain) <==>
                  r == Err(Key(InboundDataNotFound)))
              && (forall i ::
                    (&& 0 <= i < |fetched.value|
                     && fetched.value[i].chain == chain
                     && (forall j :: 0 <= j < i ==> fetched.value[j].chain != chain)) ==>
                    if fetched.value[i].halted then r == Err(Key(ChainHalted)) else r == Ok(fetched.value[i]))
  {
    if chain == Maya || chain == THORChain then Ok(NativeInbound(chain))
    else
      match fetched
      case Err(e) => Err(e)
      case Ok(entries) =>
        match FindIndex(entries, (e: InboundAddress) => e.chain == chain)
        case None => Err(Key(InboundDataNotFound))
        case Some(i) => if entries[i].halted then Err(Key(ChainHalted)) else Ok(entries[i])
  }

  /** `getApprovalTarget`: the router of the asset chain's inbound entry, which is empty
      for THORChain and Maya. */
  function GetApprovalTarget(a: AssetValue, fetched: Result<seq<InboundAddress>>): (r: Result<string>)
    ensures a.chain == Maya || a.chain == THORChain ==> r == Ok("")
    ensures r.Ok? <==> GetInboundDataByChain(a.chain, fetched).Ok?
    ensures r.Ok? ==> r.value == GetInboundDataByChain(a.chain, fetched).value.router
  {
    var inbound :- GetInboundDataByChain(a.chain, fetched);
    Ok(inbound.router)
  }

  /** The error key a failed deposit is reported with, from the lower-cased message, in
      fixed priority: insufficient funds, gas, server, user rejected, anything else. */
  function DepositErrorKey(message: string): string {
    var m := ToLower(message);
    if Contains(m, "insufficient funds") then InsufficientFundsError
    else if Contains(m, "gas") then GasError
    else if Contains(m, "server") then ServerError
    else if Contains(m, "user rejected") then UserRejected
    else DepositError
  }

  /** The phrases the classifier looks for and the key each one selects, in priority order. */
  const Phrases: seq<(string, string)> := [
    ("insufficient funds", InsufficientFundsError),
    ("gas", GasError),
    ("server", ServerError),
    ("user rejected", UserRejected)]

  /** The classification as a priority search: the key of the first phrase in the list
      that occurs in the lower-cased message, or the generic key when none does. */
  function FirstMatchingPhrase(m: string, phrases: seq<(string, string)>): string
    decreases |phrases|
  {
    if |phrases| == 0 then DepositError
    else if Contains(m, phrases[0].0) then phrases[0].1
    else FirstMatchingPhrase(m, phrases[1..])
  }

  lemma DepositErrorKeyIsPrioritySearch(message: string)
    ensures DepositErrorKey(message) == FirstMatchingPhrase(ToLower(message), Phrases)
  {
    var m := ToLower(message);
    var p1 := [("gas", GasError), ("server", ServerError), ("user rejected", UserRejected)];
    var p2 := [("server", ServerError), ("user rejected", UserRejected)];
    var p3 := [("user rejected", UserRejected)];
    assert Phrases[1..] == p1 && p1[1..] == p2 && p2[1..] == p3 && p3[1..] == [];
    assert FirstMatchingPhrase(m, p3) == if Contains(m, "user rejected") then UserRejected else DepositError;
    assert FirstMatchingPhrase(m, p2) == if Contains(m, "server") then ServerError else FirstMatchingPhrase(m, p3);
    assert FirstMatchingPhrase(m, p1) == if Contains(m, "gas") then GasError else FirstMatchingPhrase(m, p2);
  }

  /** A phrase wins over every phrase after it: the key is that of a phrase which occurs,
      and no earlier phrase occurs. */
  lemma {:induction false} DepositErrorKeyPriority(message: string)
    ensures var key := DepositErrorKey(message);
            var m := ToLower(message);
            || (key == DepositError && forall k :: 0 <= k < |Phrases| ==> !Contains(m, Phrases[k].0))
            || exists k :: 0 <= k < |Phrases| && key == Phrases[k].1 && Contains(m, Phrases[k].0)
                           && forall j :: 0 <= j < k ==> !Contains(m, Phrases[j].0)
  {
    var m := ToLower(message);
    if Contains(m, Phrases[0].0) {
    } else if Contains(m, Phrases[1].0) {
      assert forall j :: 0 <= j < 1 ==> !Contains(m, Phrases[j].0);
    } else if Contains(m, Phrases[2].0) {
      assert forall j :: 0 <= j < 2 ==> !Contains(m, Phrases[j].0);
    } else if Contains(m, Phrases[3].0) {
      assert forall j :: 0 <= j < 3 ==> !Contains(m, Phrases[j].0);
    }
  }

  /** `rest.expiration ||` the time fifteen minutes from now, in whole seconds. */
  function Expiration(rest: map<string, JsValue>, nowMs: nat): JsValue {
    Or(Get(rest, "expiration"), Num((nowMs + 15 * 60 * 1000) / 1000))
  }

  /** `router` as the value of the `router` key (`undefined` when absent). */
  function RouterField(router: Option<string>): JsValue {
    match router
    case Some(r) => Str(r)
    case None => Undefined
  }

  /** The fields `prepareTxParams` receives besides the asset: the destructured `recipient`
      and `router` with the remaining fields. Destructuring takes those two keys out of
      `...rest`, so they are the ones given here whatever `rest` holds. */
  function DepositFields(recipient: string, router: Option<string>, rest: map<string, JsValue>)
    : (fields: map<string, JsValue>)
    ensures fields.Keys == rest.Keys + {"recipient", "router"}
    ensures fields["recipient"] == Str(recipient) && fields["router"] == RouterField(router)
    ensures forall k :: k in rest && k != "recipient" && k != "router" ==> fields[k] == rest[k]
  {
    rest["recipient" := Str(recipient)]["router" := RouterField(router)]
  }

  /** The body of the deposit's `try` block: the chain-specific wallet call. */
  function DepositCall(wallets: WalletRegistry, env: MayaEnv, w: ChainWallet, a: AssetValue,
                       recipient: string, router: Option<string>, rest: map<string, JsValue>,
                       params: TxParams): Result<string>
  {
    match a.chain
    case THORChain =>
      if recipient == "" then (if w.deposit.Some? then w.deposit.value(params) else Err(NotAFunction))
      else w.transfer(params)
    case Maya =>
      if recipient == "" then (if w.deposit.Some? then w.deposit.value(params) else Err(NotAFunction))
      else w.transfer(params)
    case Ethereum =>
      var contractAddress :-
        if Filled(router) then Ok(router.value)
        else match GetInboundDataByChain(a.chain, env.inbound)
             case Ok(inbound) => Ok(inbound.router)
             case Err(e) => Err(e);
      var token :- env.checksumAsset(a);
      var call := ContractCall(
        contractAddress,
        "depositWithExpiry",
        [Str(recipient), Str(token), Str(NatToString(a.baseValue)), Get(params.fields, "memo"),
         Expiration(rest, env.nowMs)],
        RegistryAddress(wallets, a.chain),
        if a.isGasAsset then Some(a.baseValue) else None,
        None);
      if w.call.Some? then w.call.value(call) else Err(NotAFunction)
    case _ => w.transfer(params)
  }

  /** The chains whose wallet call is awaited inside the `try`: THORChain and Maya
      (`return await`) and Ethereum. Every other chain returns the transfer's promise
      without awaiting it, so its rejection escapes the `catch`. */
  predicate AwaitedInTry(c: Chain) {
    c == THORChain || c == Maya || c == Ethereum
  }

  /** `deposit({assetValue, recipient, router, ...rest})`. The sender check comes first,
      so a chain without a wallet fails as an invalid sender. A failure of an awaited
      wallet call is classified by its message and wrapped; on every other chain the
      transfer's own error reaches the caller unchanged. */
  function Deposit(wallets: WalletRegistry, env: MayaEnv, a: AssetValue, recipient: string,
                   router: Option<string>, rest: map<string, JsValue>): (r: Result<string>)
    ensures a.chain !in wallets ==> r == Err(Key(InvalidSenderAddress))
    ensures a.chain in wallets && !ValidateAddressType(a.chain, Some(wallets[a.chain].address)) ==>
              r == Err(Key(InvalidSenderAddress))
    ensures AwaitedInTry(a.chain) && r.Err? && r.error != Key(InvalidSenderAddress) ==>
              && r.error.SwapKitError?
              && r.error.cause.Some?
              && r.error.key == DepositErrorKey(Message(r.error.cause.value))
    ensures !AwaitedInTry(a.chain) && a.chain in wallets && ValidateAddressType(a.chain, Some(wallets[a.chain].address)) ==>
              r == wallets[a.chain].transfer(PrepareTxParams(wallets, TxParams(a, DepositFields(recipient, router, rest))))
  {
    var address := if a.chain in wallets then Some(wallets[a.chain].address) else None;
    if !ValidateAddressType(a.chain, address) then Err(Key(InvalidSenderAddress))
    else if a.chain !in wallets then Err(Key(WalletConnectionNotFound))
    else
      var w := wallets[a.chain];
      var params := PrepareTxParams(wallets, TxParams(a, DepositFields(recipient, router, rest)));
      match DepositCall(wallets, env, w, a, recipient, router, rest, params)
      case Ok(hash) => Ok(hash)
      case Err(e) => if AwaitedInTry(a.chain) then Err(SwapKitError(DepositErrorKey(Message(e)), Some(e))) else Err(e)
  }

  /** On a chain outside the awaited branches a failed transfer is not classified: the
      caller sees the wallet's error itself, never a deposit error key wrapped around it. */
  lemma DepositDefaultBranchPassesThrough(wallets: WalletRegistry, env: MayaEnv, a: AssetValue, recipient: string,
                                          router: Option<string>, rest: map<string, JsValue>, e: Error)
    requires !AwaitedInTry(a.chain) && a.chain in wallets && wallets[a.chain].address != ""
    requires !(a.chain == Bitcoin && StartsWith(wallets[a.chain].address, "bc1p"))
    requires wallets[a.chain].transfer(PrepareTxParams(wallets, TxParams(a, DepositFields(recipient, router, rest)))) == Err(e)
    ensures Deposit(wallets, env, a, recipient, router, rest) == Err(e)
    ensures Deposit(wallets, env, a, recipient, router, rest) != Err(SwapKitError(DepositErrorKey(Message(e)), Some(e)))
  {
    assert ValidateAddressType(a.chain, Some(wallets[a.chain].address));
  }

  /** The wallet-existence check after the sender check can never fire: a deposit reports
      `core_wallet_connection_not_found` only when, on a chain outside the awaited
      branches, the wallet's own transfer rejected with that error. */
  lemma DepositNeverReportsMissingWallet(wallets: WalletRegistry, env: MayaEnv, a: AssetValue,
                                         recipient: string, router: Option<string>, rest: map<string, JsValue>)
    ensures FailsWithKey(Deposit(wallets, env, a, recipient, router, rest), WalletConnectionNotFound) ==>
              && !AwaitedInTry(a.chain) && a.chain in wallets
              && Deposit(wallets, env, a, recipient, router, rest) ==
                 wallets[a.chain].transfer(PrepareTxParams(wallets, TxParams(a, DepositFields(recipient, router, rest))))
  {
  }

  /** On THORChain and Maya an empty recipient means a native deposit, any other recipient
      a transfer; the wallet's answer is returned, or classified when it is a failure. */
  lemma DepositNativeBranch(wallets: WalletRegistry, env: MayaEnv, a: AssetValue, recipient: string,
                            router: Option<string>, rest: map<string, JsValue>)
    requires a.chain == THORChain || a.chain == Maya
    requires a.chain in wallets && wallets[a.chain].address != ""
    ensures var w := wallets[a.chain];
            var params := PrepareTxParams(wallets, TxParams(a, DepositFields(recipient, router, rest)));
            var called := if recipient == "" then (if w.deposit.Some? then w.deposit.value(params) else Err(NotAFunction))
                          else w.transfer(params);
            match called
            case Ok(h) => Deposit(wallets, env, a, recipient, router, rest) == Ok(h)
            case Err(e) => Deposit(wallets, env, a, recipient, router, rest) ==
                             Err(SwapKitError(DepositErrorKey(Message(e)), Some(e)))
  {
    var w := wallets[a.chain];
    var params := PrepareTxParams(wallets, TxParams(a, DepositFields(recipient, router, rest)));
    assert ValidateAddressType(a.chain, Some(w.address));
    assert DepositCall(wallets, env, w, a, recipient, router, rest, params) ==
           if recipient == "" then (if w.deposit.Some? then w.deposit.value(params) else Err(NotAFunction))
           else w.transfer(params);
  }

  /** On Ethereum the deposit calls the vault's `depositWithExpiry` on the given router, or
      on the inbound entry's router when none is given, with the recipient, the asset's
      checksummed token address, the base amount in decimal, the prepared memo and the
      expiration, sent from the registry address with the amount attached for the gas asset.
      A failed router lookup or checksum happens inside the `try` and is classified too. */
  lemma DepositEthereumCall(wallets: WalletRegistry, env: MayaEnv, a: AssetValue, recipient: string,
                            router: Option<string>, rest: map<string, JsValue>)
    requires a.chain == Ethereum && a.chain in wallets && wallets[a.chain].address != ""
    ensures var w := wallets[a.chain];
            var target := if Filled(router) then Ok(router.value)
                          else match GetInboundDataByChain(Ethereum, env.inbound)
                               case Ok(inbound) => Ok(inbound.router)
                               case Err(e) => Err(e);
            var called :=
              match target
              case Err(e) => Err(e)
              case Ok(contract) =>
                match env.checksumAsset(a)
                case Err(e) => Err(e)
                case Ok(token) =>
                  var call := ContractCall(
                    contract,
                    "depositWithExpiry",
                    [Str(recipient), Str(token), Str(NatToString(a.baseValue)),
                     Or(Get(rest, "memo"), Str("")), Expiration(rest, env.nowMs)],
                    w.address,
                    if a.isGasAsset then Some(a.baseValue) else None,
                    None);
                  if w.call.Some? then w.call.value(call) else Err(NotAFunction);
            match called
            case Ok(h) => Deposit(wallets, env, a, recipient, router, rest) == Ok(h)
            case Err(e) => Deposit(wallets, env, a, recipient, router, rest) ==
                             Err(SwapKitError(DepositErrorKey(Message(e)), Some(e)))
  {
    var w := wallets[a.chain];
    var fields := DepositFields(recipient, router, rest);
    var params := PrepareTxParams(wallets, TxParams(a, fields));
    assert ValidateAddressType(a.chain, Some(w.address));
    assert Get(fields, "memo") == Get(rest, "memo");
    assert Get(params.fields, "memo") == Or(Get(rest, "memo"), Str(""));
  }

  /** The transaction's `from` is always the registry address of the asset's chain, even
      when the caller supplied a different `from`. */
  lemma PreparedSenderIsRegistryAddress(wallets: WalletRegistry, p: TxParams)
    ensures Get(PrepareTxParams(wallets, p).fields, "from") == Str(RegistryAddress(wallets, p.assetValue.chain))
  {
  }

  /** `swap({route, ...rest})`. */
  function Swap(wallets: WalletRegistry, env: MayaEnv, route: Route, feeOptionKey: Option<FeeOption>)
    : (r: Result<string>)
    ensures route.sellAsset == "" ==> r == Err(Key(AssetNotRecognized))
    ensures route.sellAsset != "" && env.parseAsset(route.sellAsset, route.sellAmount).None? ==>
              r == Err(Key(AssetNotRecognized))
  {
    if route.sellAsset == "" then Err(Key(AssetNotRecognized))
    else
      match env.parseAsset(route.sellAsset, route.sellAmount)
      case None => Err(Key(AssetNotRecognized))
      case Some(a) =>
        var inbound :- GetInboundDataByChain(a.chain, env.inbound);
        if !(IsEvmChain(a.chain) && route.evmTransactionDetails.Some?) then
          Deposit(wallets, env, a, inbound.address, None, SwapDepositFields(route, feeOptionKey))
        else if a.chain !in wallets then Err(Key(WalletConnectionNotFound))
        else
          var details := route.evmTransactionDetails.value;
          var w := wallets[a.chain];
          var call := ContractCall(
            details.contractAddress,
            details.contractMethod,
            details.contractParams,
            route.sourceAddress,
            if a.isGasAsset then Some(a.baseValue) else None,
            feeOptionKey);
          if w.call.Some? then w.call.value(call) else Err(NotAFunction)
  }

  /** The fields a deposit-routed swap passes besides the asset and recipient. */
  function SwapDepositFields(route: Route, feeOptionKey: Option<FeeOption>): map<string, JsValue> {
    map[
      "memo" := Str(OrStr(route.memo, Some("")).value),
      "from" := Str(route.sourceAddress),
      "feeOptionKey" := match feeOptionKey case Some(f) => Str(FeeOptionName(f)) case None => Undefined]
  }

  /** A swap selling a non-EVM asset, or a route without EVM details, is a deposit of the
      parsed asset to the chain's inbound address with the route memo (`""` when absent). */
  lemma SwapDepositsToInbound(wallets: WalletRegistry, env: MayaEnv, route: Route, f: Option<FeeOption>)
    requires route.sellAsset != ""
    requires env.parseAsset(route.sellAsset, route.sellAmount).Some?
    ensures var a := env.parseAsset(route.sellAsset, route.sellAmount).value;
            var inbound := GetInboundDataByChain(a.chain, env.inbound);
            !(IsEvmChain(a.chain) && route.evmTransactionDetails.Some?) ==>
              match inbound
              case Err(e) => Swap(wallets, env, route, f) == Err(e)
              case Ok(entry) =>
                Swap(wallets, env, route, f) == Deposit(wallets, env, a, entry.address, None, SwapDepositFields(route, f))
  {
  }

  /** Selling a THORChain or Maya asset needs no lookup: the recipient is empty, so the
      swap goes through the wallet's native `deposit`, never `transfer`. */
  lemma SwapNativeAssetUsesDeposit(wallets: WalletRegistry, env: MayaEnv, route: Route, f: Option<FeeOption>)
    requires route.sellAsset != ""
    requires env.parseAsset(route.sellAsset, route.sellAmount).Some?
    requires var a := env.parseAsset(route.sellAsset, route.sellAmount).value;
             (a.chain == THORChain || a.chain == Maya) && a.chain in wallets && wallets[a.chain].address != ""
             && wallets[a.chain].deposit.Some?
    ensures var a := env.parseAsset(route.sellAsset, route.sellAmount).value;
            var w := wallets[a.chain];
            var params := PrepareTxParams(wallets, TxParams(a, DepositFields("", None, SwapDepositFields(route, f))));
            match w.deposit.value(params)
            case Ok(h) => Swap(wallets, env, route, f) == Ok(h)
            case Err(e) => Swap(wallets, env, route, f) == Err(SwapKitError(DepositErrorKey(Message(e)), Some(e)))
  {
    var a := env.parseAsset(route.sellAsset, route.sellAmount).value;
    var fields := SwapDepositFields(route, f);
    assert GetInboundDataByChain(a.chain, env.inbound) == Ok(NativeInbound(a.chain));
    assert !IsEvmChain(a.chain);
    assert Swap(wallets, env, route, f) == Deposit(wallets, env, a, "", None, fields);
    DepositNativeBranch(wallets, env, a, "", None, fields);
    assert RouterField(None) == Undefined;
  }

  /** An EVM asset sold along a route with EVM details is a contract call on the chain's
      wallet: the route's contract, method and parameters, sent from the route's source
      address with the amount attached for the gas asset and the caller's fee option. The
      inbound lookup still comes first and its failure is the result; a chain without a
      wallet is `core_wallet_connection_not_found`. */
  lemma SwapEvmCall(wallets: WalletRegistry, env: MayaEnv, route: Route, f: Option<FeeOption>)
    requires route.sellAsset != ""
    requires env.parseAsset(route.sellAsset, route.sellAmount).Some?
    ensures var a := env.parseAsset(route.sellAsset, route.sellAmount).value;
            IsEvmChain(a.chain) && route.evmTransactionDetails.Some? ==>
              var details := route.evmTransactionDetails.value;
              match GetInboundDataByChain(a.chain, env.inbound)
              case Err(e) => Swap(wallets, env, route, f) == Err(e)
              case Ok(_) =>
                && (a.chain !in wallets ==> Swap(wallets, env, route, f) == Err(Key(WalletConnectionNotFound)))
                && (a.chain in wallets ==>
                      var w := wallets[a.chain];
                      var call := ContractCall(
                        details.contractAddress,
                        details.contractMethod,
                        details.contractParams,
                        route.sourceAddress,
                        if a.isGasAsset then Some(a.baseValue) else None,
                        f);
                      Swap(wallets, env, route, f) == if w.call.Some? then w.call.value(call) else Err(NotAFunction))
  {
  }
}

=== FILE: others.dfy ===
/** Small numeric helpers: the THORName registration cost and BIP-32 derivation-path
    rendering, with a parser that reads a rendered path back. */
module Others {
  import opened Wrappers
  import opened Errors
  import opened Strings

  const InvalidYear := "Invalid number of year"

  /** `getTHORNameCost(year)`: 10 RUNE to register plus 1 RUNE per year; a negative
      number of years is refused. */
  function THORNameCost(year: int): (r: Result<int>)
    ensures year < 0 <==> r == Err(Thrown(InvalidYear))
    ensures year >= 0 ==> r.Ok? && r.value - year == 10
  {
    if year < 0 then Err(Thrown(InvalidYear)) else Ok(10 + year)
  }

  /** Every additional year costs more, and registering for zero years costs 10. */
  lemma THORNameCostIncreasing(y1: int, y2: int)
    requires 0 <= y1 < y2
    ensures THORNameCost(y1).value < THORNameCost(y2).value
    ensures THORNameCost(0) == Ok(10) && THORNameCost(1) == Ok(11)
  {
  }

  /** A BIP-44 path `[purpose, coin type, account, change, index?]`. */
  datatype DerivationPath = DerivationPath(network: nat, chainId: nat, account: nat, change: nat, index: Option<nat>)

  /** `derivationPathToString`: `m/N'/C'/A'/change`, followed by `/index` only when an
      index is given. The first three levels are hardened. */
  function DerivationPathToString(p: DerivationPath): (s: string)
    ensures StartsWith(s, "m/")
  {
    "m/" + (Hardened(p.network) + (Hardened(p.chainId) + (Hardened(p.account) + Tail(p.change, p.index))))
  }

  /** One hardened level `<n>'/`. */
  function Hardened(n: nat): string {
    NatToString(n) + "'/"
  }

  /** The unhardened tail `change` or `change/index`. */
  function Tail(change: nat, index: Option<nat>): string {
    NatToString(change) + (if index.Some? then "/" + NatToString(index.value) else "")
  }

  /** Reads a run of decimal digits at the front of `s`, returning its value and the rest. */
  function ReadNat(s: string): (r: Option<(nat, string)>)
    ensures r.Some? ==> |r.value.1| < |s|
  {
    var k := DigitPrefix(s);
    if k == 0 then None else Some((DigitsValue(s[..k]), s[k..]))
  }

  /** Reads a hardened level `<n>'/`. */
  function ReadHardened(s: string): (r: Option<(nat, string)>)
  {
    match ReadNat(s)
    case None => None
    case Some((n, rest)) => if StartsWith(rest, "'/") then Some((n, rest[2..])) else None
  }

  /** Reads the unhardened tail `change` or `change/index`. */
  function ReadTail(s: string): Option<(nat, Option<nat>)> {
    match ReadNat(s)
    case None => None
    case Some((change, rest)) =>
      if rest == "" then Some((change, None))
      else if rest[0] != '/' then None
      else
        match ReadNat(rest[1..])
        case None => None
        case Some((index, r)) => if r == "" then Some((change, Some(index))) else None
  }

  /** Reads a path in the shape `derivationPathToString` produces. */
  function ParseDerivationPath(s: string): Option<DerivationPath> {
    if !StartsWith(s, "m/") then None
    else
      match ReadHardened(s[2..])
      case None => None
      case Some((network, r1)) =>
        match ReadHardened(r1)
        case None => None
        case Some((chainId, r2)) =>
          match ReadHardened(r2)
          case None => None
          case Some((account, r3)) =>
            match ReadTail(r3)
            case None => None
            case Some((change, index)) => Some(DerivationPath(network, chainId, account, change, index))
  }

  /** A rendered number followed by a non-digit reads back as that number. */
  lemma ReadNatRendered(n: nat, t: string)
    requires |t| > 0 ==> !IsDigit(t[0])
    ensures ReadNat(NatToString(n) + t) == Some((n, t))
  {
    var d := NatToString(n);
    NatToStringDigits(n);
    DigitPrefixOfDigits(d, t);
    assert (d + t)[..|d|] == d;
    assert (d + t)[|d|..] == t;
  }

  lemma ReadHardenedRendered(n: nat, t: string)
    ensures ReadHardened(Hardened(n) + t) == Some((n, t))
  {
    ReadNatRendered(n, "'/" + t);
    assert Hardened(n) + t == NatToString(n) + ("'/" + t);
    assert ("'/" + t)[2..] == t;
  }

  lemma ReadTailRendered(change: nat, index: Option<nat>)
    ensures ReadTail(Tail(change, index)) == Some((change, index))
  {
    var tail := if index.Some? then "/" + NatToString(index.value) else "";
    ReadNatRendered(change, tail);
    if index.Some? {
      assert tail[1..] == NatToString(index.value) + "";
      ReadNatRendered(index.value, "");
    }
  }

  /** The parser composes its three hardened reads and the tail read. */
  lemma ParseFromParts(s: string, p: DerivationPath, r1: string, r2: string, r3: string)
    requires StartsWith(s, "m/")
    requires ReadHardened(s[2..]) == Some((p.network, r1))
    requires ReadHardened(r1) == Some((p.chainId, r2))
    requires ReadHardened(r2) == Some((p.account, r3))
    requires ReadTail(r3) == Some((p.change, p.index))
    ensures ParseDerivationPath(s) == Some(p)
  {
  }

  /** Rendering loses nothing: the parser recovers every level, including whether an
      index was given. */
  lemma {:induction false} DerivationPathRoundTrip(p: DerivationPath)
    ensures ParseDerivationPath(DerivationPathToString(p)) == Some(p)
  {
    var r3 := Tail(p.change, p.index);
    var r2 := Hardened(p.account) + r3;
    var r1 := Hardened(p.chainId) + r2;
    var s := DerivationPathToString(p);
    assert s[2..] == Hardened(p.network) + r1;
    ReadHardenedRendered(p.network, r1);
    ReadHardenedRendered(p.chainId, r2);
    ReadHardenedRendered(p.account, r3);
    ReadTailRendered(p.change, p.index);
    ParseFromParts(s, p, r1, r2, r3);
  }

  /** The two shapes: with an index the path has five levels; without one it ends at
      the change level, with no trailing slash. */
  lemma DerivationPathShapes(n: nat, c: nat, a: nat, ch: nat, i: nat)
    ensures DerivationPathToString(DerivationPath(n, c, a, ch, Some(i))) ==
            DerivationPathToString(DerivationPath(n, c, a, ch, None)) + "/" + NatToString(i)
    ensures var s := DerivationPathToString(DerivationPath(n, c, a, ch, None));
            s[|s| - 1] != '/'
  {
    var s := DerivationPathToString(DerivationPath(n, c, a, ch, None));
    NatToStringDigits(ch);
    assert s[|s| - 1] == NatToString(ch)[|NatToString(ch)| - 1];
  }

  lemma SmallNumbersRendered()
    ensures NatToString(0) == "0" && NatToString(44) == "44" && NatToString(60) == "60" && NatToString(84) == "84"
  {
    assert NatToString(4) == "4" && NatToString(6) == "6" && NatToString(8) == "8";
  }

  lemma LevelsRendered()
    ensures Hardened(44) == "44'/" && Hardened(60) == "60'/" && Hardened(84) == "84'/" && Hardened(0) == "0'/"
    ensures Tail(0, Some(0)) == "0/0" && Tail(0, None) == "0"
  {
    SmallNumbersRendered();
  }

  /** Two concrete paths, with and without an index. */
  lemma DerivationPathExample()
    ensures DerivationPathToString(DerivationPath(44, 60, 0, 0, Some(0))) == "m/44'/60'/0'/0/0"
    ensures DerivationPathToString(DerivationPath(84, 0, 0, 0, None)) == "m/84'/0'/0'/0"
  {
    LevelsRendered();
  }
}

=== FILE: strings.dfy ===
/** String helpers the source relies on: `startsWith`, `includes`, the first-match
    `String.prototype.replace`, ASCII lower-casing and decimal rendering of integers. */
module Strings {
  import opened Wrappers

  predicate StartsWith(s: string, p: string) {
    |p| <= |s| && s[..|p|] == p
  }

  /** `p` occurs in `s` at index `i`. */
  predicate OccursAt(s: string, p: string, i: int) {
    0 <= i && i + |p| <= |s| && s[i..i + |p|] == p
  }

  /** `s.includes(p)`. */
  predicate Contains(s: string, p: string) {
    exists i :: 0 <= i <= |s| && OccursAt(s, p, i)
  }

  /** `i` is the leftmost occurrence of `p` in `s`. */
  predicate FirstOccurrence(s: string, p: string, i: int) {
    OccursAt(s, p, i) && forall j :: 0 <= j < i ==> !OccursAt(s, p, j)
  }

  lemma OccursAtShift(s: string, p: string, i: int)
    requires |s| > 0 && 0 <= i
    ensures OccursAt(s, p, i + 1) <==> OccursAt(s[1..], p, i)
  {
    if i + 1 + |p| <= |s| {
      assert s[i + 1..i + 1 + |p|] == s[1..][i..i + |p|];
    }
  }

  /** `s.indexOf(p)`: the leftmost occurrence of `p`, if any. */
  function IndexOf(s: string, p: string): (i: Option<nat>)
    ensures i.Some? ==> FirstOccurrence(s, p, i.value)
    ensures i.None? ==> !Contains(s, p)
    decreases |s|
  {
    if StartsWith(s, p) then Some(0)
    else if |s| == 0 then None
    else match IndexOf(s[1..], p)
      case Some(k) =>
        OccursAtShift(s, p, k);
        assert !OccursAt(s, p, 0);
        assert forall j :: 0 < j < k + 1 ==> !OccursAt(s, p, j) by {
          forall j | 0 < j < k + 1 ensures !OccursAt(s, p, j) { OccursAtShift(s, p, j - 1); }
        }
        Some(k + 1)
      case None =>
        assert !Contains(s, p) by {
          forall j | 0 <= j <= |s| ensures !OccursAt(s, p, j) {
            if j > 0 { OccursAtShift(s, p, j - 1); }
          }
        }
        None
  }

  /** The replacement text of `replace` with a string pattern (GetSubstitution, section
      22.1.3.19.1 of ECMA-262): `$$` is `$`, `$&` the matched text, `` $` `` the text before
      the match and `$'` the text after it; with no capture groups every other `$` stays
      as written. */
  function Substitution(r: string, matched: string, before: string, after: string): string
    decreases |r|
  {
    if |r| == 0 then ""
    else if r[0] == '$' && |r| >= 2 && r[1] == '$' then "$" + Substitution(r[2..], matched, before, after)
    else if r[0] == '$' && |r| >= 2 && r[1] == '&' then matched + Substitution(r[2..], matched, before, after)
    else if r[0] == '$' && |r| >= 2 && r[1] == '`' then before + Substitution(r[2..], matched, before, after)
    else if r[0] == '$' && |r| >= 2 && r[1] == '\'' then after + Substitution(r[2..], matched, before, after)
    else [r[0]] + Substitution(r[1..], matched, before, after)
  }

  /** A replacement without `$` is inserted as it is. */
  lemma {:induction false} SubstitutionLiteral(r: string, matched: string, before: string, after: string)
    requires '$' !in r
    ensures Substitution(r, matched, before, after) == r
    decreases |r|
  {
    if |r| > 0 {
      assert r[1..] == r[|[r[0]]|..];
      assert '$' !in r[1..] by {
        forall k | 0 <= k < |r[1..]| ensures r[1..][k] != '$' { assert r[1..][k] == r[k + 1]; }
      }
      SubstitutionLiteral(r[1..], matched, before, after);
      assert r == [r[0]] + r[1..];
    }
  }

  /** `s.replace(p, r)` with a string pattern: only the leftmost occurrence is replaced,
      by `r` with its `$` patterns expanded. */
  function ReplaceFirst(s: string, p: string, r: string): string {
    match IndexOf(s, p)
    case None => s
    case Some(i) => s[..i] + Substitution(r, p, s[..i], s[i + |p|..]) + s[i + |p|..]
  }

  /** When `p` does not occur, `replace` leaves the string alone. */
  lemma ReplaceFirstAbsent(s: string, p: string, r: string)
    requires !Contains(s, p)
    ensures ReplaceFirst(s, p, r) == s
  {
  }

  /** When `p` first occurs at `i`, `replace` splices the expanded replacement in at
      exactly that place, and a replacement without `$` literally. */
  lemma ReplaceFirstAt(s: string, p: string, r: string, i: int)
    requires FirstOccurrence(s, p, i)
    ensures ReplaceFirst(s, p, r) == s[..i] + Substitution(r, p, s[..i], s[i + |p|..]) + s[i + |p|..]
    ensures '$' !in r ==> ReplaceFirst(s, p, r) == s[..i] + r + s[i + |p|..]
  {
    var k := IndexOf(s, p);
    assert k.Some? by {
      if k.None? { assert OccursAt(s, p, i); }
    }
    assert k.value == i by {
      assert OccursAt(s, p, i) && OccursAt(s, p, k.value);
    }
    if '$' !in r {
      SubstitutionLiteral(r, p, s[..i], s[i + |p|..]);
    }
  }

  /** Every occurrence of a pattern has a leftmost occurrence at or before it. */
  lemma {:induction false} FirstOccurrenceOf(s: string, p: string, k: int) returns (i: int)
    requires OccursAt(s, p, k)
    ensures FirstOccurrence(s, p, i) && i <= k
    decreases k
  {
    if j :| 0 <= j < k && OccursAt(s, p, j) {
      i := FirstOccurrenceOf(s, p, j);
    } else {
      i := k;
    }
  }

  /** After `replace`, a replacement without `$` is in the string whenever the pattern
      was. */
  lemma ReplaceFirstInserts(s: string, p: string, r: string)
    requires Contains(s, p)
    ensures '$' !in r ==> Contains(ReplaceFirst(s, p, r), r)
  {
    var k :| 0 <= k <= |s| && OccursAt(s, p, k);
    var i := FirstOccurrenceOf(s, p, k);
    ReplaceFirstAt(s, p, r, i);
    if '$' !in r {
      var t := ReplaceFirst(s, p, r);
      assert t[i..i + |r|] == r;
      assert OccursAt(t, r, i);
    }
  }

  /** A replacement holding `$` patterns is not inserted as written: `$&` puts the matched
      text back, `` $` `` and `$'` the text around the match, and `$$` a single `$`. */
  lemma ReplacementPatternsExpand(s: string)
    requires s == "a{r}b"
    ensures ReplaceFirst(s, "{r}", "$&") == s
    ensures ReplaceFirst(s, "{r}", "$`$'") == "aabb"
    ensures ReplaceFirst(s, "{r}", "$$") == "a$b"
  {
    assert FirstOccurrence(s, "{r}", 1) by {
      assert s[1..4] == "{r}";
      assert !OccursAt(s, "{r}", 0) by { assert s[0..3][0] == 'a'; }
    }
    ReplaceFirstAt(s, "{r}", "$&", 1);
    ReplaceFirstAt(s, "{r}", "$`$'", 1);
    ReplaceFirstAt(s, "{r}", "$$", 1);
    assert s[..1] == "a" && s[4..] == "b";
  }

  /** Lower-cases ASCII letters and leaves every other character alone. */
  function LowerChar(c: char): char {
    if 'A' <= c <= 'Z' then (c as int + 32) as char else c
  }

  /** `s.toLowerCase()` restricted to ASCII. */
  function ToLower(s: string): (r: string)
    ensures |r| == |s|
    ensures forall i :: 0 <= i < |s| ==> r[i] == LowerChar(s[i])
  {
    seq(|s|, i requires 0 <= i < |s| => LowerChar(s[i]))
  }

  function DigitChar(d: nat): char
    requires d < 10
  {
    "0123456789"[d]
  }

  predicate IsDigit(c: char) {
    '0' <= c <= '9'
  }

  function DigitValue(c: char): nat
    requires IsDigit(c)
  {
    c as int - '0' as int
  }

  /** The decimal rendering `${n}` of a non-negative integer. */
  function NatToString(n: nat): string
    decreases n
  {
    if n < 10 then [DigitChar(n)] else NatToString(n / 10) + [DigitChar(n % 10)]
  }

  /** The decimal rendering `${n}` of an integer, with a leading `-` when negative. */
  function IntToString(n: int): string {
    if n < 0 then "-" + NatToString(-n) else NatToString(n)
  }

  predicate AllDigits(s: string) {
    forall i :: 0 <= i < |s| ==> IsDigit(s[i])
  }

  /** Reads a string of digits as a number, most significant digit first. */
  function DigitsValue(s: string): nat
    requires AllDigits(s)
    decreases |s|
  {
    if |s| == 0 then 0 else DigitsValue(s[..|s| - 1]) * 10 + DigitValue(s[|s| - 1])
  }

  predicate IsHexDigit(c: char) {
    IsDigit(c) || 'a' <= c <= 'f' || 'A' <= c <= 'F'
  }

  function HexDigitValue(c: char): (d: nat)
    requires IsHexDigit(c)
    ensures d < 16
  {
    if IsDigit(c) then DigitValue(c)
    else if 'a' <= c <= 'f' then c as int - 'a' as int + 10
    else c as int - 'A' as int + 10
  }

  predicate AllHexDigits(s: string) {
    forall i :: 0 <= i < |s| ==> IsHexDigit(s[i])
  }

  /** Reads a string of hexadecimal digits as a number, most significant digit first. */
  function HexValue(s: string): nat
    requires AllHexDigits(s)
    decreases |s|
  {
    if |s| == 0 then 0 else HexValue(s[..|s| - 1]) * 16 + HexDigitValue(s[|s| - 1])
  }

  lemma DigitCharValue(d: nat)
    requires d < 10
    ensures IsDigit(DigitChar(d)) && DigitValue(DigitChar(d)) == d
  {
    assert "0123456789"[d] as int == '0' as int + d;
  }

  lemma {:induction false} NatToStringDigits(n: nat)
    ensures |NatToString(n)| > 0
    ensures AllDigits(NatToString(n))
    ensures DigitsValue(NatToString(n)) == n
    decreases n
  {
    if n < 10 {
      DigitCharValue(n);
    } else {
      var h := NatToString(n / 10);
      var c := DigitChar(n % 10);
      NatToStringDigits(n / 10);
      DigitCharValue(n % 10);
      var s := NatToString(n);
      assert s == h + [c];
      assert s[..|s| - 1] == h;
      assert AllDigits(s) by {
        forall i | 0 <= i < |s| ensures IsDigit(s[i]) {
          if i < |h| { assert s[i] == h[i]; }
        }
      }
      assert DigitsValue(s) == DigitsValue(h) * 10 + DigitValue(c);
    }
  }

  /** The length of the longest all-digit prefix of `s`. */
  function DigitPrefix(s: string): (k: nat)
    ensures k <= |s|
    ensures AllDigits(s[..k])
    ensures k < |s| ==> !IsDigit(s[k])
    decreases |s|
  {
    if |s| > 0 && IsDigit(s[0]) then
      var k := 1 + DigitPrefix(s[1..]);
      assert forall i :: 1 <= i < k ==> s[..k][i] == s[1..][..k - 1][i - 1];
      k
    else 0
  }

  lemma DigitPrefixOfDigits(d: string, t: string)
    requires AllDigits(d)
    requires |t| > 0 ==> !IsDigit(t[0])
    ensures DigitPrefix(d + t) == |d|
    decreases |d|
  {
    if |d| > 0 {
      assert (d + t)[0] == d[0];
      assert (d + t)[1..] == d[1..] + t;
      DigitPrefixOfDigits(d[1..], t);
    } else {
      assert d + t == t;
    }
  }
}

=== FILE: swap_params.dfy ===
/** Aggregator swap parameters: `getSwapOutParams` and `getSwapInParams`. Calldata fields
    are optional strings; `||` picks the first truthy one. Address checksumming and asset
    parsing are supplied by the caller. */
module SwapParams {
  import opened Wrappers
  import opened Errors
  import opened Js
  import opened Strings

  const RecipientPlaceholder := "{recipientAddress}"

  const AssetNotRecognized := "core_swap_asset_not_recognized"
  const RouterRequiredForGeneric := "Router is required on calldata for swapIn with GenericContract"
  const VaultRequired := "TC Vault is required on calldata"
  const RouterRequired := "TC Router is required on calldata"
  const MemoRequired := "TC Memo is required on calldata"
  const TokenRequired := "Token is required on calldata"

  /** The `calldata` of a quote route (the fields the two functions read). */
  datatype Calldata = Calldata(
    fromAsset: string,
    amountIn: string,
    amount: Option<string>,
    amountOutMin: Option<string>,
    data: Option<string>,
    deadline: Option<string>,
    memo: Option<string>,
    memoStreamingSwap: Option<string>,
    router: Option<string>,
    tcMemo: Option<string>,
    tcRouter: Option<string>,
    tcVault: Option<string>,
    vault: Option<string>,
    token: Option<string>)

  /** A parsed asset as far as the swap-out parameters need it. */
  datatype Asset = Asset(identifier: string, decimal: nat)

  /** `{assetAmount, memo}`: the asset with the raw input amount and its decimals, and the
      memo with the recipient filled in. */
  datatype SwapOut = SwapOut(asset: Asset, amountIn: string, decimal: nat, memo: Option<string>)

  /** `swapMemo?.replace('{recipientAddress}', recipient)`. */
  function FillRecipient(memo: Option<string>, recipient: string): Option<string> {
    match memo
    case Some(m) => Some(ReplaceFirst(m, RecipientPlaceholder, recipient))
    case None => None
  }

  /** `getSwapOutParams`. */
  function GetSwapOutParams(parseAsset: string -> Option<Asset>, streamSwap: bool, recipient: string,
                            cd: Calldata): (r: Result<SwapOut>)
    ensures parseAsset(cd.fromAsset).None? <==> r == Err(Key(AssetNotRecognized))
    ensures r.Ok? ==>
              && r.value.asset == parseAsset(cd.fromAsset).value
              && r.value.amountIn == cd.amountIn
              && r.value.decimal == r.value.asset.decimal
    ensures r.Ok? ==> (r.value.memo.Some? <==>
                        (if streamSwap then OrStr(cd.memoStreamingSwap, cd.memo) else cd.memo).Some?)
    ensures r.Ok? ==> r.value.memo == FillRecipient(if streamSwap then OrStr(cd.memoStreamingSwap, cd.memo) else cd.memo, recipient)
  {
    match parseAsset(cd.fromAsset)
    case None => Err(Key(AssetNotRecognized))
    case Some(asset) =>
      var swapMemo := if streamSwap then OrStr(cd.memoStreamingSwap, cd.memo) else cd.memo;
      Ok(SwapOut(asset, cd.amountIn, asset.decimal, FillRecipient(swapMemo, recipient)))
  }

  /** The memo actually used: a streaming swap prefers a truthy streaming memo; otherwise
      the memo is a truthy `tcMemo`, else `memo`. */
  function TransactionMemo(cd: Calldata, streamSwap: bool): Option<string> {
    var baseMemo := OrStr(cd.tcMemo, cd.memo);
    if streamSwap then OrStr(cd.memoStreamingSwap, baseMemo) else baseMemo
  }

  /** The first missing required field, in the order vault (`tcVault` or `vault`), router
      (`tcRouter` or `router`), memo, token. */
  function FirstMissing(cd: Calldata, streamSwap: bool): (m: Option<string>)
    ensures m.None? <==> (Filled(cd.tcVault) || Filled(cd.vault)) && (Filled(cd.tcRouter) || Filled(cd.router))
                         && Filled(TransactionMemo(cd, streamSwap)) && Filled(cd.token)
  {
    if !Filled(cd.tcVault) && !Filled(cd.vault) then Some(VaultRequired)
    else if !Filled(cd.tcRouter) && !Filled(cd.router) then Some(RouterRequired)
    else if !Filled(TransactionMemo(cd, streamSwap)) then Some(MemoRequired)
    else if !Filled(cd.token) then Some(TokenRequired)
    else None
  }

  /** `getSwapInParams`. `generic` holds the lower-cased addresses of the generic
      aggregator contracts. The result is the contract call's parameter list:
      router, vault, memo, token, amount, then `router, data, deadline` for a generic
      contract or `amountOutMin, deadline` otherwise. */
  function GetSwapInParams(generic: set<string>, checksum: string -> string, streamSwap: bool,
                           contractAddress: string, recipient: string, cd: Calldata)
    : (r: Result<seq<Option<string>>>)
    ensures var isGeneric := ToLower(contractAddress) in generic;
            isGeneric && !Filled(cd.router) ==> r == Err(Thrown(RouterRequiredForGeneric))
    ensures var isGeneric := ToLower(contractAddress) in generic;
            !(isGeneric && !Filled(cd.router)) ==>
              match FirstMissing(cd, streamSwap)
              case Some(message) => r == Err(Thrown(message))
              case None => r.Ok?
    ensures r.Ok? ==> |r.value| == if ToLower(contractAddress) in generic then 8 else 7
    ensures r.Ok? ==>
              && r.value[0] == Some(checksum(OrStr(cd.tcRouter, cd.router).value))
              && r.value[1] == Some(checksum(OrStr(cd.tcVault, cd.vault).value))
              && r.value[2] == FillRecipient(TransactionMemo(cd, streamSwap), recipient)
              && r.value[3] == Some(checksum(cd.token.value))
              && r.value[4] == cd.amount
    ensures r.Ok? && ToLower(contractAddress) in generic ==>
              r.value[5..] == [Some(checksum(cd.router.value)), Some(cd.data.GetOr("")), cd.deadline]
    ensures r.Ok? && ToLower(contractAddress) !in generic ==>
              r.value[5..] == [Some(cd.amountOutMin.GetOr("")), cd.deadline]
  {
    var isGeneric := ToLower(contractAddress) in generic;
    var memo := TransactionMemo(cd, streamSwap);
    if isGeneric && !Filled(cd.router) then Err(Thrown(RouterRequiredForGeneric))
    else if !Filled(cd.tcVault) && !Filled(cd.vault) then Err(Thrown(VaultRequired))
    else if !Filled(cd.tcRouter) && !Filled(cd.router) then Err(Thrown(RouterRequired))
    else if !Filled(memo) then Err(Thrown(MemoRequired))
    else if !Filled(cd.token) then Err(Thrown(TokenRequired))
    else
      var baseParams := [
        Some(checksum(OrStr(cd.tcRouter, cd.router).value)),
        Some(checksum(OrStr(cd.tcVault, cd.vault).value)),
        Some(ReplaceFirst(memo.value, RecipientPlaceholder, recipient)),
        Some(checksum(cd.token.value)),
        cd.amount];
      var contractParams :=
        if isGeneric then [Some(checksum(cd.router.value)), Some(cd.data.GetOr("")), cd.deadline]
        else [Some(cd.amountOutMin.GetOr("")), cd.deadline];
      Ok(baseParams + contractParams)
  }

  /** The transaction memo prefers a truthy `tcMemo` over `memo`, and a streaming swap
      prefers a truthy `memoStreamingSwap` over both. */
  lemma TransactionMemoPreference(cd: Calldata, streamSwap: bool)
    ensures streamSwap && Filled(cd.memoStreamingSwap) ==> TransactionMemo(cd, streamSwap) == cd.memoStreamingSwap
    ensures !(streamSwap && Filled(cd.memoStreamingSwap)) && Filled(cd.tcMemo) ==>
              TransactionMemo(cd, streamSwap) == cd.tcMemo
    ensures !(streamSwap && Filled(cd.memoStreamingSwap)) && !Filled(cd.tcMemo) ==>
              TransactionMemo(cd, streamSwap) == cd.memo
  {
  }

  /** The memo parameter is the transaction memo with its first `{recipientAddress}`
      replaced by the recipient, so a recipient without `$` patterns appears in it whenever
      the placeholder did; a memo without the placeholder is passed through unchanged. */
  lemma SwapInMemoHasRecipient(generic: set<string>, checksum: string -> string, streamSwap: bool,
                               contractAddress: string, recipient: string, cd: Calldata)
    requires GetSwapInParams(generic, checksum, streamSwap, contractAddress, recipient, cd).Ok?
    ensures var r := GetSwapInParams(generic, checksum, streamSwap, contractAddress, recipient, cd).value;
            var memo := TransactionMemo(cd, streamSwap).value;
            && r[2].Some?
            && (Contains(memo, RecipientPlaceholder) && '$' !in recipient ==> Contains(r[2].value, recipient))
            && (!Contains(memo, RecipientPlaceholder) ==> r[2].value == memo)
  {
    var memo := TransactionMemo(cd, streamSwap).value;
    if Contains(memo, RecipientPlaceholder) {
      ReplaceFirstInserts(memo, RecipientPlaceholder, recipient);
    } else {
      ReplaceFirstAbsent(memo, RecipientPlaceholder, recipient);
    }
  }

  /** The swap-out memo is the chosen memo with the first placeholder replaced: a
      recipient without `$` patterns appears in it whenever the placeholder did. */
  lemma SwapOutMemoHasRecipient(parseAsset: string -> Option<Asset>, streamSwap: bool, recipient: string,
                                cd: Calldata)
    requires GetSwapOutParams(parseAsset, streamSwap, recipient, cd).Ok?
    ensures var r := GetSwapOutParams(parseAsset, streamSwap, recipient, cd).value;
            var chosen := if streamSwap then OrStr(cd.memoStreamingSwap, cd.memo) else cd.memo;
            && (chosen.Some? && Contains(chosen.value, RecipientPlaceholder) && '$' !in recipient ==>
                  Contains(r.memo.value, recipient))
            && (chosen.Some? && !Contains(chosen.value, RecipientPlaceholder) ==> r.memo == chosen)
  {
    var chosen := if streamSwap then OrStr(cd.memoStreamingSwap, cd.memo) else cd.memo;
    if chosen.Some? {
      if Contains(chosen.value, RecipientPlaceholder) {
        ReplaceFirstInserts(chosen.value, RecipientPlaceholder, recipient);
      } else {
        ReplaceFirstAbsent(chosen.value, RecipientPlaceholder, recipient);
      }
    }
  }
}

=== FILE: trezor.dfy ===
/** The Trezor EVM signer: validation of a transaction request, construction of the base
    transaction handed to the device, the address cache, signing and sending. The device
    (Trezor Connect), the provider's nonce and broadcast, hex encoding and transaction
    serialization are supplied by the caller. */
module TrezorEvm {
  import opened Wrappers
  import opened Errors
  import opened Js
  import opened Strings
  import opened Types
  import opened Others
  import EvmToolbox

  const MissingTo := "Missing to address"
  const MissingGasLimit := "Missing gasLimit"
  const MissingMaxFee := "Missing maxFeePerGas"
  const MissingGasPrice := "Missing gasPrice"
  const FailedToSign := "Failed to sign transaction"
  const NoProvider := "No provider set"

  /** An ethers `TransactionRequest`: the fields the signer destructures, and the rest
      (`maxFeePerGas`, `maxPriorityFeePerGas`, `gasPrice`, ...) as an object whose key
      presence matters. Amounts are `BigNumberish` values. */
  datatype TxRequest = TxRequest(
    from: Option<string>,
    to: Option<string>,
    value: JsValue,
    gasLimit: JsValue,
    nonce: Option<int>,
    data: Option<string>,
    rest: map<string, JsValue>)

  /** The fee fields of the base transaction: EIP-1559 or legacy, never both. */
  datatype Fees =
    | Eip1559Fees(maxFeePerGas: string, maxPriorityFeePerGas: string)
    | LegacyFees(gasPrice: string)

  /** The transaction sent to the device, amounts hex-encoded. */
  datatype BaseTx = BaseTx(
    from: string,
    chainId: int,
    to: string,
    value: string,
    gasLimit: string,
    nonce: string,
    data: string,
    fees: Fees)

  datatype Signature = Signature(r: string, s: string, v: string)

  /** A Trezor Connect answer: `{success: true, payload}` or `{success: false, payload: {error}}`. */
  datatype DeviceResult<T> = Success(payload: T) | Failure(error: string)

  datatype Device = Device(
    getAddress: string -> DeviceResult<string>,
    signTransaction: (string, BaseTx) -> DeviceResult<Signature>)

  /** The provider side and the encoders. */
  datatype SignerEnv = SignerEnv(
    chainId: Chain -> int,
    toHex: int -> string,
    pendingCount: string -> Result<nat>,
    serialize: (BaseTx, int, Signature) -> string,
    broadcast: string -> Result<string>)

  /** The signer's state: the cached address is `""` until the device has been asked. */
  datatype Signer = Signer(chain: Chain, path: DerivationPath, address: string)

  function FromDevice<T>(r: DeviceResult<T>): Result<T> {
    match r
    case Success(p) => Ok(p)
    case Failure(m) => Err(Thrown(m))
  }

  /** The path as the signer builds it: `m/` followed by `derivationPathToString`, which
      itself already starts with `m/`. */
  function DevicePathAsWritten(p: DerivationPath): (s: string)
    ensures StartsWith(s, "m/m/")
  {
    var rendered := DerivationPathToString(p);
    assert rendered == "m/" + rendered[2..];
    "m/" + rendered
  }

  /** The path as intended: the BIP-32 rendering itself. */
  function DevicePath(p: DerivationPath): (s: string)
    ensures ParseDerivationPath(s) == Some(p)
  {
    DerivationPathRoundTrip(p);
    DerivationPathToString(p)
  }

  /** The doubled prefix is not a derivation path at all: the parser rejects it, while the
      intended path reads back as the levels it came from. */
  lemma DevicePathAsWrittenIsMalformed(p: DerivationPath)
    ensures ParseDerivationPath(DevicePathAsWritten(p)) == None
    ensures ParseDerivationPath(DevicePath(p)) == Some(p)
  {
    var s := DevicePathAsWritten(p);
    assert s[2..][0] == 'm';
    assert DigitPrefix(s[2..]) == 0;
  }

  lemma DevicePathExample()
    ensures DevicePathAsWritten(DerivationPath(44, 60, 0, 0, Some(0))) == "m/m/44'/60'/0'/0/0"
    ensures DevicePath(DerivationPath(44, 60, 0, 0, Some(0))) == "m/44'/60'/0'/0/0"
  {
    DerivationPathExample();
  }

  /** `getAddress`: asks the device only while the cache is empty, then caches. */
  function GetAddress(signer: Signer, device: Device): (r: Result<(Signer, string)>)
    ensures signer.address != "" ==> r == Ok((signer, signer.address))
    ensures r.Ok? ==> r.value.0 == signer.(address := r.value.1)
    ensures signer.address == "" ==>
              var d := device.getAddress(DevicePath(signer.path));
              && (r.Ok? <==> d.Success?)
              && (r.Ok? ==> r.value.1 == d.payload)
              && (r.Err? ==> r.error == Thrown(d.error))
  {
    if signer.address != "" then Ok((signer, signer.address))
    else
      match device.getAddress(DevicePath(signer.path))
      case Failure(m) => Err(Thrown(m))
      case Success(a) => Ok((signer.(address := a), a))
  }

  /** Once a non-empty address is cached, the device is never consulted again: any device,
      even a failing one, yields the cached address. */
  lemma GetAddressCaches(signer: Signer, device: Device, other: Device)
    requires GetAddress(signer, device).Ok? && GetAddress(signer, device).value.1 != ""
    ensures var (s, a) := GetAddress(signer, device).value;
            GetAddress(s, other) == Ok((s, a))
  {
  }

  /** The validation both `signTransaction` and `sendTransaction` start with, returning
      whether the request is in EIP-1559 mode (both EIP-1559 keys present, whatever their
      values). The two EIP-1559 checks report the same message. */
  function Validate(tx: TxRequest): (r: Result<bool>)
    ensures !Filled(tx.to) ==> r == Err(Thrown(MissingTo))
    ensures Filled(tx.to) && !Truthy(tx.gasLimit) ==> r == Err(Thrown(MissingGasLimit))
    ensures r.Ok? ==> (r.value <==> "maxFeePerGas" in tx.rest && "maxPriorityFeePerGas" in tx.rest)
    ensures r.Ok? && r.value ==> Truthy(tx.rest["maxFeePerGas"]) && Truthy(tx.rest["maxPriorityFeePerGas"])
    ensures r.Ok? && !r.value ==> "gasPrice" in tx.rest && Truthy(tx.rest["gasPrice"])
    ensures Filled(tx.to) && Truthy(tx.gasLimit) ==>
              var eip := "maxFeePerGas" in tx.rest && "maxPriorityFeePerGas" in tx.rest;
              && (eip ==> (r.Ok? <==> Truthy(tx.rest["maxFeePerGas"]) && Truthy(tx.rest["maxPriorityFeePerGas"])))
              && (eip && r.Err? ==> r.error == Thrown(MissingMaxFee))
              && (!eip ==> (r.Ok? <==> "gasPrice" in tx.rest && Truthy(tx.rest["gasPrice"])))
              && (!eip && r.Err? ==> r.error == Thrown(MissingGasPrice))
  {
    if !Filled(tx.to) then Err(Thrown(MissingTo))
    else if !Truthy(tx.gasLimit) then Err(Thrown(MissingGasLimit))
    else
      var eip := "maxFeePerGas" in tx.rest && "maxPriorityFeePerGas" in tx.rest;
      if eip && !Truthy(tx.rest["maxFeePerGas"]) then Err(Thrown(MissingMaxFee))
      else if eip && !Truthy(tx.rest["maxPriorityFeePerGas"]) then Err(Thrown(MissingMaxFee))
      else if !eip && (("gasPrice" in tx.rest && !Truthy(tx.rest["gasPrice"])) || "gasPrice" !in tx.rest) then
        Err(Thrown(MissingGasPrice))
      else Ok(eip)
  }

  /** A request the signer accepts in EIP-1559 mode is one the toolbox also classifies as
      EIP-1559. */
  lemma Eip1559ModeAgreesWithToolbox(tx: TxRequest)
    requires Validate(tx) == Ok(true)
    ensures EvmToolbox.IsEip1559Transaction(tx.rest)
  {
  }

  /** `0x` or `0X` followed by at least one hexadecimal digit. */
  predicate HexLiteral(s: string) {
    |s| > 2 && s[0] == '0' && (s[1] == 'x' || s[1] == 'X') && AllHexDigits(s[2..])
  }

  /** `BigInt(s)` of a string: a decimal integer with an optional leading `-`, or a
      `0x`/`0X` hexadecimal literal; anything else throws a `SyntaxError`. The empty
      string never reaches it, since `|| 0` replaces it. */
  function BigIntOfString(s: string): (r: Result<int>)
    ensures s != "" && AllDigits(s) ==> r == Ok(DigitsValue(s))
    ensures HexLiteral(s) ==> r == Ok(HexValue(s[2..]))
  {
    if s == "" then Ok(0)
    else if AllDigits(s) then Ok(DigitsValue(s))
    else if s[0] == '-' && |s| > 1 && AllDigits(s[1..]) then Ok(-(DigitsValue(s[1..]) as int))
    else if HexLiteral(s) then Ok(HexValue(s[2..]))
    else Err(Thrown("Cannot convert " + s + " to a BigInt"))
  }

  /** The least magnitude at which a JavaScript number's `toString` switches to exponent
      form (`1e+21`). */
  const ExponentFormThreshold: int := 1_000_000_000_000_000_000_000

  /** Whether `Number.prototype.toString` renders the integer `n` as plain decimal digits. */
  predicate PlainDecimalNumber(n: int) {
    -ExponentFormThreshold < n < ExponentFormThreshold
  }

  /** The rejection `BigInt` raises for the exponent-form text of a large number. */
  const ExponentFormNumberError := Thrown("Cannot convert a number in exponent form to a BigInt")

  /** `BigInt(x?.toString() || 0)`: absent and null values read as 0, numbers below 10^21
      in magnitude and bigints as themselves, strings as `BigInt` parses them. A larger
      number renders in exponent form, a boolean or an object as text that is not a
      number, and each of those throws. */
  function BigIntOf(v: JsValue): (r: Result<int>)
    ensures v.Undefined? || v.Null? ==> r == Ok(0)
    ensures v.Num? ==> (r.Ok? <==> PlainDecimalNumber(v.n))
    ensures v.Num? && r.Ok? ==> r.value == v.n
    ensures v.BigNum? ==> r == Ok(v.big)
  {
    match v
    case Undefined => Ok(0)
    case Null => Ok(0)
    case Num(n) => if PlainDecimalNumber(n) then Ok(n) else Err(ExponentFormNumberError)
    case BigNum(n) => Ok(n)
    case Str(s) => BigIntOfString(s)
    case Bool(b) => Err(Thrown("Cannot convert " + (if b then "true" else "false") + " to a BigInt"))
    case _ => Err(Thrown("Cannot convert [object Object] to a BigInt"))
  }

  lemma BigIntOfNatString(m: nat)
    ensures BigIntOfString(NatToString(m)) == Ok(m)
  {
    NatToStringDigits(m);
  }

  lemma BigIntOfNegativeString(m: nat)
    ensures BigIntOfString("-" + NatToString(m)) == Ok(-(m as int))
  {
    NatToStringDigits(m);
    var s := "-" + NatToString(m);
    assert s[1..] == NatToString(m);
    assert !IsDigit(s[0]);
  }

  /** A number and its decimal string are the same amount, as long as the number renders
      in plain decimal; from 10^21 on only the digit string still parses. */
  lemma BigIntOfNumberAsString(n: int)
    ensures PlainDecimalNumber(n) ==> BigIntOf(Str(IntToString(n))) == BigIntOf(Num(n))
    ensures !PlainDecimalNumber(n) ==> BigIntOf(Str(IntToString(n))) == Ok(n) && BigIntOf(Num(n)).Err?
  {
    BigIntOfDecimalRoundTrip(n);
  }

  /** Parsing the decimal rendering of any integer gives that integer back. */
  lemma BigIntOfDecimalRoundTrip(n: int)
    ensures BigIntOfString(IntToString(n)) == Ok(n)
  {
    if n < 0 {
      assert IntToString(n) == "-" + NatToString(-n);
      BigIntOfNegativeString(-n);
    } else {
      assert IntToString(n) == NatToString(n);
      BigIntOfNatString(n);
    }
  }

  lemma HexValueStep(s: string, k: nat)
    requires AllHexDigits(s) && 0 < k <= |s|
    ensures HexValue(s[..k]) == HexValue(s[..k - 1]) * 16 + HexDigitValue(s[k - 1])
  {
    assert s[..k][..k - 1] == s[..k - 1];
  }

  lemma OneEtherIsHex(h: string)
    requires h == "0de0b6b3a7640000"
    ensures AllHexDigits(h)
  {
    assert forall i :: 0 <= i < |h| ==> IsHexDigit(h[i]);
  }

  /** The hexadecimal digits of one ether in wei, `0de0b6b3a7640000`. */
  lemma OneEtherHexDigits(h: string)
    requires h == "0de0b6b3a7640000"
    ensures AllHexDigits(h)
    ensures HexValue(h) == 1000000000000000000
  {
    OneEtherIsHex(h);
    assert h[..0] == [];
    HexValueStep(h, 1);
    HexValueStep(h, 2);
    HexValueStep(h, 3);
    HexValueStep(h, 4);
    HexValueStep(h, 5);
    HexValueStep(h, 6);
    HexValueStep(h, 7);
    HexValueStep(h, 8);
    HexValueStep(h, 9);
    HexValueStep(h, 10);
    HexValueStep(h, 11);
    HexValueStep(h, 12);
    HexValueStep(h, 13);
    HexValueStep(h, 14);
    HexValueStep(h, 15);
    HexValueStep(h, 16);
    assert h[..16] == h;
  }

  /** A hexadecimal amount is read as its value: `0x0de0b6b3a7640000` is one ether in wei. */
  lemma BigIntOfHexExample()
    ensures BigIntOf(Str("0x0de0b6b3a7640000")) == Ok(1000000000000000000)
  {
    var s := "0x0de0b6b3a7640000";
    OneEtherHexDigits(s[2..]);
    assert !IsDigit(s[1]);
    assert HexLiteral(s);
  }

  /** Every amount field of the request parses: `value`, `gasLimit` and the fee fields of
      the mode. */
  predicate AmountsParse(tx: TxRequest, eip: bool) {
    && BigIntOf(tx.value).Ok?
    && BigIntOf(tx.gasLimit).Ok?
    && (eip ==> BigIntOf(Get(tx.rest, "maxFeePerGas")).Ok? && BigIntOf(Get(tx.rest, "maxPriorityFeePerGas")).Ok?)
    && (!eip ==> BigIntOf(Get(tx.rest, "gasPrice")).Ok?)
  }

  /** The fee fields: in EIP-1559 mode the two EIP-1559 fees, otherwise the gas price
      (`0x0` when the key is missing, which validation rules out). */
  function FeesOf(env: SignerEnv, tx: TxRequest, eip: bool): Result<Fees> {
    if eip then
      var maxFee :- BigIntOf(Get(tx.rest, "maxFeePerGas"));
      var priority :- BigIntOf(Get(tx.rest, "maxPriorityFeePerGas"));
      Ok(Eip1559Fees(env.toHex(maxFee), env.toHex(priority)))
    else if "gasPrice" in tx.rest then
      var price :- BigIntOf(tx.rest["gasPrice"]);
      Ok(LegacyFees(env.toHex(price)))
    else Ok(LegacyFees("0x0"))
  }

  /** The address `getAddress` yields for the signer: the cached one, or the device's. */
  function SignerAddress(signer: Signer, device: Device): Result<string> {
    match GetAddress(signer, device)
    case Ok((_, a)) => Ok(a)
    case Err(e) => Err(e)
  }

  /** The signer state after a `getAddress` call, whether it returned or threw: the device's
      answer is cached on success and nothing changes on failure. */
  function AfterLookup(signer: Signer, device: Device): Signer {
    match GetAddress(signer, device)
    case Ok((s, _)) => s
    case Err(_) => signer
  }

  /** Asking again after a lookup yields the same address and the same state: the device is
      asked with the same path and answers the same. */
  lemma GetAddressStable(signer: Signer, device: Device)
    requires GetAddress(signer, device).Ok?
    ensures var (s, a) := GetAddress(signer, device).value;
            GetAddress(s, device).Ok? && GetAddress(s, device).value == (s, a)
  {
  }

  /** Whether building the base transaction reaches a `getAddress` call: at once for a
      missing sender, and for a missing nonce once `value` and `gasLimit` have parsed. */
  predicate ReachesLookup(tx: TxRequest) {
    !Filled(tx.from) || (tx.nonce.None? && BigIntOf(tx.value).Ok? && BigIntOf(tx.gasLimit).Ok?)
  }

  /** `getTransactionCount(await this.getAddress(), 'pending')`, rendered in decimal, with
      the signer state after the lookup. */
  function PendingNonce(signer: Signer, device: Device, env: SignerEnv): (Signer, Result<string>) {
    var s := AfterLookup(signer, device);
    match SignerAddress(signer, device)
    case Err(e) => (s, Err(e))
    case Ok(a) =>
      match env.pendingCount(a)
      case Err(e) => (s, Err(e))
      case Ok(count) => (s, Ok(IntToString(count)))
  }

  /** The base transaction of a validated request, with the signer state after the call.
      The fields are built in the source's order: `from`, then the amounts `value` and
      `gasLimit`, then `nonce`, then the fees; the first failure among them is the result.
      An address the device gave stays cached even when a later step throws. */
  function BuildBaseTx(signer: Signer, device: Device, env: SignerEnv, tx: TxRequest, eip: bool)
    : (r: (Signer, Result<BaseTx>))
    requires Validate(tx) == Ok(eip)
    ensures r.0 == (if ReachesLookup(tx) then AfterLookup(signer, device) else signer)
    ensures r.1.Ok? ==> var b := r.1.value;
              && AmountsParse(tx, eip)
              && (Filled(tx.from) ==> b.from == tx.from.value)
              && (!Filled(tx.from) ==> SignerAddress(signer, device) == Ok(b.from))
              && (tx.nonce.Some? ==> b.nonce == IntToString(tx.nonce.value))
              && (tx.nonce.None? ==> SignerAddress(signer, device).Ok? &&
                                     env.pendingCount(SignerAddress(signer, device).value).Ok? &&
                                     b.nonce == IntToString(env.pendingCount(SignerAddress(signer, device).value).value))
              && b.to == tx.to.value
              && b.chainId == env.chainId(signer.chain)
              && b.value == env.toHex(BigIntOf(tx.value).value)
              && b.gasLimit == env.toHex(BigIntOf(tx.gasLimit).value)
              && b.data == (if Filled(tx.data) then tx.data.value else "0x")
              && (eip ==> b.fees == Eip1559Fees(env.toHex(BigIntOf(tx.rest["maxFeePerGas"]).value),
                                                env.toHex(BigIntOf(tx.rest["maxPriorityFeePerGas"]).value)))
              && (!eip ==> b.fees == LegacyFees(env.toHex(BigIntOf(tx.rest["gasPrice"]).value)))
    ensures Filled(tx.from) && tx.nonce.Some? ==> (r.1.Ok? <==> AmountsParse(tx, eip))
    ensures r.1.Ok? <==>
              && AmountsParse(tx, eip)
              && (!Filled(tx.from) ==> SignerAddress(signer, device).Ok?)
              && (tx.nonce.None? ==> SignerAddress(signer, device).Ok? &&
                                     env.pendingCount(SignerAddress(signer, device).value).Ok?)
    ensures !Filled(tx.from) && SignerAddress(signer, device).Err? ==> r.1 == Err(SignerAddress(signer, device).error)
    ensures (Filled(tx.from) || SignerAddress(signer, device).Ok?) && BigIntOf(tx.value).Err? ==>
              r.1 == Err(BigIntOf(tx.value).error)
  {
    var (s1, from) :=
      if Filled(tx.from) then (signer, Ok(tx.from.value))
      else (AfterLookup(signer, device), SignerAddress(signer, device));
    if from.Err? then (s1, Err(from.error))
    else if BigIntOf(tx.value).Err? then (s1, Err(BigIntOf(tx.value).error))
    else if BigIntOf(tx.gasLimit).Err? then (s1, Err(BigIntOf(tx.gasLimit).error))
    else
      var (s2, nonce) :=
        if tx.nonce.Some? then (s1, Ok(IntToString(tx.nonce.value)))
        else PendingNonce(s1, device, env);
      if nonce.Err? then (s2, Err(nonce.error))
      else
        match FeesOf(env, tx, eip)
        case Err(e) => (s2, Err(e))
        case Ok(fees) =>
          (s2, Ok(BaseTx(
            from.value,
            env.chainId(signer.chain),
            tx.to.value,
            env.toHex(BigIntOf(tx.value).value),
            env.toHex(BigIntOf(tx.gasLimit).value),
            nonce.value,
            if Filled(tx.data) then tx.data.value else "0x",
            fees)))
  }

  /** The transaction type passed to serialization: 2 in EIP-1559 mode, 0 otherwise. */
  function TxType(eip: bool): int {
    if eip then 2 else 0
  }

  /** The steps `signTransaction` and `sendTransaction` share: validation, the base
      transaction, the device signature and the serialization of the signed transaction,
      with the signer state after them. */
  function SignAndSerialize(signer: Signer, device: Device, env: SignerEnv, tx: TxRequest)
    : (r: (Signer, Result<string>))
  {
    match Validate(tx)
    case Err(e) => (signer, Err(e))
    case Ok(eip) =>
      var (s, base) := BuildBaseTx(signer, device, env, tx, eip);
      if base.Err? then (s, Err(base.error))
      else
        match FromDevice(device.signTransaction(DevicePath(s.path), base.value))
        case Err(e) => (s, Err(e))
        case Ok(sig) => (s, Ok(env.serialize(base.value, TxType(eip), sig)))
  }

  /** `signTransaction`: validation, the base transaction, the device signature, then the
      serialized signed transaction, which must be non-empty. The signer state is the one
      building the base transaction left, whatever happens after it. */
  function SignTransaction(signer: Signer, device: Device, env: SignerEnv, tx: TxRequest)
    : (r: (Signer, Result<string>))
    ensures Validate(tx).Err? ==> r == (signer, Err(Validate(tx).error))
    ensures Validate(tx).Ok? ==> r.0 == BuildBaseTx(signer, device, env, tx, Validate(tx).value).0
    ensures r.1.Ok? ==> r.1.value != ""
    ensures r.1.Ok? ==> Validate(tx).Ok? && BuildBaseTx(signer, device, env, tx, Validate(tx).value).1.Ok?
  {
    var (s, hash) := SignAndSerialize(signer, device, env, tx);
    if hash.Ok? && hash.value == "" then (s, Err(Thrown(FailedToSign))) else (s, hash)
  }

  /** The signed transaction is the serialization of the base transaction with type 2
      exactly when its fees are the EIP-1559 pair. */
  lemma SignedTypeMatchesFees(signer: Signer, device: Device, env: SignerEnv, tx: TxRequest)
    requires SignTransaction(signer, device, env, tx).1.Ok?
    ensures var eip := Validate(tx).value;
            var (s, base) := BuildBaseTx(signer, device, env, tx, eip);
            var sig := device.signTransaction(DevicePath(s.path), base.value);
            && sig.Success?
            && SignTransaction(signer, device, env, tx).1.value == env.serialize(base.value, TxType(eip), sig.payload)
            && (TxType(eip) == 2 <==> base.value.fees.Eip1559Fees?)
  {
  }

  /** `sendTransaction`: a provider is required first; the signed transaction is then
      broadcast. `hasProvider` stands for `this.provider` being set. */
  function SendTransaction(signer: Signer, device: Device, env: SignerEnv, hasProvider: bool, tx: TxRequest)
    : (r: (Signer, Result<string>))
    ensures !hasProvider ==> r == (signer, Err(Thrown(NoProvider)))
    ensures hasProvider && Validate(tx).Err? ==> r == (signer, Err(Validate(tx).error))
    ensures hasProvider && Validate(tx).Ok? ==> r.0 == BuildBaseTx(signer, device, env, tx, Validate(tx).value).0
    ensures r.1.Ok? ==> hasProvider && Validate(tx).Ok? && BuildBaseTx(signer, device, env, tx, Validate(tx).value).1.Ok?
  {
    if !hasProvider then (signer, Err(Thrown(NoProvider)))
    else
      var (s, signed) := SignAndSerialize(signer, device, env, tx);
      if signed.Err? then (s, Err(signed.error))
      else
        match env.broadcast(signed.value)
        case Err(e) => (s, Err(e))
        case Ok(sent) => (s, Ok(sent))
  }

  /** Sending broadcasts exactly the transaction signing produces and returns the
      provider's answer; unlike signing, it does not refuse an empty serialization. */
  lemma SendBroadcastsSignedTransaction(signer: Signer, device: Device, env: SignerEnv, tx: TxRequest)
    ensures SignTransaction(signer, device, env, tx).1.Ok? ==>
              var (s, signed) := SignTransaction(signer, device, env, tx);
              SendTransaction(signer, device, env, true, tx) ==
                (s, match env.broadcast(signed.value) case Ok(sent) => Ok(sent) case Err(e) => Err(e))
    ensures SignTransaction(signer, device, env, tx).1 == Err(Thrown(FailedToSign)) && SignAndSerialize(signer, device, env, tx).1.Ok? ==>
              var (s, signed) := SignAndSerialize(signer, device, env, tx);
              signed.value == "" &&
              SendTransaction(signer, device, env, true, tx) ==
                (s, match env.broadcast("") case Ok(sent) => Ok(sent) case Err(e) => Err(e))
  {
  }

  /** An address the device gave while a request was being built stays cached when a later
      step throws (an unparsable amount, a failed nonce query, a device signing failure, an
      empty serialization): the next call reads it without asking the device again. */
  lemma LookupSurvivesLaterFailure(signer: Signer, device: Device, env: SignerEnv, tx: TxRequest, other: Device)
    requires !Filled(tx.from) && Validate(tx).Ok?
    requires GetAddress(signer, device).Ok? && GetAddress(signer, device).value.1 != ""
    ensures var (s, a) := GetAddress(signer, device).value;
            && SignTransaction(signer, device, env, tx).0 == s
            && SendTransaction(signer, device, env, true, tx).0 == s
            && GetAddress(s, other) == Ok((s, a))
  {
  }
}

=== FILE: types.dfy ===
/** The chain identifiers and fee tiers shared by every package. */
module Types {
  import opened Wrappers

  /** The supported chains. The `Chain` enumeration of the types package is not part of
      this model; this list and the values below are assumed from the chains the modelled
      code and its tests name. */
  datatype Chain =
    | Arbitrum | Avalanche | Binance | BinanceSmartChain | Bitcoin | BitcoinCash | Cosmos
    | Dogecoin | Ethereum | Kujira | Litecoin | Maya | Optimism | Polygon | THORChain

  /** The string value of each chain identifier. */
  function ChainName(c: Chain): string {
    match c
    case Arbitrum => "ARB"
    case Avalanche => "AVAX"
    case Binance => "BNB"
    case BinanceSmartChain => "BSC"
    case Bitcoin => "BTC"
    case BitcoinCash => "BCH"
    case Cosmos => "GAIA"
    case Dogecoin => "DOGE"
    case Ethereum => "ETH"
    case Kujira => "KUJI"
    case Litecoin => "LTC"
    case Maya => "MAYA"
    case Optimism => "OP"
    case Polygon => "MATIC"
    case THORChain => "THOR"
  }

  /** Every chain, in declaration order (`Object.values(Chain)`). */
  const AllChains: seq<Chain> :=
    [Arbitrum, Avalanche, Binance, BinanceSmartChain, Bitcoin, BitcoinCash, Cosmos,
     Dogecoin, Ethereum, Kujira, Litecoin, Maya, Optimism, Polygon, THORChain]

  lemma AllChainsComplete(c: Chain)
    ensures c in AllChains
  {
  }

  /** Reads a chain identifier back from its string value; `None` for any other string
      (the `'unsupported' as Chain` case). */
  function ParseChain(s: string): (r: Option<Chain>)
    ensures r.Some? ==> ChainName(r.value) == s
    ensures forall c: Chain :: ChainName(c) == s ==> r == Some(c)
  {
    if s == "ARB" then Some(Arbitrum)
    else if s == "AVAX" then Some(Avalanche)
    else if s == "BNB" then Some(Binance)
    else if s == "BSC" then Some(BinanceSmartChain)
    else if s == "BTC" then Some(Bitcoin)
    else if s == "BCH" then Some(BitcoinCash)
    else if s == "GAIA" then Some(Cosmos)
    else if s == "DOGE" then Some(Dogecoin)
    else if s == "ETH" then Some(Ethereum)
    else if s == "KUJI" then Some(Kujira)
    else if s == "LTC" then Some(Litecoin)
    else if s == "MAYA" then Some(Maya)
    else if s == "OP" then Some(Optimism)
    else if s == "MATIC" then Some(Polygon)
    else if s == "THOR" then Some(THORChain)
    else None
  }

  /** The `EVMChains` list. */
  predicate IsEvmChain(c: Chain) {
    c in {Arbitrum, Avalanche, BinanceSmartChain, Ethereum, Optimism, Polygon}
  }

  /** The `UTXOChain` type. */
  predicate IsUtxoChain(c: Chain) {
    c in {Bitcoin, BitcoinCash, Dogecoin, Litecoin}
  }

  datatype FeeOption = Average | Fast | Fastest

  /** The string value of each fee tier. */
  function FeeOptionName(f: FeeOption): string {
    match f
    case Average => "average"
    case Fast => "fast"
    case Fastest => "fastest"
  }
}

=== FILE: wallets.dfy ===
/** The per-chain connected-wallet record (`ChainWallet`): address, cached balance and the
    capabilities bound to that wallet and chain. Optional capabilities are `Option`s; every
    capability is an SDK call whose outcome is a `Result`. */
module Wallets {
  import opened Wrappers
  import opened Errors
  import opened Js
  import opened Types
  import opened Assets

  /** Arguments of the ERC-20 `isApproved`/`approve` wallet actions. */
  datatype ApproveParams = ApproveParams(
    amount: nat,
    assetAddress: string,
    from: string,
    spenderAddress: string)

  /** `CoreTxParams`: the asset being sent plus the remaining, untyped fields
      (`recipient`, `memo`, `from`, `router`, `feeOptionKey`, ...). */
  datatype TxParams = TxParams(assetValue: AssetValue, fields: map<string, JsValue>)

  /** Arguments of an EVM wallet's `call` (contract call with `txOverrides`). */
  datatype ContractCall = ContractCall(
    contractAddress: string,
    funcName: string,
    funcParams: seq<JsValue>,
    from: string,
    value: Option<nat>,
    feeOption: Option<FeeOption>)

  datatype ChainWallet = ChainWallet(
    chain: Chain,
    address: string,
    balance: seq<AssetValue>,
    getBalance: (string, Option<bool>) -> Result<seq<AssetValue>>,
    transfer: TxParams -> Result<string>,
    deposit: Option<TxParams -> Result<string>>,
    call: Option<ContractCall -> Result<string>>,
    approve: Option<ApproveParams -> Result<string>>,
    isApproved: Option<ApproveParams -> Result<bool>>,
    validateAddress: Option<string -> bool>)

  /** The chain-keyed registry of connected wallets (`Wallets`). */
  type WalletRegistry = map<Chain, ChainWallet>

  /** `wallets[chain]?.address || ""`: the address registered for `chain`. */
  function RegistryAddress(wallets: WalletRegistry, chain: Chain): (r: string)
    ensures chain !in wallets ==> r == ""
    ensures chain in wallets ==> r == wallets[chain].address
  {
    if chain in wallets then wallets[chain].address else ""
  }

  /** The rejection raised when a method of a wallet is called but is absent
      (`TypeError: ... is not a function`). */
  const NotAFunction: Error := Thrown("is not a function")
}

=== FILE: wrappers.dfy ===
/** Optional values: the model's reading of `undefined`/`null` in the TypeScript source. */
module Wrappers {

  datatype Option<+T> = None | Some(value: T) {

    /** Returns the wrapped value, or `default` when absent (the source's `?? default`). */
    function GetOr(default: T): T {
      match this
      case Some(v) => v
      case None => default
    }
  }
}
